=== FILE: README.md ===
# rewriter — a verified model of the writing pipeline

This project models the core of *rewriter*, a Next.js application that turns a writing intent
(topic, audience, style, goals) into a finished Chinese Markdown article. The program's core is:

- **the pipeline** (`runPipeline`). It runs ten nodes in a fixed order:
  intent, outline-multi, outline-merge, write-sections, image-prompts, image-generation,
  merge-assembly, expert-review, fact-check and final-merge, followed by the git and tts markers.
  - Each stage asks its configured, enabled LLM backends in turn.
  - A stage falls back to local placeholders when no backend answers usefully.
  - The final-merge stage streams tokens into one shared accumulator.
- **the final-document assembler**. It repairs the final Markdown in four steps:
  1. It rebuilds a document that has no `##` heading.
  2. It appends the image-prompt appendix.
  3. It places each image under its matching `##` heading, or in a gallery when none matches.
  4. It makes sure the document has a title.
- **the Jimeng text-to-image route** (`POST /api/image/jimeng`). It:
  - validates the request body;
  - snaps the requested size to a safe set;
  - digs access and secret keys out of loosely formatted configuration;
  - signs requests in the Volcengine HMAC-SHA256 style;
  - submits a task, then polls it for up to twenty attempts.
- **the LLM clients** (`lib/llm/providers.ts`):
  - the OpenAI-compatible call with its server-sent-events stream reader;
  - the Anthropic call;
  - the per-backend clients, which substitute a placeholder reply when a call fails.
- **the configuration and prompt stores**. These are the in-memory `AppConfig` with its defaults,
  `setConfig`, the `/api/config` GET/POST route (validation, secret-preserving merge, masking)
  and the prompt store.

## How the model is built

- **Modules.** The Dafny modules follow the program's files:

  | Module | Models |
  |---|---|
  | `Config` | `lib/config.ts` |
  | `Prompts` | `lib/prompts.ts` |
  | `ConfigRoute` | `app/api/config/route.ts` |
  | `Jimeng` | the image route |
  | `Providers` | the LLM clients |
  | `Pipeline` | `runPipeline` |
  | `Assembler` | its final-document repair chain |

  Shared modules: `Json` (JSON values, truthiness and optional-chaining reads), `Record`
  (string-keyed records with JavaScript's insertion order and spread), `Text` (trimming, splitting,
  containment), `Doc` (outlines, sections, drafts, images) and `Wrappers` (`Option`).
- **Records.** A JavaScript object is modelled as a sequence of `(key, value)` pairs with unique
  keys. Insertion order is visible to `Object.keys`, and `{...a, ...b}` is `Record.Overlay`.
- **External effects are parameters.** These cover:
  - every LLM reply, image draw, `uuidv4()` value, abort flag, environment variable and HTTP reply;
  - `JSON.parse` / `JSON.stringify`;
  - base64 decoding;
  - SHA-256 and HMAC;
  - `encodeURIComponent`;
  - the NFKC-and-punctuation `normalize` of the image placement;
  - the case-insensitive key/value regular expressions of the key extraction.

  Each is an uninterpreted function, and the properties hold for every choice of them.
- **Numbers and strings.** Numbers are integers. Strings are sequences of Dafny `char`s, which
  are Unicode scalar values, not the UTF-16 code units JavaScript strings are made of (see
  "Left out").

## Model

| member | source | states |
|---|---|---|
| Config.OverlayDefaults | lib/config.ts:84-91 | A stored configuration spread over the defaults keeps every default provider, image-provider and stage key and always has an `image-generation` list; a provider or stage list in the file wins over the default for its key, and a stored concurrency wins over the default. |
| Config.InitialConfig | lib/config.ts:106-123 | Start-up uses the defaults when there is no readable file, and the file overlaid on the defaults otherwise. |
| Config.Reload | lib/config.ts:126-129 | The asynchronous refresh replaces the configuration only when the file loaded; a failed load keeps the current one. |
| Config.SetConfigMaps | lib/config.ts:135-143 | `setConfig` replaces a supplied provider, image-provider, stage or image-stage entry wholesale and keeps every key it does not mention. |
| Config.SetConfigScalars | lib/config.ts:135-143 | A supplied concurrency, budget or TTS provider replaces the current one, an omitted one is kept, and an empty patch changes nothing except materialising the image-stage map. |
| Config.SetConfigTwice | lib/config.ts:135-143 | Applying the same patch twice is the same as applying it once. |
| Prompts.DefaultsComplete | lib/prompts.ts:5-27 | The nine prompt keys are distinct, and the default store has exactly those keys in declaration order, each with its default text. |
| Prompts.GetPrompt | lib/prompts.ts:32 | A store that has every key yields a text for each key, and any text returned is the one stored under that key. |
| Prompts.SetPrompts | lib/prompts.ts:33 | Each key reads from the patch if the patch has it and from the store otherwise; existing keys keep their order; a complete store stays complete with the same keys. |
| Prompts.ResetPrompts | lib/prompts.ts:34 | After a reset, the store holds exactly the default texts under the nine keys. |
| Prompts.SetPromptsLaws | lib/prompts.ts:29-34 | An empty patch is a no-op, and repeating a patch changes nothing more. |
| ConfigRoute.DecodeProvider | app/api/config/route.ts:7-14 | A provider entry is accepted exactly when it is an object whose enabled and useWebSearch are booleans or absent and whose apiKey, model, ak and sk are strings or absent; each of the six fields is then present exactly when sent and holds the sent value. |
| ConfigRoute.DecodeProviderMap | app/api/config/route.ts:32-33 | A provider map decodes exactly when every key is admitted and every entry decodes, and each key then holds its last entry decoded. |
| ConfigRoute.ProviderMap | app/api/config/route.ts:32 | A provider map is accepted exactly when it is an object whose every entry decodes, and each key holds its last entry decoded. |
| ConfigRoute.KeysAdmitted | app/api/config/route.ts:32-33 | Every key of a decoded provider map is an admitted key. |
| ConfigRoute.ImageProviderMap | app/api/config/route.ts:33 | An image-provider map is accepted exactly when it is an object whose every key is keling, paiwo, jimeng or nanobanana and whose every entry decodes; each key holds its last entry decoded. |
| ConfigRoute.DecodeNames | app/api/config/route.ts:37-40 | A backend list decodes exactly when it is an array of strings that all name allowed backends. |
| ConfigRoute.DecodeStageMap | app/api/config/route.ts:37 | A stage map decodes exactly when every key is a stage key and every list names model backends, and each stage then holds its last list decoded. |
| ConfigRoute.StageKeysAdmitted | app/api/config/route.ts:37 | Every key of a decoded stage map is one of the ten stage keys. |
| ConfigRoute.StageMap | app/api/config/route.ts:37 | A stage map is accepted exactly when it is an object whose every key is a stage key and whose every value is a list of model backends; each stage holds its last list decoded. |
| ConfigRoute.OptMap | app/api/config/route.ts:31-43 | An optional field is accepted exactly when it is absent or decodes, and the accepted field is absent exactly when not sent and otherwise holds the decoded value. |
| ConfigRoute.Concurrency | app/api/config/route.ts:34 | Concurrency is accepted exactly when it is a number from 1 to 8. |
| ConfigRoute.Budget | app/api/config/route.ts:35 | The budget is accepted exactly when it is a non-negative number. |
| ConfigRoute.Tts | app/api/config/route.ts:36 | The TTS provider is accepted exactly when it is web, azure, elevenlabs or xunfei. |
| ConfigRoute.Validate | app/api/config/route.ts:31-43 | A body is accepted exactly when it is an object whose providers, imageProviders, concurrency, budgetUSD, ttsProvider, stageProviders and imageStageProviders are each absent or valid; every field of the patch is then absent exactly when not sent and otherwise holds the decoded value. |
| ConfigRoute.Secret | app/api/config/route.ts:49-50 | A missing or blank incoming ak/sk keeps the stored secret; a non-blank one replaces it. |
| ConfigRoute.MergeProvider | app/api/config/route.ts:46-54 | The merged entry takes each of enabled, apiKey, model and useWebSearch from the incoming entry when sent and from the stored one otherwise, and its ak and sk follow the secret rule. |
| ConfigRoute.MergeProviderLaws | app/api/config/route.ts:46-54 | An empty incoming entry is a no-op, merging twice equals merging once, a blank ak never wipes the stored one, and sent apiKey, model and enabled values win. |
| ConfigRoute.MergeProviderMaps | app/api/config/route.ts:55-62 | The merged map has the union of both key sets with the current keys first, and each entry is the per-provider merge. |
| ConfigRoute.UnmentionedKept | app/api/config/route.ts:55-62 | A provider the request does not mention keeps its stored entry unchanged. |
| ConfigRoute.Merged | app/api/config/route.ts:94-103 | The merged patch always carries every map and scalar, with sent scalars winning over current ones. |
| ConfigRoute.StageListsReplaced | app/api/config/route.ts:101 | A sent stage list replaces that stage's list, and other stages keep theirs. |
| ConfigRoute.SanitizeProvider | app/api/config/route.ts:107-111 | Masking removes ak and sk, reports whether each was non-empty, and keeps every other field. |
| ConfigRoute.SanitizeMap | app/api/config/route.ts:114-119 | Masking a map keeps its keys in order and masks every entry. |
| ConfigRoute.Mask | app/api/config/route.ts:112-121 | The masked configuration has the same provider keys and the same scalars and stage maps as the configuration it masks. |
| ConfigRoute.Post | app/api/config/route.ts:85-122 | An invalid body gives 400 and stores nothing; a valid one gives 200, stores `setConfig` of the merge and replies with the masked merge. |
| ConfigRoute.PostStoresMerge | app/api/config/route.ts:94-105 | After a valid POST, every provider entry and every image-provider entry is the secret-preserving merge of the stored and sent entries. |
| ConfigRoute.ConcurrencyOutOfRange | app/api/config/route.ts:34 | A concurrency outside 1..8 is rejected with 400 and the configuration is unchanged. |
| ConfigRoute.UnknownStage | app/api/config/route.ts:37 | A stage list under an unknown stage name is rejected with 400 and the configuration is unchanged. |
| Jimeng.RemoveWs | app/api/image/jimeng/route.ts:10 | The result has no whitespace, keeps every non-whitespace character, is never longer, and leaves text without whitespace unchanged. |
| Jimeng.RemoveWsAppend | app/api/image/jimeng/route.ts:10 | Whitespace is removed piece by piece: the result for `a + b` is the result for `a` followed by that for `b`, so the remaining characters keep their order. |
| Jimeng.DecodeTwice | app/api/image/jimeng/route.ts:9-20 | At most two base64 decodes happen; decoding stops early only at a decode that fails or changes nothing; an empty result means an empty input. |
| Jimeng.SanitizePrintable | app/api/image/jimeng/route.ts:21-23 | The result is all printable ASCII, never longer, keeps every printable character, and leaves printable text unchanged. |
| Jimeng.SanitizeIdempotent | app/api/image/jimeng/route.ts:21-23 | Sanitising twice equals sanitising once. |
| Jimeng.AkRun | app/api/image/jimeng/route.ts:33 | The run is exactly the maximal block of key characters from the position. |
| Jimeng.AklAt | app/api/image/jimeng/route.ts:33 | A match starts at a position exactly when `AKL`, a letter or digit and ten key characters follow it. The match is the text at that position, 14 to 68 key characters long, and it stops only at the 68-character cap, the end of the text or a non-key character, as the greedy engine does. |
| Jimeng.AklFrom | app/api/image/jimeng/route.ts:33 | The search returns the match at the leftmost position that has one, and nothing exactly when no position from the start has one. |
| Jimeng.Reads | app/api/image/jimeng/route.ts:41 | The reads are the object's fields under each candidate key, in order. |
| Jimeng.JsonField | app/api/image/jimeng/route.ts:39-43 | A key found in parsed JSON is non-empty and already trimmed. |
| Jimeng.FirstSome | app/api/image/jimeng/route.ts:26-64 | The first hit exists exactly when some trial hits, and it is the earliest hit. |
| Jimeng.FirstSomeAppend | app/api/image/jimeng/route.ts:26-64 | Trials of the second source are reached only when every trial of the first misses. |
| Jimeng.AkFromSourceFirstHit | app/api/image/jimeng/route.ts:26-64 | The chain of early returns for the access key is the first hit over the ordered trials (raw match, raw key/value, raw JSON, decoded JSON, decoded key/value, decoded match, token shape). |
| Jimeng.SkFromSourceFirstHit | app/api/image/jimeng/route.ts:65-101 | The chain of early returns for the secret key is the first hit over its ordered trials. |
| Jimeng.ExtractAkOrder | app/api/image/jimeng/route.ts:24-64 | The stored access key is tried before the API key; a blank stored key falls through to the API key. |
| Jimeng.ExtractSkOrder | app/api/image/jimeng/route.ts:65-101 | The stored secret is tried before the API key; a blank stored secret falls through to the API key. |
| Jimeng.RawAklWins | app/api/image/jimeng/route.ts:30-34 | A stored key that already begins with a raw `AKL` key is used as matched, never base64-decoded. |
| Jimeng.LooseExtract | lib/pipeline.ts:493-504 | The loose extractor tries, in order, a JSON secret field of the decoded text, a short `sk=` value, and the decoded text itself when it looks like a secret, and yields the first that applies or the empty string. |
| Jimeng.ValidateBody | app/api/image/jimeng/route.ts:103-107 | A body is accepted exactly when it is an object with a non-empty string prompt and each size absent or a number in 64..2048. The accepted body carries the prompt and the sizes sent, with 1024 for an omitted one. |
| Jimeng.Clamped | app/api/image/jimeng/route.ts:121 | The rounded size is a multiple of 64 in 64..2048. A size of 0 is treated as 1024. An in-range request rounds to the nearest multiple of 64 (at most 32 below it, less than 32 above). A request below 96 gives 64, and one from 2016 up gives 2048. |
| Jimeng.PickSize | app/api/image/jimeng/route.ts:119-127 | The size sent upstream is the smallest safe size not below the rounded request. |
| Jimeng.Pad2 | app/api/image/jimeng/route.ts:157-161 | Below 100 the padding is the tens digit followed by the units digit; from 100 it is the plain decimal. |
| Jimeng.XDateShape | app/api/image/jimeng/route.ts:155-163 | `X-Date` is sixteen characters: eight date digits, `T`, six time digits, `Z`, and begins with the signing date. |
| Jimeng.SignAndBuild | app/api/image/jimeng/route.ts:168-204 | A signed request goes to `https://visual.volcengineapi.com/?` followed by its action's query. Its headers are exactly Content-Type `application/json`, X-Date, X-Content-Sha256 and Authorization (plus the token below), carrying the body's SHA-256 and the `X-Date`. The `Authorization` value is `HMAC-SHA256 Credential=<ak>/<scope>, SignedHeaders=<list>, Signature=<hex HMAC of the string to sign under the day's derived key>`. A security token is present exactly when one is configured, and the body is sent unchanged. |
| Jimeng.Headers | app/api/image/jimeng/route.ts:194-201 | The request headers are exactly Content-Type (`application/json`), X-Date, X-Content-Sha256 and Authorization, plus X-Security-Token exactly when a token is set, with the body hash, date and authorisation values. |
| Jimeng.CanonicalRequestLines | app/api/image/jimeng/route.ts:172-182 | The canonical request is, line by line: method, path, query, the four canonical header lines, a blank line, the signed-header list and the body hash. |
| Jimeng.StringToSignLines | app/api/image/jimeng/route.ts:184-185 | The string to sign is exactly four lines: algorithm, `X-Date`, scope and canonical-request hash. |
| Jimeng.PushMaybe | app/api/image/jimeng/route.ts:240-243 | The candidates are exactly the non-empty strings the value offers: the value itself when it is one, or the string items of an array. The first candidate is the value itself or the array's earliest non-empty string. |
| Jimeng.NonEmptyStrings | app/api/image/jimeng/route.ts:242 | The kept items are exactly the array's non-empty strings, and the first kept is the earliest one. |
| Jimeng.PushAll | app/api/image/jimeng/route.ts:239-253 | Candidates gathered over several reads are exactly those each read offers. There are some exactly when some read offers one, and the first comes from the first read that offers any. |
| Jimeng.UrlCandidates | app/api/image/jimeng/route.ts:239-253 | Over the ten URL paths in reading order, the candidates are exactly those each path offers. There are some exactly when a path offers one, and the first is the first candidate of the first such path. |
| Jimeng.Base64Image | app/api/image/jimeng/route.ts:261-265 | The fallback is `data:image/jpeg;base64,` and the first item of `data.binary_data_base64` when that is an array led by a non-empty string. It is the first item of `BinaryDataBase64` when the former is not truthy. Nothing else gives a fallback. |
| Jimeng.ImageOf | app/api/image/jimeng/route.ts:253-265 | A reply's image is the first candidate of the first URL path that offers one. When no path offers one, it is the base64 fallback. |
| Jimeng.Classify | app/api/image/jimeng/route.ts:228-275 | A thrown fetch crashes the handler. A 429 or 5xx reply is retried, and any other non-2xx reply fails with its status. A 2xx reply yields its image when it has one; otherwise it stops on a terminal status and waits on any other. |
| Jimeng.PollFrom | app/api/image/jimeng/route.ts:224-276 | Polling sends at most one request per remaining attempt, and a URL it finds is non-empty and came from some attempt. |
| Jimeng.PollStopsAtFirst | app/api/image/jimeng/route.ts:224-276 | Polling ends at the first attempt that neither waits nor retries, after one request per attempt up to it; when all twenty wait, it ends without a URL after twenty requests. |
| Jimeng.PollFinds | app/api/image/jimeng/route.ts:224-276 | Polling finds a URL exactly when some attempt yields it and every earlier attempt only waited or retried. |
| Jimeng.PollEndsAt | app/api/image/jimeng/route.ts:224-282 | When attempt `j` is the first that neither waits nor is retried, exactly `j + 2` requests are sent (the submit first). The reply is 200 with that attempt's URL, 500 for a thrown fetch, and 502 otherwise. |
| Jimeng.PollExhausted | app/api/image/jimeng/route.ts:224-279 | When all twenty attempts wait or are retried, the reply is 502 after 21 requests. |
| Jimeng.EnvFirst | app/api/image/jimeng/route.ts:140-141 | The environment fallback is the first non-empty listed variable, and empty exactly when every listed variable is empty. |
| Jimeng.AfterPoll | app/api/image/jimeng/route.ts:278-282 | The reply is 200 with the URL exactly when polling found one. An upstream failure or a missing URL gives 502, and a crash gives 500. The submit request is sent first and every later request is the GetResult request. |
| Jimeng.Poll | app/api/image/jimeng/route.ts:220-282 | A 200 reply carries a non-empty URL after at least one poll, and at most 21 requests are sent. |
| Jimeng.Submit | app/api/image/jimeng/route.ts:206-282 | The first request sent is the signed submit. A thrown submit gives 500, and a non-2xx submit or one naming no task gives 502; in these cases only the submit is sent. Otherwise the task is polled with the GetResult request for the task named. At most 21 requests are sent, and a 200 carries a non-empty URL. |
| Jimeng.Launch | app/api/image/jimeng/route.ts:146-282 | The submit sent is the signed one with the request key, the prompt and both sizes snapped to a safe size. The token and request key come from the environment, and the exchange is the submit-and-poll one. |
| Jimeng.Post | app/api/image/jimeng/route.ts:109-286 | The route answers 400 exactly when the body is invalid or either key is missing after extraction and the environment fallback, and then sends nothing. Otherwise the exchange is the launch with the validated body and the extracted keys: at most 21 requests go out, and a 200 carries a non-empty URL. |
| Jimeng.PostEndsAt | app/api/image/jimeng/route.ts:109-282 | For a valid body with credentials whose submit names a task, the handler ends at the first attempt that neither waits nor is retried, after `j + 2` requests. It answers 200 with that attempt's image, 500 for a thrown fetch, and 502 otherwise. |
| Jimeng.PostSubmitRejected | app/api/image/jimeng/route.ts:209-218 | A submit that is not 2xx, or whose reply names no task, gives 502 after that one request. |
| Providers.LineToken | lib/llm/providers.ts:49-64 | A line yields a token exactly when it is a `data:` line other than `[DONE]` whose payload parses and whose `delta.content ?? message.content` is truthy, and the token is that content. |
| Providers.LineTokenCases | lib/llm/providers.ts:49-62 | A line yields a token exactly when it is a trimmed `data:` line, its payload is not `[DONE]`, the payload parses and the chosen content is truthy. |
| Providers.LineTokens | lib/llm/providers.ts:47-67 | A run of complete lines yields at most one truthy token per line. |
| Providers.EmitLine | lib/llm/providers.ts:47-67 | Processing one more line adds that line's token, if any, to the tokens and to the accumulated text. |
| Providers.AppendChunk | lib/llm/providers.ts:46 | Appending a chunk to the buffer only ever continues the pending partial line. |
| Providers.Drain | lib/llm/providers.ts:47-67 | The inner loop consumes every complete line in the buffer, leaves the partial line as the new buffer, and keeps the token list and the text in step with the lines consumed. |
| Providers.ReadStream | lib/llm/providers.ts:41-68 | The reader's tokens are exactly those of the complete lines of the whole body, all truthy, and the full text is their concatenation. |
| Providers.NextChunk | lib/llm/providers.ts:44-46 | Reading the next chunk continues the pending line with that chunk. |
| Providers.TrailingTextIgnored | lib/llm/providers.ts:43-68 | Text after the last newline never yields a token. |
| Providers.ChunkingIrrelevant | lib/llm/providers.ts:40-46 | How the body is split into chunks does not change the tokens. |
| Providers.StripSlash | lib/llm/providers.ts:19 | At most one trailing slash is removed from the base URL. |
| Providers.Decide | lib/llm/providers.ts:69-90 | In JSON mode the reply succeeds exactly when the text parses, carrying the parsed value, and fails with a parse error otherwise; outside JSON mode the text is returned as is. |
| Providers.Completed | lib/llm/providers.ts:36-90 | A streamed reply decides on the stream reader's full text: as that text outside JSON mode, and by parsing it in JSON mode. A missing body is "No response body". A non-stream reply that does not parse is an error. Outside JSON mode, one that parses returns `choices[0].message.content ?? ''`. In JSON mode it succeeds exactly when that content parses, carrying the parsed value, and fails with "JSON parse failed" otherwise. |
| Providers.CompatCall | lib/llm/providers.ts:15-94 | No request is sent exactly when the key is missing, and then the result is "Missing API key". A sent request goes to `<base>/chat/completions` with the bearer key and the chat body. A thrown fetch gives its reason. A non-2xx reply gives `HTTP <status>: <text>` and no tokens. A 2xx reply gives the completed result, and tokens come only from a streamed body. |
| Providers.JsonModeIff | lib/llm/providers.ts:69-89 | For a successful HTTP reply in JSON mode, the call succeeds exactly when the streamed text (or the first choice of a non-stream reply) parses as JSON, and it then carries the parsed value. |
| Providers.SystemPrompt | lib/llm/providers.ts:105 | The system prompt is the content of the first system message, and there is none exactly when no message is a system message. |
| Providers.NonSystem | lib/llm/providers.ts:106 | The forwarded messages contain no system message and are all messages when none is a system message. |
| Providers.NonSystemAppend | lib/llm/providers.ts:106 | Dropping system messages distributes over concatenation, so the order of the rest is kept. |
| Providers.AnthropicBody | lib/llm/providers.ts:118-125 | The Anthropic body carries the model, the system prompt exactly when there is one, the non-system messages in Anthropic form, `max_tokens` 2048, `stream` false, and `response_format` exactly when JSON was asked for. |
| Providers.AnthropicFields | lib/llm/providers.ts:118-125 | The serialised Anthropic fields hold the model, the system prompt only when present, the messages, `max_tokens` 2048, `stream` false, and `response_format` only for JSON requests. |
| Providers.AnthropicCall | lib/llm/providers.ts:99-146 | No request is sent exactly when the key is missing. A sent request goes to the messages endpoint with the `x-api-key` header and the Anthropic body. A thrown fetch gives its reason, and a non-2xx reply gives `HTTP <status>: <text>`. For a 2xx reply, a body that does not parse is an error. Outside JSON mode the reply is `content[0].text`. In JSON mode it succeeds exactly when that text parses, carrying the parsed value. |
| Providers.ModelFor | lib/llm/providers.ts:155-159 | Only the model changes, and a non-empty configured model replaces the request's. |
| Providers.LimiterSize | lib/llm/base.ts:25 | Per-backend concurrency is clamped to 1..2: it is 2 above 2, 1 below 1, and the configured value inside that range. |
| Providers.Chat | lib/llm/providers.ts:161-279 | Every client reply is a success; Gemini always answers with the placeholder without sending anything. |
| Providers.Substitute | lib/llm/providers.ts:172-175 | A failed call is replaced by the placeholder reply, and a successful one is passed through. |
| Providers.ChatWithoutKey | lib/llm/providers.ts:171 | A backend without an API key answers with the placeholder and sends nothing. |
| Doc.DecodeOutline | lib/pipeline.ts:50-52 | A reply decodes to an outline exactly when it is an object whose `sections` is an array, with one section per element. The outline's title and each section's id and title are kept when they are strings and dropped otherwise. A section's bullets are exactly the strings in its `bullets` array. |
| Doc.OutlineRoundTrip | lib/pipeline.ts:50-52 | An encoded outline is outline-like and decodes back to itself. |
| Doc.SectionRoundTrip | lib/pipeline.ts:50-52 | A section decodes back to itself from its encoding. |
| Doc.FallbackOutline | lib/pipeline.ts:53-62 | The fallback outline is titled by the topic, or `未命名主题` when the topic is empty, and has five parts `部分 1`..`部分 5` with the two placeholder bullets and fresh ids. |
| Doc.FallbackIsOutlineLike | lib/pipeline.ts:53-62 | The fallback outline passes the outline check and has sections. |
| Pipeline.EnabledOnly | lib/pipeline.ts:118 | A backend survives the filter exactly when it is listed and enabled. |
| Pipeline.EnabledOnlyAppend | lib/pipeline.ts:118 | Filtering keeps the listed order. |
| Pipeline.EnabledOnlyAll | lib/pipeline.ts:118 | A list of enabled backends passes the filter unchanged. |
| Pipeline.EnabledKeys | lib/pipeline.ts:489 | The enabled keys are exactly the enabled backends. |
| Pipeline.Selected | lib/pipeline.ts:116-119 | A stage's backends are its listed backends filtered to the enabled ones in the listed order, none when the stage is not configured, and the whole list when every listed backend is enabled. |
| Pipeline.SelectedGlobal | lib/pipeline.ts:807-817 | The exported selector returns the stage's enabled listed backends in order when there are any (for image generation, the enabled image list), and all enabled backends otherwise; it is empty exactly when none is enabled. |
| Pipeline.ImageStageList | lib/pipeline.ts:488-489 | A non-empty configured image stage list is used as is; otherwise the list is the enabled image backends in key order. |
| Pipeline.DisabledImageBackendListed | lib/pipeline.ts:488-489 | An explicitly listed image backend is used even when it is disabled. |
| Pipeline.AskJson | lib/pipeline.ts:121-132 | A JSON question yields a value exactly when the client call succeeds, and the value is the call's data. |
| Pipeline.AskText | lib/pipeline.ts:133-149 | A text question yields a value exactly when the call succeeds with a string, and the value is that string. |
| Pipeline.FirstIndex | lib/pipeline.ts:217-223 | The chosen reply is the first acceptable one, and there is none exactly when no reply is acceptable. |
| Pipeline.Chain | lib/pipeline.ts:568-574 | Asking backends in order keeps the first acceptable reply and uses the default only when no reply is acceptable. |
| Pipeline.ChainIgnoresLater | lib/pipeline.ts:217-223 | Once a backend answers acceptably, later backends cannot change the outcome. |
| Pipeline.Passing | lib/pipeline.ts:191-195 | The candidate outlines are empty exactly when no reply is outline-like. |
| Pipeline.PassingAppend | lib/pipeline.ts:191-195 | Candidate outlines keep the backends' order. |
| Pipeline.PassingOne | lib/pipeline.ts:191-195 | One reply contributes its decoded outline exactly when it is outline-like. |
| Pipeline.OutlineMulti | lib/pipeline.ts:188-198 | There is always at least one outline: the passing replies, or three fallback outlines when none passes; every outline is outline-like. |
| Pipeline.NoOutlineGivesFallbacks | lib/pipeline.ts:196-198 | With no outline-like reply, the stage yields three outlines, each titled by the topic with the five placeholder parts. |
| Pipeline.Flatten | lib/pipeline.ts:230 | The flattened sections begin with the first outline's sections, and a section is among them exactly when it belongs to some outline. |
| Pipeline.FlattenAppend | lib/pipeline.ts:230 | Flattening is the in-order concatenation: nothing gives nothing, one outline gives its own sections, and flattening `xs + ys` is flattening `xs` followed by flattening `ys`. |
| Pipeline.Take | lib/pipeline.ts:230 | `slice(0, n)` is a prefix of at most `n` elements, exactly `n` when there are enough, and the whole list when there are not. |
| Pipeline.OutlineMerge | lib/pipeline.ts:210-235 | The merged outline is the first outline-like merge reply; otherwise it has the first outline's title and the first five flattened sections (all of them when fewer), or is the fallback outline when there are no outlines; it is always outline-like. |
| Pipeline.MergeKeepsFirstOutline | lib/pipeline.ts:226-231 | Without a merge reply, a first outline with five or more sections yields its title and its first five sections. |
| Pipeline.BaseSections | lib/pipeline.ts:251-253 | The sections written are the merged outline's, or the fallback parts when it has none; never empty. |
| Pipeline.DraftPlaceholder | lib/pipeline.ts:265 | The placeholder draft is the level-one heading `# <title>` of its section followed by the fixed placeholder body. |
| Pipeline.Draft | lib/pipeline.ts:262-266 | A draft carries its section's id and the reply when that is non-blank, else the placeholder, so a draft is never blank. |
| Pipeline.WriteSections | lib/pipeline.ts:248-273 | There is one non-blank draft per section, in order; section `i` is written by backend `i mod n`, and all are placeholders without backends. |
| Pipeline.PromptTitle | lib/pipeline.ts:292 | An image prompt takes its section's title when that is a non-empty string, and `部分 <n>` otherwise. |
| Pipeline.MakePrompt | lib/pipeline.ts:290-294 | An image prompt carries its section's id and mentions both its title and the topic. |
| Pipeline.MakePrompts | lib/pipeline.ts:290-294 | There is one image prompt per section, in order, each titled and mentioning its title. |
| Pipeline.ImageBackend | lib/pipeline.ts:490-519 | The image backend is used exactly when Jimeng is in the image stage list and either the settings hold a trimmed access key together with a stored secret or one `looseExtract` finds in the stored API key, or the environment holds both keys. The reason is "not selected" exactly when Jimeng is not listed, "from settings" exactly when the settings supply credentials, "from environment" exactly when only the environment does, and "missing credentials" otherwise. |
| Pipeline.ImageUrl | lib/pipeline.ts:521-533 | An image's URL is the drawn URL when the backend is used and draws a non-empty one, and the SVG placeholder of the title otherwise. |
| Pipeline.GenerateImages | lib/pipeline.ts:521-533 | There is one image per prompt with its id, title and prompt, and each URL is the drawn-or-placeholder URL of its prompt. |
| Pipeline.ReviewTakesAnyTruthy | lib/pipeline.ts:598-604 | The review keeps any truthy reply, even a bare number, without checking its shape. |
| Pipeline.Shown | lib/pipeline.ts:661-665 | After each token, the shown text is the concatenation of all tokens so far. |
| Pipeline.ShownGrows | lib/pipeline.ts:654-665 | Each streamed update extends the previous one. |
| Pipeline.SharedAccumulator | lib/pipeline.ts:654 | Tokens from a later backend are appended after the text streamed by earlier, failed backends. |
| Pipeline.FinalMerge | lib/pipeline.ts:648-685 | The final text is the first non-blank streamed reply, or the fallback when every reply is blank; the updates are the running concatenation of the tokens of the attempts up to and including that reply, or of all attempts. |
| Pipeline.Tried | lib/pipeline.ts:654-685 | The attempts made stop one past the first non-blank reply, or run through all of them. |
| Pipeline.FinalDocument | lib/pipeline.ts:642-786 | The final document always has a title line, and the streamed updates only ever grow. |
| Pipeline.Revisions | lib/pipeline.ts:797 | The recorded commits are exactly the non-empty snapshot revisions, never more than the snapshots. |
| Pipeline.RevisionsOne | lib/pipeline.ts:797 | One snapshot records its revision exactly when it is a non-empty string. |
| Pipeline.RevisionsAppend | lib/pipeline.ts:797 | The revisions of earlier stages come before those of later stages, in order. |
| Pipeline.Push | lib/pipeline.ts:152-803 | Each node is appended as the next node kind, done, without changing the earlier nodes or the run's products. |
| Pipeline.Plan | lib/pipeline.ts:152-279 | Planning yields an outline-like merged outline, writes over its base sections, and gives one draft per base section with that section's id. |
| Pipeline.Illustrate | lib/pipeline.ts:282-554 | The image prompts and images follow the base sections one for one. |
| Pipeline.Edit | lib/pipeline.ts:556-794 | Editing yields a final document with a title line and growing streamed updates. |
| Pipeline.Stages | lib/pipeline.ts:152-794 | The stages' products are consistent: drafts, prompts and images follow the base sections, the final document has a title, and streaming only grows. |
| Pipeline.RunNodes | lib/pipeline.ts:64-806 | Nodes are appended in the fixed order, all done; the run finishes exactly when no abort is observed at a checked point; an aborted run stops at the first checked abort; outline, drafts and final appear once their nodes are done. |
| Pipeline.RunPipeline | lib/pipeline.ts:64-806 | A finished run has all twelve nodes, an outline, one draft per base section and a titled final document; streamed updates only grow. |
| Assembler.TitleAt | lib/pipeline.ts:694 | A title match at a position ends after it. |
| Assembler.TitleAtSpec | lib/pipeline.ts:694 | The matcher finds a title exactly when the pattern `\s*#\s+[^\n]+` matches at the position, and reports the longest match, as the greedy engine does. |
| Assembler.FirstTitle | lib/pipeline.ts:694 | The multiline match is at the leftmost line start where the title pattern matches, and none exists exactly when no line start matches. |
| Assembler.StripTitle | lib/pipeline.ts:700-704 | A leading title line is removed together with its newline, and anything else is left alone. |
| Assembler.TitleLine | lib/pipeline.ts:694-699 | The kept title is the first title match, trimmed, or `# 终稿` when there is none. |
| Assembler.DraftFor | lib/pipeline.ts:703 | A section's draft is the first draft with its id, or empty when none has it. |
| Assembler.RepairSections | lib/pipeline.ts:688-709 | A document that already has a `##` heading is left unchanged. |
| Assembler.RepairShape | lib/pipeline.ts:688-709 | A rebuilt document starts with the title line and contains every section's numbered part. |
| Assembler.RepairOverview | lib/pipeline.ts:690-707 | A document without a `##` heading is rebuilt as its title line, then `## 概述` with the body exactly when the body left after the title is non-empty, then the numbered section parts. |
| Assembler.RepairOrder | lib/pipeline.ts:701-706 | Each section's numbered part is followed, in the rebuilt document, by the parts of all later sections, so the parts keep outline order. |
| Assembler.H2Marker | lib/pipeline.ts:690 | A newline followed by `## ` makes a `##` heading. |
| Assembler.RepairIdempotent | lib/pipeline.ts:690-707 | A rebuilt document with an overview or a section has a `##` heading, so repairing it again changes nothing. |
| Assembler.AddAppendix | lib/pipeline.ts:711-718 | The appendix is added only when there are prompts, and always after the existing document. |
| Assembler.AppendixLines | lib/pipeline.ts:714-717 | The document's lines gain exactly a blank line, the appendix heading and one line per prompt. |
| Assembler.SafeTitle | lib/pipeline.ts:310 | The SVG title is at most forty characters: the title itself when short, its forty-character prefix when long, and `配图` when empty. |
| Assembler.SvgDataUri | lib/pipeline.ts:309-313 | The placeholder is the SVG data-URI prefix followed by the encoded SVG document that shows the safe (escaped, truncated) title. |
| Assembler.Hashes | lib/pipeline.ts:732 | The count is exactly the run of leading `#` characters. |
| Assembler.FindHeading | lib/pipeline.ts:738-750 | The heading index is the first `##` line whose normalised text contains or is contained in the normalised title, or -1 when none is. |
| Assembler.InsertKeepsTargets | lib/pipeline.ts:760 | Inserting non-heading lines does not change which titles have a matching heading. |
| Assembler.PlaceOne | lib/pipeline.ts:753-762 | An image is placed exactly when its non-empty normalised title matches a heading, right after the first such heading between blank lines; otherwise the lines are unchanged. |
| Assembler.PlaceAll | lib/pipeline.ts:753-765 | An image is placed exactly when its title matches a heading of the original document, and each placement adds three lines. |
| Assembler.IdTitle | lib/pipeline.ts:725-729 | A title is found for an id exactly when some section has that id and a non-empty title, and it is the title of the last such section. |
| Assembler.Label | lib/pipeline.ts:759 | The alt text is the image title when non-empty and `配图<n>` otherwise. |
| Assembler.ImageLine | lib/pipeline.ts:759 | An image line is never a `##` heading. |
| Assembler.InlineItems | lib/pipeline.ts:753-759 | There is one placement item per image, and no item line is a heading. |
| Assembler.Leftovers | lib/pipeline.ts:768 | The leftovers are exactly the unplaced images, one per unplaced index. |
| Assembler.LeftoversAppend | lib/pipeline.ts:768 | The gallery keeps the images' order: the leftovers of two runs of images are the leftovers of each, in order. |
| Assembler.LeftoversOne | lib/pipeline.ts:768 | A single image is a leftover exactly when it was not placed. |
| Assembler.PlaceImages | lib/pipeline.ts:722-778 | An empty image list leaves the document unchanged. |
| Assembler.EveryImageOnce | lib/pipeline.ts:753-774 | Every image appears exactly once: inline when its title matches a heading, in the gallery otherwise. The document grows by three lines per inline image. |
| Assembler.NoMatchAllInGallery | lib/pipeline.ts:767-774 | When no image matches, the document is kept and every image goes to the gallery. |
| Assembler.NormaliseTitle | lib/pipeline.ts:780-786 | The result always has a title line; a document with one is unchanged, and one without gets `# 终稿` and a blank line in front. |
| Assembler.NormaliseIdempotent | lib/pipeline.ts:783 | Normalising the title twice equals normalising once. |
| Assembler.Assemble | lib/pipeline.ts:687-786 | The assembled document always has a title line, and a titled, sectioned document without prompts or images is left unchanged. |
| Record.GetOverlay | lib/config.ts:137-142 | A key in a spread `{...a, ...b}` reads from `b` when `b` has it and from `a` otherwise. |
| Record.HasOverlay | lib/config.ts:137-142 | A spread has exactly the keys of both sides. |
| Record.KeysOverlayPrefix | lib/config.ts:137-142 | A spread keeps the left side's keys first, in their order. |
| Record.OverlayTwice | lib/config.ts:137-142 | Spreading the same record twice equals spreading it once. |
| Record.OverlayKeysKept | lib/config.ts:84-91 | Spreading a record with no new keys keeps the key set and order. |
| Record.MapEntries | app/api/config/route.ts:75-80 | Mapping entries keeps keys and order and transforms every value. |
| Text.Trim | lib/pipeline.ts:696 | The trimmed text is the original with its leading and trailing whitespace removed: the slice that starts at the first non-whitespace character and is followed only by whitespace. It neither starts nor ends with whitespace, and it is empty exactly when the text is all whitespace. |
| Text.SplitLines | lib/pipeline.ts:735 | Splitting on newlines gives at least one line, and no line contains a newline. |
| Text.JoinSplitLines | lib/pipeline.ts:765 | Joining split lines with newlines gives back the original text. |
| Json.FirstTruthy | app/api/image/jimeng/route.ts:215 | `a || b || c` yields the first truthy candidate: every earlier one is absent or falsy, and nothing is yielded exactly when no candidate is truthy. |

## Left out

- **I/O.**
  - `fetch`, the file system (`saveToDisk`, `loadFromDisk`), snapshots and `simple-git` are replaced by parameters.
  - The timers and `sleep` between polls are not modelled.
  - The `p-limit` limiter is reduced to the size it is created with.
- **Concurrency.** `Promise.allSettled` over backends is modelled as an ordered sequential map.
  This matches the source because every task catches its own errors.
- **Run-state bookkeeping.**
  - The `onUpdate`/`emit` deep copies, `startedAt`/`endedAt` timestamps and the node `data` payloads (prompt texts, provider lists, fact data) are not modelled.
  - The model keeps the node kinds, statuses, outline, drafts and final document.
- **Identifiers and timestamps.**
  - `uuidv4()` is an oracle indexed by a fixed number per call site, not by the order of the calls at run time. 0 is the run id. The three outline-multi fallback outlines take their five part ids from 1-5, 6-10 and 11-15. The outline-merge fallback takes them from 16-20, and the write-sections fallback from 21-25. A real run draws fresh ids in call order, so the model's ids are distinct only when the oracle gives distinct values.
  - `Date` appears only as a `UtcTime` value passed in.
- **Exception messages.** `String(e)` is not modelled.
  - A JSON parse failure carries the fixed text `JSON parse failed`.
  - A thrown `fetch` error becomes `Failed(reason)`, whose text the network oracle supplies.
  - A 2xx reply whose body does not parse as JSON (a throwing `resp.json()`) fails with the fixed text `response body is not JSON`.
- **Pipeline image-stage catch path.** The catch path of the image-generation stage (lib/pipeline.ts:536-543) is not modelled, since it needs a thrown exception.
- **The pipeline's own Jimeng client.** The copy of the Jimeng client inside the pipeline (lib/pipeline.ts:316-484) is represented by the `draw` oracle, which is keyed by the prompt text. Only its `looseExtract` secret finder is modelled (`Jimeng.LooseExtract`), because it decides whether the image backend is used: `Pipeline.ImageBackend` calls it on the stored API key.
  - That copy differs from the route: its `extractAk` falls back to the raw string when nothing matches (lib/pipeline.ts:367), and it returns `undefined` where the route answers with an HTTP error. Neither difference is modelled beyond the oracle.
  - Two prompts with the same text get the same drawn URL, which a real backend need not give.
- **Text decoding.** `TextDecoder` chunking is not modelled: stream chunks arrive as decoded strings. Multi-byte characters split across reads are therefore not represented.
- **Unknown client names.** `getClient` with a name outside the seven model backends is not modelled, so `Providers.Chat` requires a known name. A configuration that went through `/api/config` only admits those names. One loaded from disk at start-up (`Config.InitialConfig`) or on refresh (`Config.Reload`) is not validated, so a stage list read from the file can name another backend, and that case is left out.
- **Other files.** The prompts route, the run routes, the upload route and the UI are not part of this model.
- **Non-integer numbers.** JSON numbers are integers, so fractional sizes, budgets or concurrency values are not represented. This includes `Math.round` on a fraction; the size clamp is modelled on integer requests.
- **Unicode handling.** NFKC normalisation, `\p{P}`/`\p{S}` stripping and `toLowerCase` in image placement are the `norm` parameter. The route's status lower-casing is ASCII-only.
- **UTF-16 code units.** JavaScript measures and slices strings in UTF-16 code units, and the model counts Unicode scalar values. The two agree for text in the Basic Multilingual Plane, which covers the Chinese text the program produces. They differ for characters outside it, such as emoji, which JavaScript counts as two units.
- **Stream reader failures.** A reader that throws in the middle of a stream is not represented: the chunks are a finished list or no body at all. In the source, the tokens already passed to `onToken` stay delivered, and the call then fails with the thrown message.
- **Duplicate JSON keys.** `JSON.parse` keeps the last entry of a repeated key. The model reads objects in two ways:
  - `Json.Field`, used for backend replies and stored values, reads the first entry, so a reply that repeats a key may read differently.
  - The `/api/config` record decoders (`ConfigRoute.DecodeProviderMap`, `ConfigRoute.DecodeStageMap`) give each key its last entry, as `JSON.parse` does. They still require every entry to pass the schema, including an earlier entry that `JSON.parse` would drop, so such a body is rejected where the source accepts it. Duplicate keys in a request body are rare, and checking every entry keeps the decoder a single pass.
- **Image-stage reason text.** `imgGenReason` is one of four cases (`Pipeline.ImageReason`); the `ak:`/`sk:` flags printed in the missing-credentials message are not modelled.
- **Weaker contracts.** Members whose contract is deliberately weaker than the source:
  - Providers.Decide: the parse error text is fixed and does not include the engine's message, for the reason above.
  - Providers.Chat: the contract states only that every client reply is a success and the Gemini case; the per-backend request shape is stated by `CompatCall` and `AnthropicCall` instead.
  - Jimeng.JsonField: it states the shape of a found value, not which key supplied it; the key order is stated by `Reads`.
  - Assembler.PlaceImages: it states only the empty-list case directly; placement and the gallery are stated by `EveryImageOnce` and `NoMatchAllInGallery`.
  - Doc.DecodeOutline: ids and titles survive decoding only as strings. A numeric id or title is dropped, where the source keeps the number and compares it with `===`. Two sections with distinct numeric ids therefore both have no id in the model.
  - Doc.DecodeOutline: a `null` (or other non-object) section element decodes to a section with no id, title or bullets. The source throws on it, at the latest when it builds the image prompts (`s.id` at lib/pipeline.ts:291), which ends the run. That throw is not modelled.
  - Assembler.DraftFor: it compares the string ids the decoding kept, so it inherits the non-string id limitation above.
  - Assembler.IdTitle: it matches string ids only, for the same reason; the source keys on `String(s.id)` (lib/pipeline.ts:728).
  - Pipeline.DraftPlaceholder: the heading shows a non-string title as `undefined`, where the source prints the value itself. The rebuilt section headings of `Assembler.RepairSections` (lib/pipeline.ts:705) do the same.
  - Pipeline.PromptTitle: a non-string title counts as missing and is replaced by `部分 <n>`, where the source keeps a truthy non-string title.
  - Assembler.SafeTitle: forty characters are counted as Unicode scalar values, not UTF-16 code units; see above.

=== FILE: assembler.dfy ===
/** The final-document repair chain of lib/pipeline.ts: sectioning repair when the draft has no
    `##` heading, the image-prompt appendix, image placement under matching headings with a
    gallery for the rest, and title normalisation. The regular expressions involved are
    modelled exactly; Unicode normalisation (`normalize` in the source) and
    `encodeURIComponent` are parameters. */
module Assembler {
  import opened Wrappers
  import opened Text
  import opened Doc

  // ---------------------------------------------------------------- `/^\s*#\s+[^\n]+/`

  /** The characters after which a multiline `^` matches. */
  predicate IsLineTerminator(c: char) {
    c == '\n' || c == '\r' || c == '\U{2028}' || c == '\U{2029}'
  }

  predicate IsLineStart(s: string, p: nat)
    requires p <= |s|
  {
    p == 0 || IsLineTerminator(s[p - 1])
  }

  /** One way `\s*#\s+[^\n]+` matches `s[p..e]`: whitespace up to `q`, a `#`, at least one
      whitespace character up to `j`, then at least one non-newline character up to `e`. */
  ghost predicate TitleSplit(s: string, p: nat, q: nat, j: nat, e: nat) {
    && p <= q && q + 2 <= j < e <= |s|
    && (forall k :: p <= k < q ==> IsWs(s[k]))
    && s[q] == '#'
    && (forall k :: q + 1 <= k < j ==> IsWs(s[k]))
    && (forall k :: j <= k < e ==> s[k] != '\n')
  }

  ghost predicate TitleMatch(s: string, p: nat, e: nat) {
    exists q, j :: TitleSplit(s, p, q, j, e)
  }

  /** Where `[^\n]+` starting at `j` stops. */
  function LineEnd(s: string, j: nat): (e: nat)
    requires j <= |s|
    ensures j <= e <= |s|
    ensures forall k :: j <= k < e ==> s[k] != '\n'
    ensures e == |s| || s[e] == '\n'
    decreases |s| - j
  {
    if j == |s| || s[j] == '\n' then j else LineEnd(s, j + 1)
  }

  /** The largest `j` in `lo..hi` where `[^\n]+` can start: the engine's backtracking of a
      greedy `\s+` that ran to `hi`. */
  function LastStart(s: string, lo: nat, hi: nat): (j: Option<nat>)
    requires hi <= |s|
    ensures j.Some? ==> lo <= j.value <= hi && j.value < |s| && s[j.value] != '\n'
    ensures j.Some? ==> forall k :: j.value < k <= hi && k < |s| ==> s[k] == '\n'
    ensures j.None? ==> forall k :: lo <= k <= hi && k < |s| ==> s[k] == '\n'
    decreases hi
  {
    if hi < lo then None
    else if hi < |s| && s[hi] != '\n' then Some(hi)
    else if hi == 0 then None
    else LastStart(s, lo, hi - 1)
  }

  /** `/\s*#\s+[^\n]+/` tried at position `p`: the end of the match the engine reports. */
  function TitleAt(s: string, p: nat): (e: Option<nat>)
    requires p <= |s|
    ensures e.Some? ==> p < e.value <= |s|
  {
    var q := SkipWs(s, p);
    if q == |s| || s[q] != '#' then None
    else
      var j := LastStart(s, q + 2, SkipWs(s, q + 1));
      if j.None? then None else Some(LineEnd(s, j.value))
  }

  /** `TitleAt` finds a match exactly when the pattern matches at `p`, and reports the longest. */
  lemma TitleAtSpec(s: string, p: nat)
    requires p <= |s|
    ensures TitleAt(s, p).Some? ==> TitleMatch(s, p, TitleAt(s, p).value)
    ensures forall e: nat :: TitleMatch(s, p, e) ==> TitleAt(s, p).Some? && e <= TitleAt(s, p).value
  {
    var q := SkipWs(s, p);
    if q < |s| && s[q] == '#' {
      var j := LastStart(s, q + 2, SkipWs(s, q + 1));
      if j.Some? {
        assert TitleSplit(s, p, q, j.value, LineEnd(s, j.value));
      }
    }
    forall e: nat | TitleMatch(s, p, e) ensures TitleAt(s, p).Some? && e <= TitleAt(s, p).value {
      var q': nat, j': nat :| TitleSplit(s, p, q', j', e);
      assert !IsWs('#');
      assert s[q'] == '#' && q' < |s|;
      assert forall k :: p <= k < q ==> s[k] != '#';
      assert q' == q;
      var w := SkipWs(s, q + 1);
      assert j' <= w;
      assert s[j'] != '\n';
      var j := LastStart(s, q + 2, w);
      assert j.Some? && j' <= j.value;
    }
  }

  /** `s.match(/^\s*#\s+[^\n]+/m)`: the leftmost line start from `p` on where the pattern
      matches, with the end of that match. */
  function FirstTitle(s: string, p: nat): (r: Option<(nat, nat)>)
    requires p <= |s|
    ensures r.Some? ==> p <= r.value.0 <= |s| && IsLineStart(s, r.value.0) && TitleAt(s, r.value.0) == Some(r.value.1)
    ensures r.Some? ==> forall b :: p <= b < r.value.0 && IsLineStart(s, b) ==> TitleAt(s, b).None?
    ensures r.None? ==> forall b :: p <= b <= |s| && IsLineStart(s, b) ==> TitleAt(s, b).None?
    decreases |s| - p
  {
    if IsLineStart(s, p) && TitleAt(s, p).Some? then Some((p, TitleAt(s, p).value))
    else if p == |s| then None
    else FirstTitle(s, p + 1)
  }

  /** `/^\s*#\s+/m.test(s)`: some line start is followed by optional whitespace, `#` and
      whitespace. */
  predicate TitleHeadAt(s: string, p: nat)
    requires p <= |s|
  {
    var q := SkipWs(s, p);
    q + 1 < |s| && s[q] == '#' && IsWs(s[q + 1])
  }

  predicate HasTitleLine(s: string) {
    exists p :: 0 <= p <= |s| && IsLineStart(s, p) && TitleHeadAt(s, p)
  }

  /** `/(^|\n)##\s+/.test(s)`. */
  predicate HasH2(s: string) {
    exists i :: 0 <= i && i + 2 < |s| && (i == 0 || s[i - 1] == '\n') && s[i] == '#' && s[i + 1] == '#' && IsWs(s[i + 2])
  }

  /** A newline followed by `## ` anywhere makes a `##` heading. */
  lemma H2Marker(a: string, b: string)
    ensures HasH2(a + ("\n\n## " + b))
  {
    var s := a + ("\n\n## " + b);
    var i := |a| + 2;
    assert s[i - 1] == '\n' && s[i] == '#' && s[i + 1] == '#' && s[i + 2] == ' ';
  }

  /** `s.replace(/^\s*#\s+[^\n]+\n?/, '')`: a title on the very first line is removed with
      the newline after it; anything else is left alone. */
  function StripTitle(s: string): (r: string)
    ensures TitleAt(s, 0).None? ==> r == s
    ensures TitleAt(s, 0).Some? ==> var e := TitleAt(s, 0).value;
      (e == |s| && r == []) || (e < |s| && s[e] == '\n' && r == s[e + 1..])
  {
    var m := TitleAt(s, 0);
    if m.None? then s
    else if m.value == |s| then [] else s[m.value + 1..]
  }

  // ---------------------------------------------------------------- sectioning repair

  const DefaultTitle := "# 终稿"

  /** The title line kept by the repair: the first title match, trimmed, or `# 终稿`. */
  function TitleLine(md: string): (t: string)
    ensures FirstTitle(md, 0).None? ==> t == DefaultTitle
    ensures FirstTitle(md, 0).Some? ==> |t| <= FirstTitle(md, 0).value.1 - FirstTitle(md, 0).value.0
    ensures FirstTitle(md, 0).Some? ==> t == Trim(md[FirstTitle(md, 0).value.0..FirstTitle(md, 0).value.1])
  {
    var m := FirstTitle(md, 0);
    if m.Some? then Trim(md[m.value.0..m.value.1]) else DefaultTitle
  }

  /** `(drafts || []).find(dr => dr.sectionId === id)?.markdown || ''`. */
  function DraftFor(drafts: seq<DraftSection>, id: Option<string>): (md: string)
    ensures (forall i :: 0 <= i < |drafts| ==> drafts[i].sectionId != id) ==> md == []
    ensures (exists i :: 0 <= i < |drafts| && drafts[i].sectionId == id) ==>
      exists i :: 0 <= i < |drafts| && drafts[i].sectionId == id && md == drafts[i].markdown
               && forall k :: 0 <= k < i ==> drafts[k].sectionId != id
  {
    if |drafts| == 0 then []
    else if drafts[0].sectionId == id then drafts[0].markdown
    else
      var md := DraftFor(drafts[1..], id);
      assert forall i :: 1 <= i < |drafts| ==> drafts[i] == drafts[1..][i - 1];
      md
  }

  /** The part written for section number `n` (1-based): its numbered heading and its
      draft without the draft's own leading title. */
  function SectionPart(n: nat, s: Section, drafts: seq<DraftSection>): string {
    "\n\n## " + (NatToString(n) + ". " + Show(s.title) + "\n\n" + Trim(StripTitle(DraftFor(drafts, s.id))))
  }

  function SectionParts(sections: seq<Section>, drafts: seq<DraftSection>): (r: seq<string>)
    ensures |r| == |sections|
    ensures forall i :: 0 <= i < |sections| ==> r[i] == SectionPart(i + 1, sections[i], drafts)
  {
    seq(|sections|, i requires 0 <= i < |sections| => SectionPart(i + 1, sections[i], drafts))
  }

  /** The document body after its leading title line, trimmed. */
  function Body(md: string): string {
    Trim(StripTitle(md))
  }

  function OverviewPart(md: string): seq<string> {
    if Body(md) != [] then ["\n\n## " + ("概述\n\n" + Body(md))] else []
  }

  /** Lines 688-708: a document without any `##` heading is rebuilt as its title, an optional
      overview, and one numbered `##` part per outline section. */
  function RepairSections(md: string, sections: seq<Section>, drafts: seq<DraftSection>): (r: string)
    ensures HasH2(md) ==> r == md
  {
    if HasH2(md) then md
    else Concat([TitleLine(md)] + OverviewPart(md) + SectionParts(sections, drafts))
  }

  /** The concatenation of a head piece and more pieces starts with the head and contains
      every later piece. */
  lemma ConcatPieces(t: string, over: seq<string>, parts: seq<string>)
    ensures StartsWith(Concat([t] + over + parts), t)
    ensures forall i :: 0 <= i < |parts| ==> Contains(Concat([t] + over + parts), parts[i])
  {
    var xs := [t] + over + parts;
    assert xs[0] == t;
    ConcatHead(xs);
    assert xs[1 + |over|..] == parts;
    TailPiecesContained(xs, 1 + |over|);
  }

  /** The concatenation contains every piece from position `off` on. */
  lemma TailPiecesContained(xs: seq<string>, off: nat)
    requires off <= |xs|
    ensures forall i :: 0 <= i < |xs| - off ==> Contains(Concat(xs), xs[off..][i])
  {
    forall i | 0 <= i < |xs| - off ensures Contains(Concat(xs), xs[off..][i]) {
      ConcatContains(xs, off + i);
    }
  }

  lemma ConcatHead(xs: seq<string>)
    requires |xs| > 0
    ensures StartsWith(Concat(xs), xs[0])
  {
    assert Concat(xs) == xs[0] + Concat(xs[1..]);
    assert (xs[0] + Concat(xs[1..]))[..|xs[0]|] == xs[0];
  }

  /** A rebuilt document starts with the title line and carries every section's part. */
  lemma RepairShape(md: string, sections: seq<Section>, drafts: seq<DraftSection>)
    requires !HasH2(md)
    ensures StartsWith(RepairSections(md, sections, drafts), TitleLine(md))
    ensures forall i :: 0 <= i < |sections| ==>
      Contains(RepairSections(md, sections, drafts), SectionPart(i + 1, sections[i], drafts))
  {
    ConcatPieces(TitleLine(md), OverviewPart(md), SectionParts(sections, drafts));
  }

  /** After the title line comes the `## 概述` part exactly when the body after the title is not
      blank, and then the section parts. */
  lemma RepairOverview(md: string, sections: seq<Section>, drafts: seq<DraftSection>)
    requires !HasH2(md)
    ensures Body(md) != [] ==>
      RepairSections(md, sections, drafts) == TitleLine(md) + ("\n\n## " + ("概述\n\n" + Body(md))) + Concat(SectionParts(sections, drafts))
    ensures Body(md) == [] ==> RepairSections(md, sections, drafts) == TitleLine(md) + Concat(SectionParts(sections, drafts))
  {
    var over := OverviewPart(md);
    RepairIs(md, sections, drafts);
    if Body(md) != [] {
      var part := "\n\n## " + ("概述\n\n" + Body(md));
      assert over == [part];
      assert over[1..] == [];
      assert Concat(over) == part + Concat([]);
      assert Concat(over) == part;
    } else {
      assert over == [];
      assert TitleLine(md) + Concat(over) == TitleLine(md);
    }
  }

  /** Each section's part is followed by the parts of the later sections, in outline order,
      and by nothing else. */
  lemma RepairOrder(md: string, sections: seq<Section>, drafts: seq<DraftSection>, i: nat)
    requires !HasH2(md) && i < |sections|
    ensures var r := RepairSections(md, sections, drafts);
      exists k :: 0 <= k <= |r| && r[k..] == SectionPart(i + 1, sections[i], drafts) + Concat(SectionParts(sections, drafts)[i + 1..])
  {
    var parts := SectionParts(sections, drafts);
    RepairIs(md, sections, drafts);
    PartSuffix(TitleLine(md) + Concat(OverviewPart(md)), parts, i);
  }

  /** The rebuilt document, as one string. */
  lemma RepairIs(md: string, sections: seq<Section>, drafts: seq<DraftSection>)
    requires !HasH2(md)
    ensures RepairSections(md, sections, drafts) == TitleLine(md) + Concat(OverviewPart(md)) + Concat(SectionParts(sections, drafts))
  {
    RepairLayout(TitleLine(md), OverviewPart(md), SectionParts(sections, drafts));
  }

  /** The rebuilt document is the title, the overview pieces and the parts, one after another. */
  lemma RepairLayout(t: string, over: seq<string>, parts: seq<string>)
    ensures Concat([t] + over + parts) == t + Concat(over) + Concat(parts)
  {
    ConcatAppend([t] + over, parts);
    ConcatAppend([t], over);
    assert [t][1..] == [];
  }

  /** After a head, piece `i` of a concatenation is followed by exactly the later pieces. */
  lemma PartSuffix(head: string, parts: seq<string>, i: nat)
    requires i < |parts|
    ensures var r := head + Concat(parts);
      exists k :: 0 <= k <= |r| && r[k..] == parts[i] + Concat(parts[i + 1..])
  {
    var r := head + Concat(parts);
    assert parts == parts[..i] + parts[i..];
    ConcatAppend(parts[..i], parts[i..]);
    assert parts[i..][1..] == parts[i + 1..];
    var k := |head| + |Concat(parts[..i])|;
    assert r == (head + Concat(parts[..i])) + Concat(parts[i..]);
    assert r[k..] == Concat(parts[i..]);
  }

  /** Pieces after the head whose first one opens with a `##` heading give a `##` heading. */
  lemma ConcatH2(t: string, rest: seq<string>, x: string)
    requires |rest| > 0 && rest[0] == "\n\n## " + x
    ensures HasH2(Concat([t] + rest))
  {
    assert ([t] + rest)[1..] == rest;
    var c := Concat(rest[1..]);
    assert Concat(rest) == rest[0] + c;
    var s := Concat([t] + rest);
    assert s == t + (rest[0] + c);
    var i := |t| + 2;
    assert s[i - 1] == '\n' && s[i] == '#' && s[i + 1] == '#' && s[i + 2] == ' ';
  }

  /** A rebuilt document with an overview or at least one section has a `##` heading, so the
      repair leaves its own output alone. */
  lemma RepairIdempotent(md: string, sections: seq<Section>, drafts: seq<DraftSection>)
    requires !HasH2(md) && (Body(md) != [] || |sections| > 0)
    ensures HasH2(RepairSections(md, sections, drafts))
    ensures RepairSections(RepairSections(md, sections, drafts), sections, drafts) == RepairSections(md, sections, drafts)
  {
    var over := OverviewPart(md);
    var parts := SectionParts(sections, drafts);
    var rest := over + parts;
    assert [TitleLine(md)] + over + parts == [TitleLine(md)] + rest;
    if Body(md) != [] {
      assert rest[0] == "\n\n## " + ("概述\n\n" + Body(md));
      ConcatH2(TitleLine(md), rest, "概述\n\n" + Body(md));
    } else {
      var s := sections[0];
      var x := NatToString(1) + ". " + Show(s.title) + "\n\n" + Trim(StripTitle(DraftFor(drafts, s.id)));
      assert rest[0] == parts[0] == "\n\n## " + x;
      ConcatH2(TitleLine(md), rest, x);
    }
  }

  // ---------------------------------------------------------------- image-prompt appendix

  const AppendixHeading := "## 附录：图片提示词"

  /** The appendix line for prompt number `n` (1-based). */
  function AppendixItem(n: nat, p: ImagePrompt): string {
    "- " + NatToString(n) + ". " + p.title + ": " + p.prompt
  }

  function AppendixItems(ps: seq<ImagePrompt>): (r: seq<string>)
    ensures |r| == |ps|
    ensures forall i :: 0 <= i < |ps| ==> r[i] == AppendixItem(i + 1, ps[i])
  {
    seq(|ps|, i requires 0 <= i < |ps| => AppendixItem(i + 1, ps[i]))
  }

  /** Lines 711-718: the appendix is added only when there are prompts. */
  function AddAppendix(md: string, ps: seq<ImagePrompt>): (r: string)
    ensures |ps| == 0 ==> r == md
    ensures |ps| > 0 ==> StartsWith(r, md)
  {
    if |ps| == 0 then md
    else
      var r := md + Join(["\n\n" + AppendixHeading] + AppendixItems(ps), "\n");
      assert r[..|md|] == md;
      r
  }

  /** Appending a blank line, a heading and item lines, joined by newlines, adds exactly those
      lines. */
  lemma AppendLines(md: string, h: string, items: seq<string>)
    requires NoNewline(h)
    requires forall i :: 0 <= i < |items| ==> NoNewline(items[i])
    ensures SplitLines(md + Join(["\n\n" + h] + items, "\n")) == SplitLines(md) + ["", h] + items
  {
    var xs := ["", h] + items;
    assert forall i :: 0 <= i < |xs| ==> NoNewline(xs[i]) by {
      forall i | 0 <= i < |xs| ensures NoNewline(xs[i]) {
        if i >= 2 { assert xs[i] == items[i - 2]; }
      }
    }
    SplitJoinLines(xs);
    var j := Join(xs, "\n");
    HeadingJoin(h, items);
    assert md + Join(["\n\n" + h] + items, "\n") == md + "\n" + j;
    SplitNewlineJoin(md, j);
    assert SplitLines(j) == xs;
  }

  /** The blank line before the heading is one more newline in front of the joined lines. */
  lemma HeadingJoin(h: string, items: seq<string>)
    ensures Join(["\n\n" + h] + items, "\n") == "\n" + Join(["", h] + items, "\n")
  {
    var xs := ["", h] + items;
    assert (["\n\n" + h] + items)[1..] == items;
    assert xs[1..] == [h] + items;
    assert ([h] + items)[1..] == items;
  }

  /** When the prompts' lines hold no newline, the document's lines gain exactly a blank line,
      the appendix heading and one line per prompt, in order. */
  lemma AppendixLines(md: string, ps: seq<ImagePrompt>)
    requires |ps| > 0
    requires forall i :: 0 <= i < |ps| ==> NoNewline(AppendixItem(i + 1, ps[i]))
    ensures SplitLines(AddAppendix(md, ps)) == SplitLines(md) + ["", AppendixHeading] + AppendixItems(ps)
  {
    assert NoNewline(AppendixHeading);
    AppendLines(md, AppendixHeading, AppendixItems(ps));
  }

  // ---------------------------------------------------------------- SVG placeholder

  const SvgHead := "<?xml version=\"1.0\" encoding=\"UTF-8\"?><svg xmlns=\"http://www.w3.org/2000/svg\" width=\"800\" height=\"500\"><defs><style>@import url('https://fonts.googleapis.com/css2?family=Noto+Sans');</style></defs><rect width=\"100%\" height=\"100%\" fill=\"#e5e7eb\"/><text x=\"50%\" y=\"50%\" dominant-baseline=\"middle\" text-anchor=\"middle\" font-size=\"28\" fill=\"#111827\">"
  const SvgTail := "</text></svg>"

  /** `String(title || '配图').slice(0, 40)`: at most forty characters of the title. */
  function SafeTitle(title: string): (t: string)
    ensures |t| <= 40
    ensures title != [] && |title| <= 40 ==> t == title
    ensures title != [] ==> StartsWith(title, t) && (|title| > 40 ==> |t| == 40)
    ensures title == [] ==> t == "配图"
  {
    var src := if title != [] then title else "配图";
    if |src| <= 40 then src else src[..40]
  }

  /** `toSvgDataUri(title)`; `encode` stands for `encodeURIComponent`. */
  function SvgDataUri(encode: string -> string, title: string): (u: string)
    ensures StartsWith(u, "data:image/svg+xml;utf8,")
    ensures u[24..] == encode(SvgHead + SafeTitle(title) + SvgTail)
  {
    var u := "data:image/svg+xml;utf8," + encode(SvgHead + SafeTitle(title) + SvgTail);
    assert u[..24] == "data:image/svg+xml;utf8,";
    u
  }

  // ---------------------------------------------------------------- image placement

  /** `/^##\s+/.test(line)`. */
  predicate IsH2Line(line: string) {
    |line| >= 3 && line[0] == '#' && line[1] == '#' && IsWs(line[2])
  }

  /** The number of `#` characters that open `line`. */
  function Hashes(line: string): (n: nat)
    ensures n <= |line|
    ensures forall k :: 0 <= k < n ==> line[k] == '#'
    ensures n == |line| || line[n] != '#'
  {
    if |line| == 0 || line[0] != '#' then 0
    else
      var n := 1 + Hashes(line[1..]);
      assert forall k :: 1 <= k < n ==> line[k] == line[1..][k - 1];
      n
  }

  /** `headingText(line)`: the line without its opening `#`s, trimmed. */
  function HeadingText(line: string): string {
    Trim(line[Hashes(line)..])
  }

  /** A `##` line is a target for a normalised title when either normalised text contains
      the other; a heading that normalises to nothing therefore matches every title. */
  predicate IsTarget(norm: string -> string, line: string, nTitle: string) {
    IsH2Line(line) && (Contains(norm(HeadingText(line)), nTitle) || Contains(nTitle, norm(HeadingText(line))))
  }

  predicate AnyTarget(lines: seq<string>, norm: string -> string, nTitle: string) {
    exists k :: 0 <= k < |lines| && IsTarget(norm, lines[k], nTitle)
  }

  /** The loop of `findHeadingIndex`: the first target line from `i` on, or -1. */
  function FindHeading(lines: seq<string>, norm: string -> string, nTitle: string, i: nat): (h: int)
    requires i <= |lines|
    ensures h == -1 || i <= h < |lines|
    ensures h >= 0 ==> IsTarget(norm, lines[h], nTitle)
    ensures h >= 0 ==> forall k :: i <= k < h ==> !IsTarget(norm, lines[k], nTitle)
    ensures h < 0 ==> forall k :: i <= k < |lines| ==> !IsTarget(norm, lines[k], nTitle)
    decreases |lines| - i
  {
    if i == |lines| then -1
    else if IsTarget(norm, lines[i], nTitle) then i
    else FindHeading(lines, norm, nTitle, i + 1)
  }

  /** Inserting lines none of which satisfies `P` changes neither direction of "some line
      satisfies `P`". */
  lemma InsertKeepsSome(lines: seq<string>, at: nat, ins: seq<string>, P: string -> bool)
    requires at <= |lines|
    requires forall k :: 0 <= k < |ins| ==> !P(ins[k])
    ensures (exists k :: 0 <= k < |lines[..at] + ins + lines[at..]| && P((lines[..at] + ins + lines[at..])[k]))
        <==> (exists k :: 0 <= k < |lines| && P(lines[k]))
  {
    var out := lines[..at] + ins + lines[at..];
    assert forall k :: 0 <= k < at ==> out[k] == lines[k];
    assert forall k :: at <= k < at + |ins| ==> out[k] == ins[k - at];
    assert forall k :: at + |ins| <= k < |out| ==> out[k] == lines[k - |ins|];
    if exists k :: 0 <= k < |lines| && P(lines[k]) {
      var k :| 0 <= k < |lines| && P(lines[k]);
      if k < at { assert out[k] == lines[k]; } else { assert out[k + |ins|] == lines[k]; }
    }
    if exists k :: 0 <= k < |out| && P(out[k]) {
      var k :| 0 <= k < |out| && P(out[k]);
      if k < at {
        assert out[k] == lines[k];
      } else if k >= at + |ins| {
        assert out[k] == lines[k - |ins|];
      }
    }
  }

  /** Inserting lines that are not `##` headings keeps the targets of every title. */
  lemma InsertKeepsTargets(lines: seq<string>, at: nat, ins: seq<string>, norm: string -> string, t: string)
    requires at <= |lines|
    requires forall k :: 0 <= k < |ins| ==> !IsH2Line(ins[k])
    ensures AnyTarget(lines[..at] + ins + lines[at..], norm, t) <==> AnyTarget(lines, norm, t)
  {
    var P := (l: string) => IsTarget(norm, l, t);
    assert forall k :: 0 <= k < |ins| ==> !P(ins[k]);
    InsertKeepsSome(lines, at, ins, P);
  }

  /** One step of the inline pass: the image line goes, between blank lines, right after the
      first `##` heading matching the title; a title that normalises to nothing matches none. */
  function PlaceOne(lines: seq<string>, norm: string -> string, title: string, imgLine: string): (r: (seq<string>, bool))
    requires !IsH2Line(imgLine)
    ensures r.1 <==> norm(title) != [] && AnyTarget(lines, norm, norm(title))
    ensures !r.1 ==> r.0 == lines
    ensures r.1 ==> |r.0| == |lines| + 3
    ensures r.1 ==> var h := FindHeading(lines, norm, norm(title), 0);
      0 <= h < |lines| && r.0 == lines[..h + 1] + ["", imgLine, ""] + lines[h + 1..]
    ensures forall t :: AnyTarget(r.0, norm, t) <==> AnyTarget(lines, norm, t)
  {
    var nt := norm(title);
    var h := if nt == [] then -1 else FindHeading(lines, norm, nt, 0);
    if h >= 0 then
      var out := lines[..h + 1] + ["", imgLine, ""] + lines[h + 1..];
      assert forall t :: AnyTarget(out, norm, t) <==> AnyTarget(lines, norm, t) by {
        forall t { InsertKeepsTargets(lines, h + 1, ["", imgLine, ""], norm, t); }
      }
      (out, true)
    else (lines, false)
  }

  function CountTrue(bs: seq<bool>): (n: nat)
    ensures n <= |bs|
  {
    if |bs| == 0 then 0 else (if bs[0] then 1 else 0) + CountTrue(bs[1..])
  }

  /** The inline pass over `(title, image line)` pairs, in order: the final lines and which
      images were placed. An image is placed exactly when its title matches a heading of the
      original document, and each placement adds three lines. */
  function PlaceAll(lines: seq<string>, norm: string -> string, items: seq<(string, string)>): (r: (seq<string>, seq<bool>))
    requires forall i :: 0 <= i < |items| ==> !IsH2Line(items[i].1)
    ensures |r.1| == |items|
    ensures forall i :: 0 <= i < |items| ==>
      (r.1[i] <==> norm(items[i].0) != [] && AnyTarget(lines, norm, norm(items[i].0)))
    ensures |r.0| == |lines| + 3 * CountTrue(r.1)
    ensures CountTrue(r.1) == 0 ==> r.0 == lines
    ensures forall t :: AnyTarget(r.0, norm, t) <==> AnyTarget(lines, norm, t)
    decreases |items|
  {
    if |items| == 0 then (lines, [])
    else
      var step := PlaceOne(lines, norm, items[0].0, items[0].1);
      var rest := PlaceAll(step.0, norm, items[1..]);
      var used := [step.1] + rest.1;
      assert used[1..] == rest.1;
      assert CountTrue(used) == (if step.1 then 1 else 0) + CountTrue(rest.1);
      forall i | 1 <= i < |items|
        ensures used[i] <==> norm(items[i].0) != [] && AnyTarget(lines, norm, norm(items[i].0))
      {
        assert items[i] == items[1..][i - 1];
        assert used[i] == rest.1[i - 1];
        assert AnyTarget(step.0, norm, norm(items[i].0)) <==> AnyTarget(lines, norm, norm(items[i].0));
      }
      (rest.0, used)
  }

  /** Section `s` enters the `idTitle` map under `key`: its id is the non-empty `key` and its
      title is non-empty. */
  predicate Titled(s: Section, key: string) {
    s.id == Some(key) && key != [] && s.title.Some? && s.title.value != []
  }

  /** Section `i` is the last one that enters the map under `key`. */
  predicate TitledLast(sections: seq<Section>, i: int, key: string) {
    0 <= i < |sections| && Titled(sections[i], key) && forall j :: i < j < |sections| ==> !Titled(sections[j], key)
  }

  /** `idTitle.get(key)`: the title of the last section whose id prints as `key`, among the
      sections with a non-empty id and a non-empty title. */
  function IdTitle(sections: seq<Section>, key: string): (t: Option<string>)
    ensures t.Some? ==> t.value != [] && exists i :: 0 <= i < |sections| && sections[i].id == Some(key) && sections[i].title == t
    ensures t.None? <==> forall i :: 0 <= i < |sections| ==> !Titled(sections[i], key)
    ensures t.Some? ==> exists i :: TitledLast(sections, i, key) && sections[i].title == t
    decreases |sections|
  {
    if |sections| == 0 then None
    else
      var s := sections[|sections| - 1];
      var init := sections[..|sections| - 1];
      assert forall i :: 0 <= i < |init| ==> init[i] == sections[i];
      if Titled(s, key) then
        assert TitledLast(sections, |sections| - 1, key);
        s.title
      else
        var r := IdTitle(init, key);
        assert r.Some? ==> exists i :: TitledLast(sections, i, key) && sections[i].title == r by {
          if r.Some? {
            var i :| TitledLast(init, i, key) && init[i].title == r;
            assert TitledLast(sections, i, key);
          }
        }
        r
  }

  /** The title an image is placed by: its own, else its section's, else empty. */
  function ImageTitle(it: GeneratedImage, sections: seq<Section>): string {
    if it.title != [] then it.title else IdTitle(sections, Show(it.sectionId)).GetOr([])
  }

  /** The alt text of image number `n` (1-based): the title, or `配图n`. */
  function Label(title: string, n: nat): (l: string)
    ensures l != []
    ensures title != [] ==> l == title
    ensures title == [] ==> l == "配图" + NatToString(n)
  {
    if title != [] then title else "配图" + NatToString(n)
  }

  /** A usable URL of the image, else the placeholder for its alt. */
  function ImageUrl(encode: string -> string, it: GeneratedImage, alt: string): string {
    if NotBlank(it.url) then it.url else SvgDataUri(encode, alt)
  }

  function ImageLine(alt: string, url: string): (l: string)
    ensures !IsH2Line(l)
  {
    "![" + alt + "](" + url + ")"
  }

  /** The `(title, image line)` pair of image `i` for the inline pass. */
  function InlineItem(encode: string -> string, sections: seq<Section>, it: GeneratedImage, i: nat): (string, string) {
    var title := ImageTitle(it, sections);
    var alt := Label(title, i + 1);
    (title, ImageLine(alt, ImageUrl(encode, it, alt)))
  }

  function InlineItems(encode: string -> string, sections: seq<Section>, imgs: seq<GeneratedImage>): (r: seq<(string, string)>)
    ensures |r| == |imgs|
    ensures forall i :: 0 <= i < |imgs| ==> r[i] == InlineItem(encode, sections, imgs[i], i)
    ensures forall i :: 0 <= i < |imgs| ==> !IsH2Line(r[i].1)
  {
    seq(|imgs|, i requires 0 <= i < |imgs| => InlineItem(encode, sections, imgs[i], i))
  }

  /** `imgList.filter((_, i) => !used[i])`. */
  function Leftovers(imgs: seq<GeneratedImage>, used: seq<bool>): (r: seq<GeneratedImage>)
    requires |used| == |imgs|
    ensures |r| == |imgs| - CountTrue(used)
    ensures forall i :: 0 <= i < |imgs| && !used[i] ==> imgs[i] in r
    ensures forall x :: x in r ==> exists i :: 0 <= i < |imgs| && !used[i] && imgs[i] == x
  {
    if |imgs| == 0 then []
    else
      var rest := Leftovers(imgs[1..], used[1..]);
      assert forall i :: 1 <= i < |imgs| ==> imgs[i] == imgs[1..][i - 1] && used[i] == used[1..][i - 1];
      if used[0] then rest else [imgs[0]] + rest
  }

  /** The leftovers keep the images' order: filtering distributes over concatenation. */
  lemma {:induction false} LeftoversAppend(a: seq<GeneratedImage>, u: seq<bool>, b: seq<GeneratedImage>, v: seq<bool>)
    requires |u| == |a| && |v| == |b|
    ensures Leftovers(a + b, u + v) == Leftovers(a, u) + Leftovers(b, v)
    decreases |a|
  {
    if |a| == 0 {
      assert a + b == b && u + v == v;
    } else {
      assert (a + b)[1..] == a[1..] + b && (u + v)[1..] == u[1..] + v;
      LeftoversAppend(a[1..], u[1..], b, v);
    }
  }

  /** One image is a leftover exactly when it was not placed. */
  lemma LeftoversOne(it: GeneratedImage, used: bool)
    ensures Leftovers([it], [used]) == if used then [] else [it]
  {
    assert [it][1..] == [] && [used][1..] == [];
  }

  /** Gallery line for leftover number `n` (1-based): only the image's own title counts here. */
  function GalleryLine(encode: string -> string, it: GeneratedImage, n: nat): string {
    var alt := Label(it.title, n);
    ImageLine(alt, ImageUrl(encode, it, alt))
  }

  function GalleryLines(encode: string -> string, left: seq<GeneratedImage>): (r: seq<string>)
    ensures |r| == |left|
    ensures forall i :: 0 <= i < |left| ==> r[i] == GalleryLine(encode, left[i], i + 1)
  {
    seq(|left|, i requires 0 <= i < |left| => GalleryLine(encode, left[i], i + 1))
  }

  const GalleryHeading := "## 图片预览"

  /** Lines 721-776: inline placement, then the gallery of the images that found no heading.
      An empty image list leaves the document as it is. */
  function PlaceImages(md: string, imgs: seq<GeneratedImage>, sections: seq<Section>,
                       norm: string -> string, encode: string -> string): (r: string)
    ensures |imgs| == 0 ==> r == md
  {
    if |imgs| == 0 then md
    else
      var placed := PlaceAll(SplitLines(md), norm, InlineItems(encode, sections, imgs));
      var left := Leftovers(imgs, placed.1);
      Join(placed.0, "\n")
        + (if |left| > 0 then Join(["\n\n" + GalleryHeading] + GalleryLines(encode, left), "\n") else [])
  }

  /** Every image ends up exactly once: inline when its title matches a heading of the
      document, in the gallery otherwise; the document grows by three lines per inline image. */
  lemma EveryImageOnce(md: string, imgs: seq<GeneratedImage>, sections: seq<Section>,
                       norm: string -> string, encode: string -> string)
    ensures var items := InlineItems(encode, sections, imgs);
      var placed := PlaceAll(SplitLines(md), norm, items);
      && (forall i :: 0 <= i < |imgs| ==>
            (placed.1[i] <==> var t := norm(ImageTitle(imgs[i], sections));
                              t != [] && AnyTarget(SplitLines(md), norm, t)))
      && CountTrue(placed.1) + |Leftovers(imgs, placed.1)| == |imgs|
      && (forall i :: 0 <= i < |imgs| && !placed.1[i] ==> imgs[i] in Leftovers(imgs, placed.1))
      && |placed.0| == |SplitLines(md)| + 3 * CountTrue(placed.1)
  {
  }

  /** With no image matching any heading, the document is kept and the gallery appended. */
  lemma NoMatchAllInGallery(md: string, imgs: seq<GeneratedImage>, sections: seq<Section>,
                            norm: string -> string, encode: string -> string)
    requires |imgs| > 0
    requires forall i :: 0 <= i < |imgs| ==> !AnyTarget(SplitLines(md), norm, norm(ImageTitle(imgs[i], sections)))
    ensures PlaceImages(md, imgs, sections, norm, encode)
         == md + Join(["\n\n" + GalleryHeading] + GalleryLines(encode, imgs), "\n")
  {
    var items := InlineItems(encode, sections, imgs);
    var placed := PlaceAll(SplitLines(md), norm, items);
    forall i | 0 <= i < |imgs| ensures !placed.1[i] {
      assert items[i].0 == ImageTitle(imgs[i], sections);
    }
    NoneUsed(placed.1);
    assert placed.0 == SplitLines(md);
    LeftoversAll(imgs, placed.1);
    JoinSplitLines(md);
    assert Join(placed.0, "\n") == md;
  }

  lemma {:induction false} NoneUsed(bs: seq<bool>)
    requires forall i :: 0 <= i < |bs| ==> !bs[i]
    ensures CountTrue(bs) == 0
  {
    if |bs| > 0 {
      assert forall i :: 0 <= i < |bs| - 1 ==> bs[1..][i] == bs[i + 1];
      NoneUsed(bs[1..]);
    }
  }

  lemma {:induction false} LeftoversAll(imgs: seq<GeneratedImage>, used: seq<bool>)
    requires |used| == |imgs|
    requires forall i :: 0 <= i < |used| ==> !used[i]
    ensures Leftovers(imgs, used) == imgs
  {
    if |imgs| > 0 {
      assert forall i :: 0 <= i < |used| - 1 ==> used[1..][i] == used[i + 1];
      LeftoversAll(imgs[1..], used[1..]);
      assert [imgs[0]] + imgs[1..] == imgs;
    }
  }

  // ---------------------------------------------------------------- title normalisation

  /** Lines 779-784: a document without a title line gets `# 终稿` and a blank line in front. */
  function NormaliseTitle(md: string): (r: string)
    ensures HasTitleLine(r)
    ensures HasTitleLine(md) ==> r == md
    ensures !HasTitleLine(md) ==> r == DefaultTitle + "\n\n" + md
  {
    if HasTitleLine(md) then md
    else
      var r := DefaultTitle + "\n\n" + md;
      assert r[0] == '#' && r[1] == ' ';
      assert SkipWs(r, 0) == 0;
      assert IsLineStart(r, 0) && TitleHeadAt(r, 0);
      r
  }

  lemma NormaliseIdempotent(md: string)
    ensures NormaliseTitle(NormaliseTitle(md)) == NormaliseTitle(md)
  {
  }

  // ---------------------------------------------------------------- the chain

  /** Lines 687-784: the four repairs, in order. The result always has a title line. */
  function Assemble(md: string, sections: seq<Section>, drafts: seq<DraftSection>, prompts: seq<ImagePrompt>,
                    imgs: seq<GeneratedImage>, norm: string -> string, encode: string -> string): (r: string)
    ensures HasTitleLine(r)
    ensures |prompts| == 0 && |imgs| == 0 && HasH2(md) && HasTitleLine(md) ==> r == md
  {
    NormaliseTitle(PlaceImages(AddAppendix(RepairSections(md, sections, drafts), prompts), imgs, sections, norm, encode))
  }
}

=== FILE: config.dfy ===
/** The application configuration store (lib/config.ts): defaults, the one-level
    overlay of a stored file onto them, and `setConfig`'s one-level merge. */
module Config {
  import opened Wrappers
  import opened Record

  /** One text or image backend. Every field may be absent in a stored or posted value. */
  datatype ProviderConfig = ProviderConfig(
    enabled: Option<bool>,
    apiKey: Option<string>,
    model: Option<string>,
    useWebSearch: Option<bool>,
    ak: Option<string>,
    sk: Option<string>)

  const NoFields := ProviderConfig(None, None, None, None, None, None)

  predicate IsEnabled(p: ProviderConfig) {
    p.enabled == Some(true)
  }

  /** `AppConfig`. The provider and stage maps are objects keyed by name. */
  datatype AppConfig = AppConfig(
    providers: Rec<ProviderConfig>,
    imageProviders: Rec<ProviderConfig>,
    concurrency: int,
    budgetUSD: Option<int>,
    ttsProvider: Option<string>,
    stageProviders: Rec<seq<string>>,
    imageStageProviders: Option<Rec<seq<string>>>)

  /** `Partial<AppConfig>`: a field is `None` when the key is absent. */
  datatype ConfigPatch = ConfigPatch(
    providers: Option<Rec<ProviderConfig>>,
    imageProviders: Option<Rec<ProviderConfig>>,
    concurrency: Option<int>,
    budgetUSD: Option<int>,
    ttsProvider: Option<string>,
    stageProviders: Option<Rec<seq<string>>>,
    imageStageProviders: Option<Rec<seq<string>>>)

  const EmptyPatch := ConfigPatch(None, None, None, None, None, None, None)

  const ModelProviders: seq<string> := ["kimi", "qwen", "glm", "deepseek", "openai", "anthropic", "gemini"]
  const ImageProviders: seq<string> := ["keling", "paiwo", "jimeng", "nanobanana"]
  const StageKeys: seq<string> := [
    "intent", "outline-multi", "outline-merge", "write-sections", "image-prompts",
    "image-generation", "merge-assembly", "expert-review", "fact-check", "final-merge"]
  const TtsProviders: seq<string> := ["web", "azure", "elevenlabs", "xunfei"]

  function Model(enabled: bool, model: string): ProviderConfig {
    ProviderConfig(Some(enabled), None, Some(model), None, None, None)
  }

  const DefaultProviders: Rec<ProviderConfig> := [
    ("kimi", ProviderConfig(Some(true), None, Some("kimi-k2-0711-preview"), Some(true), None, None)),
    ("qwen", Model(true, "qwen2.5-72b-instruct")),
    ("glm", Model(false, "glm-4.5")),
    ("deepseek", Model(false, "deepseek-chat")),
    ("openai", Model(false, "gpt-4o-mini")),
    ("anthropic", Model(false, "claude-3-5-sonnet")),
    ("gemini", Model(false, "gemini-1.5-pro")) ]

  const DefaultImageProviders: Rec<ProviderConfig> := [
    ("keling", Model(false, "kling-image-v1")),
    ("paiwo", Model(false, "paiwo-image-v1")),
    ("jimeng", Model(false, "jimeng-image-v1")),
    ("nanobanana", Model(false, "nanobanana-image-v1")) ]

  /** The default backends of each stage, in `StageKeys` order. */
  const DefaultStageLists: seq<seq<string>> := [
    ["kimi"],
    ["kimi", "qwen", "glm", "deepseek", "openai", "anthropic", "gemini"],
    ["qwen"],
    ["qwen", "deepseek", "openai", "anthropic", "gemini", "kimi", "glm"],
    [],
    [],
    ["qwen"],
    ["qwen", "openai", "anthropic", "gemini"],
    ["kimi"],
    ["qwen"]]

  const DefaultStageProviders: Rec<seq<string>> := FromEntries(StageKeys, DefaultStageLists)

  const DefaultConfig: AppConfig := AppConfig(
    DefaultProviders, DefaultImageProviders, 3, Some(1), Some("web"), DefaultStageProviders,
    Some([("image-generation", [])]))

  /** A present scalar in the patch replaces the current one. */
  function Pick<T>(patch: Option<T>, current: T): T {
    if patch.Some? then patch.value else current
  }

  function PickOpt<T>(patch: Option<T>, current: Option<T>): Option<T> {
    if patch.Some? then patch else current
  }

  /** A stored file spread over `DEFAULT_CONFIG`, with the four maps merged one level deep.
      `None` is a missing file or one that does not parse. */
  function OverlayDefaults(parsed: ConfigPatch): (c: AppConfig)
    ensures forall k :: Has(DefaultConfig.providers, k) ==> Has(c.providers, k)
    ensures forall k :: Has(DefaultConfig.imageProviders, k) ==> Has(c.imageProviders, k)
    ensures forall k :: Has(DefaultConfig.stageProviders, k) ==> Has(c.stageProviders, k)
    ensures c.imageStageProviders.Some? && Has(c.imageStageProviders.value, "image-generation")
    ensures forall k :: Get(c.providers, k) ==
                         (if Has(parsed.providers.GetOr([]), k) then Get(parsed.providers.GetOr([]), k) else Get(DefaultConfig.providers, k))
    ensures forall k :: Get(c.stageProviders, k) ==
                         (if Has(parsed.stageProviders.GetOr([]), k) then Get(parsed.stageProviders.GetOr([]), k) else Get(DefaultConfig.stageProviders, k))
    ensures parsed.concurrency.Some? ==> c.concurrency == parsed.concurrency.value
  {
    var d := DefaultConfig;
    var c := AppConfig(
      Overlay(d.providers, parsed.providers.GetOr([])),
      Overlay(d.imageProviders, parsed.imageProviders.GetOr([])),
      Pick(parsed.concurrency, d.concurrency),
      PickOpt(parsed.budgetUSD, d.budgetUSD),
      PickOpt(parsed.ttsProvider, d.ttsProvider),
      Overlay(d.stageProviders, parsed.stageProviders.GetOr([])),
      Some(Overlay(d.imageStageProviders.value, parsed.imageStageProviders.GetOr([]))));
    assert forall k :: Has(d.providers, k) ==> Has(c.providers, k) by {
      forall k { HasOverlay(d.providers, parsed.providers.GetOr([]), k); }
    }
    forall k ensures Get(c.providers, k) ==
      (if Has(parsed.providers.GetOr([]), k) then Get(parsed.providers.GetOr([]), k) else Get(d.providers, k))
    {
      GetOverlay(d.providers, parsed.providers.GetOr([]), k);
    }
    forall k ensures Get(c.stageProviders, k) ==
      (if Has(parsed.stageProviders.GetOr([]), k) then Get(parsed.stageProviders.GetOr([]), k) else Get(d.stageProviders, k))
    {
      GetOverlay(d.stageProviders, parsed.stageProviders.GetOr([]), k);
    }
    assert forall k :: Has(d.imageProviders, k) ==> Has(c.imageProviders, k) by {
      forall k { HasOverlay(d.imageProviders, parsed.imageProviders.GetOr([]), k); }
    }
    assert forall k :: Has(d.stageProviders, k) ==> Has(c.stageProviders, k) by {
      forall k { HasOverlay(d.stageProviders, parsed.stageProviders.GetOr([]), k); }
    }
    assert Has(d.imageStageProviders.value, "image-generation");
    HasOverlay(d.imageStageProviders.value, parsed.imageStageProviders.GetOr([]), "image-generation");
    c
  }

  /** The synchronous initialiser: the stored file over the defaults, or the defaults. */
  function InitialConfig(file: Option<ConfigPatch>): (c: AppConfig)
    ensures file.None? ==> c == DefaultConfig
    ensures file.Some? ==> c == OverlayDefaults(file.value)
  {
    match file
    case Some(parsed) => OverlayDefaults(parsed)
    case None => DefaultConfig
  }

  /** The best-effort asynchronous reload: a failed load keeps the current value. */
  function Reload(current: AppConfig, file: Option<ConfigPatch>): (c: AppConfig)
    ensures file.None? ==> c == current
    ensures file.Some? ==> c == OverlayDefaults(file.value)
  {
    match file
    case Some(parsed) => OverlayDefaults(parsed)
    case None => current
  }

  /** `setConfig(next)`: top-level fields of `next` override; the four maps merge one
      level deep; a missing image-stage map becomes an empty one. */
  function SetConfig(current: AppConfig, next: ConfigPatch): AppConfig {
    AppConfig(
      Overlay(current.providers, next.providers.GetOr([])),
      Overlay(current.imageProviders, next.imageProviders.GetOr([])),
      Pick(next.concurrency, current.concurrency),
      PickOpt(next.budgetUSD, current.budgetUSD),
      PickOpt(next.ttsProvider, current.ttsProvider),
      Overlay(current.stageProviders, next.stageProviders.GetOr([])),
      Some(Overlay(current.imageStageProviders.GetOr([]), next.imageStageProviders.GetOr([]))))
  }

  /** A supplied map key replaces that entry wholesale; every other key keeps its value. */
  lemma SetConfigMaps(current: AppConfig, next: ConfigPatch, k: string)
    ensures var c := SetConfig(current, next);
      && Get(c.providers, k) == (if next.providers.Some? && Has(next.providers.value, k)
                                 then Get(next.providers.value, k) else Get(current.providers, k))
      && Get(c.imageProviders, k) == (if next.imageProviders.Some? && Has(next.imageProviders.value, k)
                                      then Get(next.imageProviders.value, k) else Get(current.imageProviders, k))
      && Get(c.stageProviders, k) == (if next.stageProviders.Some? && Has(next.stageProviders.value, k)
                                      then Get(next.stageProviders.value, k) else Get(current.stageProviders, k))
      && Get(c.imageStageProviders.value, k) ==
           (if next.imageStageProviders.Some? && Has(next.imageStageProviders.value, k)
            then Get(next.imageStageProviders.value, k) else Get(current.imageStageProviders.GetOr([]), k))
  {
    GetOverlay(current.providers, next.providers.GetOr([]), k);
    GetOverlay(current.imageProviders, next.imageProviders.GetOr([]), k);
    GetOverlay(current.stageProviders, next.stageProviders.GetOr([]), k);
    GetOverlay(current.imageStageProviders.GetOr([]), next.imageStageProviders.GetOr([]), k);
  }

  /** Top-level scalars of the patch override, absent ones keep their value, and
      `setConfig({})` changes nothing but giving a missing image-stage map the value `{}`. */
  lemma SetConfigScalars(current: AppConfig, next: ConfigPatch)
    ensures var c := SetConfig(current, next);
      && (c.concurrency == if next.concurrency.Some? then next.concurrency.value else current.concurrency)
      && (c.budgetUSD == if next.budgetUSD.Some? then next.budgetUSD else current.budgetUSD)
      && (c.ttsProvider == if next.ttsProvider.Some? then next.ttsProvider else current.ttsProvider)
    ensures SetConfig(current, EmptyPatch)
         == current.(imageStageProviders := Some(current.imageStageProviders.GetOr([])))
  {
    assert Overlay(current.providers, []) == current.providers;
  }

  /** Applying the same patch twice is applying it once. */
  lemma SetConfigTwice(current: AppConfig, next: ConfigPatch)
    ensures SetConfig(SetConfig(current, next), next) == SetConfig(current, next)
  {
    var c := SetConfig(current, next);
    OverlayTwice(current.providers, next.providers.GetOr([]));
    OverlayTwice(current.imageProviders, next.imageProviders.GetOr([]));
    OverlayTwice(current.stageProviders, next.stageProviders.GetOr([]));
    OverlayTwice(current.imageStageProviders.GetOr([]), next.imageStageProviders.GetOr([]));
  }
}

=== FILE: config_route.dfy ===
/** The settings endpoint (app/api/config/route.ts): the body schema, the merge that keeps
    stored secrets when the client omits or blanks them, and the masking of `ak`/`sk` in
    every reply. */
module ConfigRoute {
  import opened Wrappers
  import opened Text
  import opened Json
  import opened Record
  import opened Config

  // ---------------------------------------------------------------- the schema

  /** Field `k` is absent or holds a string. */
  predicate StrOrAbsent(j: Json, k: string) {
    Field(j, k).None? || Field(j, k).value.JStr?
  }

  /** Field `k` is absent or holds a boolean. */
  predicate BoolOrAbsent(j: Json, k: string) {
    Field(j, k).None? || Field(j, k).value.JBool?
  }

  /** `v` is field `k` as sent: present exactly when the field is, and then its string. */
  predicate StrCarried(j: Json, k: string, v: Option<string>) {
    (v.Some? <==> Field(j, k).Some?) && (v.Some? ==> Field(j, k) == Some(JStr(v.value)))
  }

  /** `v` is field `k` as sent: present exactly when the field is, and then its boolean. */
  predicate BoolCarried(j: Json, k: string, v: Option<bool>) {
    (v.Some? <==> Field(j, k).Some?) && (v.Some? ==> Field(j, k) == Some(JBool(v.value)))
  }

  /** An optional field of one JSON type: `Some(None)` when absent, `None` when the value has
      the wrong type (`null` included, as the schema's `.optional()` admits only absence). */
  function OptBool(j: Json, k: string): (r: Option<Option<bool>>)
    ensures r.Some? <==> BoolOrAbsent(j, k)
    ensures r.Some? ==> BoolCarried(j, k, r.value)
  {
    var v := Field(j, k);
    if v.None? then Some(None) else if v.value.JBool? then Some(Some(v.value.b)) else None
  }

  function OptString(j: Json, k: string): (r: Option<Option<string>>)
    ensures r.Some? <==> StrOrAbsent(j, k)
    ensures r.Some? ==> StrCarried(j, k, r.value)
  {
    var v := Field(j, k);
    if v.None? then Some(None) else if v.value.JStr? then Some(Some(v.value.s)) else None
  }

  /** `ProviderSchema`: an object with optional typed fields; other keys are dropped. */
  function DecodeProvider(j: Json): (r: Option<ProviderConfig>)
    ensures r.Some? <==>
      && j.JObj? && BoolOrAbsent(j, "enabled") && StrOrAbsent(j, "apiKey") && StrOrAbsent(j, "model")
      && BoolOrAbsent(j, "useWebSearch") && StrOrAbsent(j, "ak") && StrOrAbsent(j, "sk")
    ensures r.Some? ==>
      && BoolCarried(j, "enabled", r.value.enabled) && StrCarried(j, "apiKey", r.value.apiKey)
      && StrCarried(j, "model", r.value.model) && BoolCarried(j, "useWebSearch", r.value.useWebSearch)
      && StrCarried(j, "ak", r.value.ak) && StrCarried(j, "sk", r.value.sk)
    ensures r.Some? ==> j.JObj?
    ensures r.Some? ==> (r.value.apiKey.Some? <==> Field(j, "apiKey").Some?)
    ensures r.Some? && r.value.apiKey.Some? ==> Field(j, "apiKey") == Some(JStr(r.value.apiKey.value))
    ensures r.Some? ==> (r.value.ak.Some? <==> Field(j, "ak").Some?)
    ensures r.Some? && r.value.ak.Some? ==> Field(j, "ak") == Some(JStr(r.value.ak.value))
    ensures r.Some? ==> (r.value.sk.Some? <==> Field(j, "sk").Some?)
    ensures r.Some? && r.value.sk.Some? ==> Field(j, "sk") == Some(JStr(r.value.sk.value))
  {
    var en, key, model, web, ak, sk :=
      OptBool(j, "enabled"), OptString(j, "apiKey"), OptString(j, "model"),
      OptBool(j, "useWebSearch"), OptString(j, "ak"), OptString(j, "sk");
    if j.JObj? && en.Some? && key.Some? && model.Some? && web.Some? && ak.Some? && sk.Some? then
      Some(ProviderConfig(en.value, key.value, model.value, web.value, ak.value, sk.value))
    else None
  }

  /** No entry after position `i` has key `k`. */
  predicate NoneAfter(fields: seq<(string, Json)>, i: nat, k: string) {
    forall j :: i < j < |fields| ==> fields[j].0 != k
  }

  /** The value of the last entry with key `k`, the one `JSON.parse` keeps. */
  function LastWith(fields: seq<(string, Json)>, k: string): (v: Option<Json>)
    ensures v.None? <==> forall i :: 0 <= i < |fields| ==> fields[i].0 != k
    ensures v.Some? ==> exists i :: 0 <= i < |fields| && fields[i] == (k, v.value) && NoneAfter(fields, i, k)
  {
    if |fields| == 0 then None
    else
      var rest := LastWith(fields[1..], k);
      assert forall i :: 1 <= i < |fields| ==> fields[i] == fields[1..][i - 1];
      if rest.Some? then
        assert exists i :: 0 <= i < |fields| && fields[i] == (k, rest.value) && NoneAfter(fields, i, k) by {
          var i :| 0 <= i < |fields[1..]| && fields[1..][i] == (k, rest.value) && NoneAfter(fields[1..], i, k);
          assert fields[i + 1] == (k, rest.value);
        }
        rest
      else if fields[0].0 == k then Some(fields[0].1)
      else None
  }

  /** What a record decoded from `fields` on top of `acc` holds at `k`: the decoding of the
      last entry with that key, or `acc`'s value when no entry has it. */
  function LastDecoded<T>(fields: seq<(string, Json)>, k: string, decode: Json -> Option<T>, acc: Rec<T>): Option<T> {
    var v := LastWith(fields, k);
    if v.Some? then decode(v.value) else Get(acc, k)
  }

  /** Decoding the first entry into `acc` and the rest on top of it ends where decoding all does. */
  lemma LastDecodedStep<T>(fields: seq<(string, Json)>, k: string, decode: Json -> Option<T>, acc: Rec<T>, v: T)
    requires |fields| > 0 && decode(fields[0].1) == Some(v)
    ensures LastDecoded(fields[1..], k, decode, Put(acc, fields[0].0, v)) == LastDecoded(fields, k, decode, acc)
  {
    assert forall i :: 1 <= i < |fields| ==> fields[i] == fields[1..][i - 1];
  }

  /** Every entry's key is admitted by `keyOk` and its value decodes. */
  predicate EntriesOk<T>(fields: seq<(string, Json)>, keyOk: string -> bool, decode: Json -> Option<T>) {
    forall i :: 0 <= i < |fields| ==> keyOk(fields[i].0) && decode(fields[i].1).Some?
  }

  lemma EntriesOkStep<T>(fields: seq<(string, Json)>, keyOk: string -> bool, decode: Json -> Option<T>)
    requires |fields| > 0
    ensures EntriesOk(fields, keyOk, decode) <==>
      keyOk(fields[0].0) && decode(fields[0].1).Some? && EntriesOk(fields[1..], keyOk, decode)
  {
    assert forall i :: 1 <= i < |fields| ==> fields[i] == fields[1..][i - 1];
  }

  /** The model-provider lists of a `stageProviders` value. */
  function ModelNames(j: Json): Option<seq<string>> {
    DecodeNames(j, ModelProviders)
  }

  /** `z.record(keySchema, ProviderSchema)`: every key admitted and every value a provider.
      A repeated key keeps its first position and its last value, as `JSON.parse` does. */
  function DecodeProviderMap(fields: seq<(string, Json)>, keyOk: string -> bool, acc: Rec<ProviderConfig>)
    : (r: Option<Rec<ProviderConfig>>)
    ensures r.Some? <==> EntriesOk(fields, keyOk, DecodeProvider)
    ensures r.Some? ==> forall k :: Get(r.value, k) == LastDecoded(fields, k, DecodeProvider, acc)
    decreases |fields|
  {
    if |fields| == 0 then Some(acc)
    else
      var p := DecodeProvider(fields[0].1);
      if !keyOk(fields[0].0) || p.None? then EntriesOkStep(fields, keyOk, DecodeProvider); None
      else
        var r := DecodeProviderMap(fields[1..], keyOk, Put(acc, fields[0].0, p.value));
        assert r.Some? <==> EntriesOk(fields, keyOk, DecodeProvider) by { EntriesOkStep(fields, keyOk, DecodeProvider); }
        assert r.Some? ==> forall k :: Get(r.value, k) == LastDecoded(fields, k, DecodeProvider, acc) by {
          forall k { LastDecodedStep(fields, k, DecodeProvider, acc, p.value); }
        }
        r
  }

  /** `z.array(z.enum(names))`. */
  function DecodeNames(j: Json, names: seq<string>): (r: Option<seq<string>>)
    ensures r.Some? ==> forall i :: 0 <= i < |r.value| ==> r.value[i] in names
    ensures r.Some? <==> j.JArr? && forall i :: 0 <= i < |j.items| ==> j.items[i].JStr? && j.items[i].s in names
  {
    if j.JArr? && forall i :: 0 <= i < |j.items| ==> j.items[i].JStr? && j.items[i].s in names then
      Some(seq(|j.items|, i requires 0 <= i < |j.items| => j.items[i].s))
    else None
  }

  /** `z.record(z.nativeEnum(StageKeyEnum), z.array(ModelProviderEnum))`. */
  function DecodeStageMap(fields: seq<(string, Json)>, acc: Rec<seq<string>>): (r: Option<Rec<seq<string>>>)
    ensures r.Some? <==> EntriesOk(fields, IsStageKey, ModelNames)
    ensures r.Some? ==> forall k :: Get(r.value, k) == LastDecoded(fields, k, ModelNames, acc)
    decreases |fields|
  {
    if |fields| == 0 then Some(acc)
    else
      var v := ModelNames(fields[0].1);
      if !IsStageKey(fields[0].0) || v.None? then EntriesOkStep(fields, IsStageKey, ModelNames); None
      else
        var r := DecodeStageMap(fields[1..], Put(acc, fields[0].0, v.value));
        assert r.Some? <==> EntriesOk(fields, IsStageKey, ModelNames) by { EntriesOkStep(fields, IsStageKey, ModelNames); }
        assert r.Some? ==> forall k :: Get(r.value, k) == LastDecoded(fields, k, ModelNames, acc) by {
          forall k { LastDecodedStep(fields, k, ModelNames, acc, v.value); }
        }
        r
  }

  /** `{ 'image-generation'?: ImageProvider[] }`; other keys are dropped. */
  function DecodeImageStages(j: Json): Option<Rec<seq<string>>> {
    var v := Field(j, "image-generation");
    if !j.JObj? then None
    else if v.None? then Some([])
    else
      var names := DecodeNames(v.value, ImageProviders);
      if names.Some? then Some([("image-generation", names.value)]) else None
  }

  /** Field `k` is absent, or present and accepted by `decode`. */
  predicate FieldOk<T>(j: Json, k: string, decode: Json -> Option<T>) {
    Field(j, k).None? || decode(Field(j, k).value).Some?
  }

  /** `v` is field `k` decoded: present exactly when the field is, and then its decoding. */
  predicate Carried<T(==)>(j: Json, k: string, decode: Json -> Option<T>, v: Option<T>) {
    (v.Some? <==> Field(j, k).Some?) && (v.Some? ==> decode(Field(j, k).value) == v)
  }

  /** An optional field decoded by `decode`: `Some(None)` when absent, `None` when invalid. */
  function OptMap<T(==)>(j: Json, k: string, decode: Json -> Option<T>): (r: Option<Option<T>>)
    ensures r.Some? <==> FieldOk(j, k, decode)
    ensures r.Some? ==> Carried(j, k, decode, r.value)
    ensures r == Some(None) <==> Field(j, k).None?
    ensures r.Some? && r.value.Some? ==> Field(j, k).Some? && decode(Field(j, k).value) == r.value
    ensures Field(j, k).Some? && decode(Field(j, k).value).None? ==> r.None?
  {
    var v := Field(j, k);
    if v.None? then Some(None)
    else
      var d := decode(v.value);
      if d.Some? then Some(Some(d.value)) else None
  }

  predicate AnyName(k: string) {
    true
  }

  predicate IsImageProvider(k: string) {
    k in ImageProviders
  }

  predicate IsStageKey(k: string) {
    k in StageKeys
  }

  /** `z.record(z.string(), ProviderSchema)`: an object whose every value is a provider; each
      key holds its last entry, decoded. */
  function ProviderMap(v: Json): (r: Option<Rec<ProviderConfig>>)
    ensures r.Some? <==> v.JObj? && forall i :: 0 <= i < |v.fields| ==> DecodeProvider(v.fields[i].1).Some?
    ensures r.Some? ==> forall k :: Get(r.value, k) == LastDecoded(v.fields, k, DecodeProvider, [])
  {
    if v.JObj? then DecodeProviderMap(v.fields, AnyName, []) else None
  }

  /** `z.record(ImageProviderEnum, ProviderSchema)`. */
  function ImageProviderMap(v: Json): (r: Option<Rec<ProviderConfig>>)
    ensures r.Some? <==>
      v.JObj? && forall i :: 0 <= i < |v.fields| ==> v.fields[i].0 in ImageProviders && DecodeProvider(v.fields[i].1).Some?
    ensures r.Some? ==> forall k :: Get(r.value, k) == LastDecoded(v.fields, k, DecodeProvider, [])
    ensures r.Some? ==> forall k :: Has(r.value, k) ==> k in ImageProviders
  {
    if v.JObj? then
      var r := DecodeProviderMap(v.fields, IsImageProvider, []);
      assert r.Some? ==> forall k :: Has(r.value, k) ==> k in ImageProviders by {
        if r.Some? { KeysAdmitted(v.fields, IsImageProvider, []); }
      }
      r
    else None
  }

  /** `z.record(z.nativeEnum(StageKeyEnum), z.array(ModelProviderEnum))` on a field value. */
  function StageMap(v: Json): (r: Option<Rec<seq<string>>>)
    ensures r.Some? <==>
      v.JObj? && forall i :: 0 <= i < |v.fields| ==> v.fields[i].0 in StageKeys && ModelNames(v.fields[i].1).Some?
    ensures r.Some? ==> forall k :: Get(r.value, k) == LastDecoded(v.fields, k, ModelNames, [])
    ensures r.Some? ==> v.JObj? && forall i :: 0 <= i < |v.fields| ==> v.fields[i].0 in StageKeys
    ensures r.Some? ==> forall k :: Has(r.value, k) ==> k in StageKeys
  {
    if v.JObj? then
      var r := DecodeStageMap(v.fields, []);
      assert r.Some? ==> forall k :: Has(r.value, k) ==> k in StageKeys by {
        if r.Some? { StageKeysAdmitted(v.fields, []); }
      }
      r
    else None
  }

  function Concurrency(v: Json): (r: Option<int>)
    ensures r.Some? <==> v.JNum? && 1 <= v.n <= 8
  {
    if v.JNum? && 1 <= v.n <= 8 then Some(v.n) else None
  }

  function Budget(v: Json): (r: Option<int>)
    ensures r.Some? <==> v.JNum? && v.n >= 0
  {
    if v.JNum? && v.n >= 0 then Some(v.n) else None
  }

  function Tts(v: Json): (r: Option<string>)
    ensures r.Some? <==> v.JStr? && v.s in TtsProviders
  {
    if v.JStr? && v.s in TtsProviders then Some(v.s) else None
  }

  /** `ConfigSchema.safeParse(body)`: the patch, or `None` when the body is rejected. A body is
      accepted exactly when it is an object whose every present field decodes; every field of
      the patch is present exactly when the body has it, and holds its decoding. */
  function Validate(body: Json): (r: Option<ConfigPatch>)
    ensures r.Some? <==>
      && body.JObj? && FieldOk(body, "providers", ProviderMap) && FieldOk(body, "imageProviders", ImageProviderMap)
      && FieldOk(body, "concurrency", Concurrency) && FieldOk(body, "budgetUSD", Budget)
      && FieldOk(body, "ttsProvider", Tts) && FieldOk(body, "stageProviders", StageMap)
      && FieldOk(body, "imageStageProviders", DecodeImageStages)
    ensures r.Some? ==>
      && Carried(body, "providers", ProviderMap, r.value.providers)
      && Carried(body, "imageProviders", ImageProviderMap, r.value.imageProviders)
      && Carried(body, "concurrency", Concurrency, r.value.concurrency)
      && Carried(body, "budgetUSD", Budget, r.value.budgetUSD)
      && Carried(body, "ttsProvider", Tts, r.value.ttsProvider)
      && Carried(body, "stageProviders", StageMap, r.value.stageProviders)
      && Carried(body, "imageStageProviders", DecodeImageStages, r.value.imageStageProviders)
    ensures r.Some? ==> body.JObj?
    ensures r.Some? ==> (r.value.concurrency.Some? <==> Field(body, "concurrency").Some?)
    ensures r.Some? && r.value.concurrency.Some? ==>
      Field(body, "concurrency") == Some(JNum(r.value.concurrency.value)) && 1 <= r.value.concurrency.value <= 8
    ensures r.Some? && r.value.budgetUSD.Some? ==> r.value.budgetUSD.value >= 0
    ensures r.Some? && r.value.ttsProvider.Some? ==> r.value.ttsProvider.value in TtsProviders
    ensures r.Some? && r.value.imageProviders.Some? ==> forall k :: Has(r.value.imageProviders.value, k) ==> k in ImageProviders
    ensures r.Some? ==> (r.value.stageProviders.Some? <==> Field(body, "stageProviders").Some?)
    ensures r.Some? && r.value.stageProviders.Some? ==> StageMap(Field(body, "stageProviders").value).Some?
    ensures r.Some? && r.value.stageProviders.Some? ==> forall k :: Has(r.value.stageProviders.value, k) ==> k in StageKeys
  {
    var providers := OptMap(body, "providers", ProviderMap);
    var images := OptMap(body, "imageProviders", ImageProviderMap);
    var conc := OptMap(body, "concurrency", Concurrency);
    var budget := OptMap(body, "budgetUSD", Budget);
    var tts := OptMap(body, "ttsProvider", Tts);
    var stages := OptMap(body, "stageProviders", StageMap);
    var imageStages := OptMap(body, "imageStageProviders", DecodeImageStages);
    if body.JObj? && providers.Some? && images.Some? && conc.Some? && budget.Some? && tts.Some?
       && stages.Some? && imageStages.Some? then
      Some(ConfigPatch(providers.value, images.value, conc.value, budget.value, tts.value,
                       stages.value, imageStages.value))
    else None
  }

  /** Decoding a provider map admits only keys that `keyOk` accepts. */
  lemma {:induction false} KeysAdmitted(fields: seq<(string, Json)>, keyOk: string -> bool, acc: Rec<ProviderConfig>)
    requires forall k :: Has(acc, k) ==> keyOk(k)
    requires DecodeProviderMap(fields, keyOk, acc).Some?
    ensures forall k :: Has(DecodeProviderMap(fields, keyOk, acc).value, k) ==> keyOk(k)
    decreases |fields|
  {
    if |fields| > 0 {
      var p := DecodeProvider(fields[0].1);
      var acc' := Put(acc, fields[0].0, p.value);
      assert forall k :: Has(acc', k) ==> keyOk(k) by {
        forall k | Has(acc', k) ensures keyOk(k) {
          if k != fields[0].0 { assert Get(acc', k) == Get(acc, k); }
        }
      }
      KeysAdmitted(fields[1..], keyOk, acc');
    }
  }

  lemma {:induction false} StageKeysAdmitted(fields: seq<(string, Json)>, acc: Rec<seq<string>>)
    requires forall k :: Has(acc, k) ==> k in StageKeys
    requires DecodeStageMap(fields, acc).Some?
    ensures forall k :: Has(DecodeStageMap(fields, acc).value, k) ==> k in StageKeys
    decreases |fields|
  {
    if |fields| > 0 {
      var v := DecodeNames(fields[0].1, ModelProviders);
      var acc' := Put(acc, fields[0].0, v.value);
      assert forall k :: Has(acc', k) ==> k in StageKeys by {
        forall k | Has(acc', k) ensures k in StageKeys {
          if k != fields[0].0 { assert Get(acc', k) == Get(acc, k); }
        }
      }
      StageKeysAdmitted(fields[1..], acc');
    }
  }

  // ---------------------------------------------------------------- the merge

  /** The incoming `ak` or `sk` counts only when it is not blank. */
  function Secret(curr: Option<string>, incoming: Option<string>): (r: Option<string>)
    ensures incoming.None? || !NotBlank(incoming.value) ==> r == curr
    ensures incoming.Some? && NotBlank(incoming.value) ==> r == incoming
  {
    if incoming.Some? && NotBlank(incoming.value) then incoming else curr
  }

  /** `mergeProvider(curr, incoming)`: a copy of `curr` with every supplied field of
      `incoming` written over it, except a blank `ak` or `sk`. */
  function MergeProvider(curr: ProviderConfig, incoming: ProviderConfig): (r: ProviderConfig)
    ensures r.ak == Secret(curr.ak, incoming.ak) && r.sk == Secret(curr.sk, incoming.sk)
    ensures incoming.enabled.Some? ==> r.enabled == incoming.enabled
    ensures incoming.enabled.None? ==> r.enabled == curr.enabled
    ensures incoming.apiKey.Some? ==> r.apiKey == incoming.apiKey
    ensures incoming.apiKey.None? ==> r.apiKey == curr.apiKey
    ensures incoming.model.Some? ==> r.model == incoming.model
    ensures incoming.model.None? ==> r.model == curr.model
    ensures incoming.useWebSearch.Some? ==> r.useWebSearch == incoming.useWebSearch
    ensures incoming.useWebSearch.None? ==> r.useWebSearch == curr.useWebSearch
  {
    ProviderConfig(
      PickOpt(incoming.enabled, curr.enabled),
      PickOpt(incoming.apiKey, curr.apiKey),
      PickOpt(incoming.model, curr.model),
      PickOpt(incoming.useWebSearch, curr.useWebSearch),
      Secret(curr.ak, incoming.ak),
      Secret(curr.sk, incoming.sk))
  }

  /** Merging nothing is a copy; merging the same entry twice is merging it once; a stored
      secret survives an incoming blank one; every other supplied field, even an empty
      `apiKey`, overwrites. */
  lemma MergeProviderLaws(curr: ProviderConfig, incoming: ProviderConfig)
    ensures MergeProvider(curr, NoFields) == curr
    ensures MergeProvider(MergeProvider(curr, incoming), incoming) == MergeProvider(curr, incoming)
    ensures incoming.ak.Some? && !NotBlank(incoming.ak.value) ==> MergeProvider(curr, incoming).ak == curr.ak
    ensures incoming.apiKey.Some? ==> MergeProvider(curr, incoming).apiKey == incoming.apiKey
    ensures incoming.model.Some? ==> MergeProvider(curr, incoming).model == incoming.model
    ensures incoming.enabled.Some? ==> MergeProvider(curr, incoming).enabled == incoming.enabled
  {
  }

  /** `mergeProviderMaps(curr, incoming)`: every key of either map, `curr`'s first, each
      holding the merge of its two entries (a missing entry counts as `{}`). */
  function MergeProviderMaps(curr: Rec<ProviderConfig>, incoming: Rec<ProviderConfig>): (r: Rec<ProviderConfig>)
    ensures forall k :: Has(r, k) <==> Has(curr, k) || Has(incoming, k)
    ensures forall k :: Has(r, k) ==>
      Get(r, k) == Some(MergeProvider(Get(curr, k).GetOr(NoFields), Get(incoming, k).GetOr(NoFields)))
    ensures |curr| <= |r| && Keys(r)[..|curr|] == Keys(curr)
  {
    var keys := Overlay(curr, incoming);
    assert forall k :: Has(keys, k) <==> Has(curr, k) || Has(incoming, k) by {
      forall k { HasOverlay(curr, incoming, k); }
    }
    KeysOverlayPrefix(curr, incoming);
    MapEntries(keys, (k: string, _: ProviderConfig) =>
      MergeProvider(Get(curr, k).GetOr(NoFields), Get(incoming, k).GetOr(NoFields)))
  }

  /** A provider the client did not mention keeps its stored entry, secrets included. */
  lemma UnmentionedKept(curr: Rec<ProviderConfig>, incoming: Rec<ProviderConfig>, k: string)
    requires Has(curr, k) && !Has(incoming, k)
    ensures Get(MergeProviderMaps(curr, incoming), k) == Get(curr, k)
  {
    MergeProviderLaws(Get(curr, k).value, NoFields);
  }

  /** The configuration `POST` builds from the stored one and a valid patch. */
  function Merged(curr: AppConfig, patch: ConfigPatch): (m: ConfigPatch)
    ensures m.providers.Some? && m.imageProviders.Some? && m.concurrency.Some?
    ensures m.stageProviders.Some? && m.imageStageProviders.Some?
    ensures m.concurrency.value == if patch.concurrency.Some? then patch.concurrency.value else curr.concurrency
    ensures m.budgetUSD == PickOpt(patch.budgetUSD, curr.budgetUSD)
    ensures m.ttsProvider == PickOpt(patch.ttsProvider, curr.ttsProvider)
  {
    ConfigPatch(
      Some(MergeProviderMaps(curr.providers, patch.providers.GetOr([]))),
      Some(MergeProviderMaps(curr.imageProviders, patch.imageProviders.GetOr([]))),
      Some(Pick(patch.concurrency, curr.concurrency)),
      PickOpt(patch.budgetUSD, curr.budgetUSD),
      PickOpt(patch.ttsProvider, curr.ttsProvider),
      Some(Overlay(curr.stageProviders, patch.stageProviders.GetOr([]))),
      Some(Overlay(curr.imageStageProviders.GetOr([]), patch.imageStageProviders.GetOr([]))))
  }

  /** A supplied stage's list replaces the stored one wholesale; other stages are unchanged. */
  lemma StageListsReplaced(curr: AppConfig, patch: ConfigPatch, k: string)
    ensures Get(Merged(curr, patch).stageProviders.value, k) ==
      if patch.stageProviders.Some? && Has(patch.stageProviders.value, k)
      then Get(patch.stageProviders.value, k) else Get(curr.stageProviders, k)
  {
    GetOverlay(curr.stageProviders, patch.stageProviders.GetOr([]), k);
  }

  // ---------------------------------------------------------------- masking

  /** A provider entry as the endpoint shows it: no `ak`/`sk`, only whether they are set. */
  datatype MaskedProvider = MaskedProvider(
    enabled: Option<bool>, apiKey: Option<string>, model: Option<string>, useWebSearch: Option<bool>,
    hasAk: bool, hasSk: bool)

  /** `sanitizeProvider(p)`. */
  function SanitizeProvider(p: ProviderConfig): (m: MaskedProvider)
    ensures m.hasAk <==> p.ak.Some? && p.ak.value != []
    ensures m.hasSk <==> p.sk.Some? && p.sk.value != []
    ensures (m.enabled, m.apiKey, m.model, m.useWebSearch) == (p.enabled, p.apiKey, p.model, p.useWebSearch)
  {
    MaskedProvider(p.enabled, p.apiKey, p.model, p.useWebSearch,
                   p.ak.Some? && p.ak.value != [], p.sk.Some? && p.sk.value != [])
  }

  function SanitizeMap(r: Rec<ProviderConfig>): (out: Rec<MaskedProvider>)
    ensures Keys(out) == Keys(r)
    ensures forall k :: Has(r, k) ==> Get(out, k) == Some(SanitizeProvider(Get(r, k).value))
  {
    MapEntries(r, (_: string, p: ProviderConfig) => SanitizeProvider(p))
  }

  /** The configuration as the endpoint returns it. */
  datatype MaskedConfig = MaskedConfig(
    providers: Rec<MaskedProvider>, imageProviders: Rec<MaskedProvider>, concurrency: int,
    budgetUSD: Option<int>, ttsProvider: Option<string>, stageProviders: Rec<seq<string>>,
    imageStageProviders: Option<Rec<seq<string>>>)

  function Mask(c: AppConfig): (m: MaskedConfig)
    ensures Keys(m.providers) == Keys(c.providers) && Keys(m.imageProviders) == Keys(c.imageProviders)
    ensures (m.concurrency, m.budgetUSD, m.ttsProvider, m.stageProviders, m.imageStageProviders)
         == (c.concurrency, c.budgetUSD, c.ttsProvider, c.stageProviders, c.imageStageProviders)
  {
    MaskedConfig(SanitizeMap(c.providers), SanitizeMap(c.imageProviders), c.concurrency, c.budgetUSD,
                 c.ttsProvider, c.stageProviders, c.imageStageProviders)
  }

  /** `GET /api/config`. */
  function GetConfig(curr: AppConfig): MaskedConfig {
    Mask(curr)
  }

  // ---------------------------------------------------------------- POST

  /** The reply status, the stored configuration afterwards, and the masked reply body. */
  datatype PostResult = PostResult(status: int, stored: AppConfig, reply: Option<MaskedConfig>)

  /** The patch as `setConfig` receives it: every field supplied. */
  function AsConfig(m: ConfigPatch): AppConfig
    requires m.providers.Some? && m.imageProviders.Some? && m.concurrency.Some? && m.stageProviders.Some?
  {
    AppConfig(m.providers.value, m.imageProviders.value, m.concurrency.value, m.budgetUSD, m.ttsProvider,
              m.stageProviders.value, m.imageStageProviders)
  }

  /** `POST /api/config`: a rejected body is a 400 and changes nothing; otherwise the merge is
      stored and returned masked. */
  function Post(curr: AppConfig, body: Json): (r: PostResult)
    ensures Validate(body).None? <==> r.status == 400
    ensures r.status == 400 ==> r.stored == curr && r.reply.None?
    ensures r.status != 400 ==> r.status == 200 && r.reply == Some(Mask(AsConfig(Merged(curr, Validate(body).value))))
    ensures r.status != 400 ==> r.stored == SetConfig(curr, Merged(curr, Validate(body).value))
  {
    var patch := Validate(body);
    if patch.None? then PostResult(400, curr, None)
    else
      var m := Merged(curr, patch.value);
      PostResult(200, SetConfig(curr, m), Some(Mask(AsConfig(m))))
  }

  /** After a successful POST every stored provider and image-provider entry is the merge of
      the old one and the posted one; entries the client left out keep their secrets. */
  lemma PostStoresMerge(curr: AppConfig, body: Json, k: string)
    requires Validate(body).Some?
    ensures var patch := Validate(body).value;
      Get(Post(curr, body).stored.providers, k) == Get(MergeProviderMaps(curr.providers, patch.providers.GetOr([])), k)
    ensures var patch := Validate(body).value;
      Get(Post(curr, body).stored.imageProviders, k)
        == Get(MergeProviderMaps(curr.imageProviders, patch.imageProviders.GetOr([])), k)
  {
    var patch := Validate(body).value;
    var m := Merged(curr, patch);
    SetConfigMaps(curr, m, k);
    HasOverlay(curr.providers, m.providers.value, k);
    HasOverlay(curr.imageProviders, m.imageProviders.value, k);
  }

  /** A concurrency outside 1..8 is rejected and changes nothing. */
  lemma ConcurrencyOutOfRange(curr: AppConfig, n: int)
    requires n < 1 || n > 8
    ensures Post(curr, JObj([("concurrency", JNum(n))])) == PostResult(400, curr, None)
  {
    assert Field(JObj([("concurrency", JNum(n))]), "concurrency") == Some(JNum(n));
  }

  /** A stage name outside the ten pipeline stages is rejected and changes nothing. */
  lemma UnknownStage(curr: AppConfig, stage: string)
    requires stage !in StageKeys
    ensures Post(curr, JObj([("stageProviders", JObj([(stage, JArr([]))]))])) == PostResult(400, curr, None)
  {
    var s := JObj([("stageProviders", JObj([(stage, JArr([]))]))]);
    assert Field(s, "stageProviders") == Some(JObj([(stage, JArr([]))]));
  }
}

=== FILE: doc.dfy ===
/** The document datatypes of lib/types.ts, the outline shape check and the fallback outline
    (lib/pipeline.ts). Outlines arrive as parsed JSON from the backends and are decoded here. */
module Doc {
  import opened Wrappers
  import opened Text
  import opened Json

  /** `Intent`. Only the fields the pipeline reads are kept; a missing one is `""`. */
  datatype Intent = Intent(topic: string, audience: string, style: string)

  /** `OutlineSection`: `id` and `title` are `None` when absent or not a string. */
  datatype Section = Section(id: Option<string>, title: Option<string>, bullets: seq<string>)

  datatype Outline = Outline(title: Option<string>, sections: seq<Section>)

  datatype DraftSection = DraftSection(sectionId: Option<string>, markdown: string)

  datatype ImagePrompt = ImagePrompt(sectionId: Option<string>, title: string, prompt: string)

  datatype GeneratedImage = GeneratedImage(sectionId: Option<string>, title: string, prompt: string, url: string)

  datatype UploadedFile = UploadedFile(filename: string, path: string)

  /** A template literal `${v}`: an absent value prints as `undefined`. */
  function Show(v: Option<string>): string {
    if v.Some? then v.value else "undefined"
  }

  /** `isOutlineLike(o)`: a truthy value whose `sections` is an array. An empty array passes. */
  predicate IsOutlineLike(j: Json) {
    j.JObj? && Field(j, "sections").Some? && Field(j, "sections").value.JArr?
  }

  function StrField(j: Json, k: string): Option<string> {
    var v := Field(j, k);
    if v.Some? && v.value.JStr? then Some(v.value.s) else None
  }

  /** `v` is what survives of field `k`: its string when it holds a string, and nothing when
      it is absent or holds any other value. */
  predicate KeptAsString(j: Json, k: string, v: Option<string>) {
    && (v.Some? <==> Field(j, k).Some? && Field(j, k).value.JStr?)
    && (v.Some? ==> Field(j, k).value == JStr(v.value))
  }

  /** The string items, in order; other items are dropped. */
  function Strings(items: seq<Json>): (r: seq<string>)
    ensures |r| <= |items|
    ensures forall u :: u in r <==> JStr(u) in items
  {
    if |items| == 0 then []
    else (if items[0].JStr? then [items[0].s] else []) + Strings(items[1..])
  }

  function DecodeSection(j: Json): Section {
    var b := Field(j, "bullets");
    Section(StrField(j, "id"), StrField(j, "title"),
            if b.Some? && b.value.JArr? then Strings(b.value.items) else [])
  }

  function DecodeSections(items: seq<Json>): (r: seq<Section>)
    ensures |r| == |items|
    ensures forall i :: 0 <= i < |items| ==> r[i] == DecodeSection(items[i])
  {
    if |items| == 0 then [] else [DecodeSection(items[0])] + DecodeSections(items[1..])
  }

  /** An outline-like reply as the pipeline reads it; `None` exactly when the shape check fails. */
  function DecodeOutline(j: Json): (o: Option<Outline>)
    ensures o.Some? <==> IsOutlineLike(j)
    ensures o.Some? ==> |o.value.sections| == |Field(j, "sections").value.items|
    ensures o.Some? ==> KeptAsString(j, "title", o.value.title)
    ensures o.Some? ==> var items := Field(j, "sections").value.items;
      forall i :: 0 <= i < |items| ==>
        KeptAsString(items[i], "id", o.value.sections[i].id) && KeptAsString(items[i], "title", o.value.sections[i].title)
    ensures o.Some? ==> var items := Field(j, "sections").value.items;
      forall i, u :: 0 <= i < |items| ==>
        (u in o.value.sections[i].bullets <==>
           Field(items[i], "bullets").Some? && Field(items[i], "bullets").value.JArr? && JStr(u) in Field(items[i], "bullets").value.items)
  {
    if IsOutlineLike(j) then Some(Outline(StrField(j, "title"), DecodeSections(Field(j, "sections").value.items)))
    else None
  }

  function EncodeStrings(xs: seq<string>): (r: seq<Json>)
    ensures |r| == |xs|
    ensures forall i :: 0 <= i < |xs| ==> r[i] == JStr(xs[i])
  {
    if |xs| == 0 then [] else [JStr(xs[0])] + EncodeStrings(xs[1..])
  }

  function OptField(k: string, v: Option<string>): seq<(string, Json)> {
    if v.Some? then [(k, JStr(v.value))] else []
  }

  function EncodeSection(s: Section): Json {
    JObj(OptField("id", s.id) + OptField("title", s.title) + [("bullets", JArr(EncodeStrings(s.bullets)))])
  }

  function EncodeSections(ss: seq<Section>): (r: seq<Json>)
    ensures |r| == |ss|
    ensures forall i :: 0 <= i < |ss| ==> r[i] == EncodeSection(ss[i])
  {
    if |ss| == 0 then [] else [EncodeSection(ss[0])] + EncodeSections(ss[1..])
  }

  /** The JSON form of an outline (`JSON.stringify` before it is parsed back). */
  function EncodeOutline(o: Outline): Json {
    JObj(OptField("title", o.title) + [("sections", JArr(EncodeSections(o.sections)))])
  }

  lemma {:induction false} StringsEncode(xs: seq<string>)
    ensures Strings(EncodeStrings(xs)) == xs
  {
    if |xs| > 0 {
      StringsEncode(xs[1..]);
      assert EncodeStrings(xs)[1..] == EncodeStrings(xs[1..]);
    }
  }

  /** Reading a field of an object whose first entry has another key skips that entry. */
  lemma FieldSkip(e: (string, Json), rest: seq<(string, Json)>, k: string)
    requires e.0 != k
    ensures Field(JObj([e] + rest), k) == Field(JObj(rest), k)
  {
    assert ([e] + rest)[1..] == rest;
  }

  lemma FieldHead(e: (string, Json), rest: seq<(string, Json)>)
    ensures Field(JObj([e] + rest), e.0) == Some(e.1)
  {
  }

  lemma SectionRoundTrip(s: Section)
    ensures DecodeSection(EncodeSection(s)) == s
  {
    StringsEncode(s.bullets);
    var b := [("bullets", JArr(EncodeStrings(s.bullets)))];
    var t := OptField("title", s.title) + b;
    var fs := OptField("id", s.id) + t;
    assert EncodeSection(s) == JObj(fs);
    // the bullets entry, then the title entry, then the id entry
    assert Field(JObj(b), "bullets") == Some(JArr(EncodeStrings(s.bullets)));
    assert Field(JObj(b), "title") == None;
    assert Field(JObj(b), "id") == None;
    if s.title.Some? {
      FieldHead(("title", JStr(s.title.value)), b);
      FieldSkip(("title", JStr(s.title.value)), b, "bullets");
      FieldSkip(("title", JStr(s.title.value)), b, "id");
    }
    assert StrField(JObj(t), "title") == s.title;
    assert Field(JObj(t), "bullets") == Some(JArr(EncodeStrings(s.bullets)));
    assert StrField(JObj(t), "id") == None;
    if s.id.Some? {
      FieldHead(("id", JStr(s.id.value)), t);
      FieldSkip(("id", JStr(s.id.value)), t, "title");
      FieldSkip(("id", JStr(s.id.value)), t, "bullets");
    }
    assert StrField(JObj(fs), "id") == s.id;
    assert StrField(JObj(fs), "title") == s.title;
    assert Field(JObj(fs), "bullets") == Some(JArr(EncodeStrings(s.bullets)));
  }

  /** Every outline the model builds passes the shape check and decodes back to itself. */
  lemma OutlineRoundTrip(o: Outline)
    ensures IsOutlineLike(EncodeOutline(o))
    ensures DecodeOutline(EncodeOutline(o)) == Some(o)
  {
    var ss := EncodeSections(o.sections);
    var b := [("sections", JArr(ss))];
    var fs := OptField("title", o.title) + b;
    assert EncodeOutline(o) == JObj(fs);
    assert Field(JObj(b), "title") == None;
    if o.title.Some? {
      FieldHead(("title", JStr(o.title.value)), b);
      FieldSkip(("title", JStr(o.title.value)), b, "sections");
    }
    assert Field(JObj(fs), "sections") == Some(JArr(ss));
    assert StrField(JObj(fs), "title") == o.title;
    forall i | 0 <= i < |o.sections| ensures DecodeSection(ss[i]) == o.sections[i] {
      SectionRoundTrip(o.sections[i]);
    }
    assert DecodeSections(ss) == o.sections;
  }

  /** The title of fallback part `j` (0-based): `部分 j+1`. */
  function PartTitle(j: nat): string {
    "部分 " + NatToString(j + 1)
  }

  /** `fallbackOutline(intent)`: the topic (or `未命名主题`) and five placeholder parts.
      `uuid(base + j)` stands for the fresh id of part `j`. */
  function FallbackOutline(intent: Intent, uuid: nat -> string, base: nat): (o: Outline)
    ensures |o.sections| == 5
    ensures o.title.Some? && o.title.value != []
    ensures intent.topic != [] ==> o.title == Some(intent.topic)
    ensures intent.topic == [] ==> o.title == Some("未命名主题")
    ensures forall j :: 0 <= j < 5 ==>
      o.sections[j] == Section(Some(uuid(base + j)), Some(PartTitle(j)), ["要点A", "要点B"])
  {
    Outline(
      Some(if intent.topic != [] then intent.topic else "未命名主题"),
      seq(5, j requires 0 <= j < 5 => Section(Some(uuid(base + j)), Some(PartTitle(j)), ["要点A", "要点B"])))
  }

  /** The fallback outline passes the shape check, so stage 2 always ends with valid outlines. */
  lemma FallbackIsOutlineLike(intent: Intent, uuid: nat -> string, base: nat)
    ensures IsOutlineLike(EncodeOutline(FallbackOutline(intent, uuid, base)))
    ensures |FallbackOutline(intent, uuid, base).sections| > 0
  {
    OutlineRoundTrip(FallbackOutline(intent, uuid, base));
  }
}

=== FILE: jimeng.dfy ===
/** The Jimeng (Volcengine visual API) text-to-image adapter, app/api/image/jimeng/route.ts:
    lenient credential extraction, size normalisation, request signing (HMAC-SHA256 in the
    style of AWS Signature Version 4) and the submit-then-poll exchange. */
module Jimeng {
  import opened Wrappers
  import opened Text
  import opened Json
  import Record
  import Config

  type byte = bv8

  /** Primitives the adapter calls but the model does not define. */
  datatype Prims = Prims(
    base64: string -> string,                      // Buffer.from(s, 'base64').toString('utf8')
    parse: string -> Option<Json>,                 // JSON.parse; None is a thrown error
    stringify: Json -> string,                     // JSON.stringify
    toText: Json -> string,                        // String(v) for a value that is not a string
    sha256Hex: string -> string,                   // SHA-256 of the UTF-8 bytes, as lower-case hex
    hmac: (seq<byte>, seq<byte>) -> seq<byte>,     // HMAC-SHA256 (RFC 2104): key, message
    utf8: string -> seq<byte>,
    hex: seq<byte> -> string)

  /** The case-insensitive `key=value` fragment regexes; each yields its capture group.
      `akKv` and `skKv` are the adapter's, `skShortKv` is the pipeline's `sk[:=]` variant. */
  datatype Matchers = Matchers(
    akKv: string -> Option<string>,
    skKv: string -> Option<string>,
    skShortKv: string -> Option<string>)

  // ---------------------------------------------------------------- decoding and filtering

  /** `s.replace(/\s+/g, '')`. */
  function RemoveWs(s: string): (r: string)
    ensures |r| <= |s|
    ensures forall k :: 0 <= k < |r| ==> !IsWs(r[k])
    ensures (forall k :: 0 <= k < |s| ==> !IsWs(s[k])) ==> r == s
    ensures forall k :: 0 <= k < |s| && !IsWs(s[k]) ==> s[k] in r
  {
    if |s| == 0 then []
    else
      assert forall k :: 1 <= k < |s| ==> s[k] == s[1..][k - 1];
      (if IsWs(s[0]) then [] else [s[0]]) + RemoveWs(s[1..])
  }

  /** Whitespace is removed piece by piece: what stays of `a + b` is what stays of `a`
      followed by what stays of `b`, so the other characters keep their order. */
  lemma {:induction false} RemoveWsAppend(a: string, b: string)
    ensures RemoveWs(a + b) == RemoveWs(a) + RemoveWs(b)
    decreases |a|
  {
    if |a| == 0 {
      assert a + b == b;
    } else {
      assert (a + b)[1..] == a[1..] + b;
      RemoveWsAppend(a[1..], b);
    }
  }

  /** One lenient base64 decode attempt of the whitespace-free text. */
  function TryB64(b64: string -> string, s: string): string {
    b64(RemoveWs(s))
  }

  /** Up to `n` decodes, stopping when a decode is empty or changes nothing. */
  function Decodes(b64: string -> string, t: string, n: nat): string
    decreases n
  {
    if n == 0 then t
    else
      var dec := TryB64(b64, t);
      if dec != [] && dec != t then Decodes(b64, dec, n - 1) else t
  }

  /** `tryBase64DecodeTwice`: `decodes` counts the decodes that were kept. */
  method DecodeTwice(b64: string -> string, input: string) returns (t: string, decodes: nat)
    ensures t == Decodes(b64, input, 2)
    ensures decodes <= 2
    ensures decodes == 0 ==> t == input
    ensures decodes < 2 ==> TryB64(b64, t) == [] || TryB64(b64, t) == t
    ensures t == [] ==> input == []
  {
    t := input;
    decodes := 0;
    var i := 0;
    while i < 2
      invariant 0 <= i <= 2 && decodes == i
      invariant Decodes(b64, t, 2 - i) == Decodes(b64, input, 2)
      invariant decodes == 0 ==> t == input
      invariant t == [] ==> input == []
    {
      var dec := TryB64(b64, t);
      if dec != [] && dec != t {
        t := dec;
        decodes := decodes + 1;
      } else {
        return;
      }
      i := i + 1;
    }
  }

  predicate Printable(c: char) {
    ' ' <= c <= '~'
  }

  predicate AllPrintable(s: string) {
    forall k :: 0 <= k < |s| ==> Printable(s[k])
  }

  /** `sanitizePrintable`: drop every character outside U+0020..U+007E. */
  function SanitizePrintable(s: string): (r: string)
    ensures AllPrintable(r)
    ensures |r| <= |s|
    ensures AllPrintable(s) ==> r == s
    ensures forall k :: 0 <= k < |s| && Printable(s[k]) ==> s[k] in r
  {
    if |s| == 0 then []
    else
      var rest := SanitizePrintable(s[1..]);
      assert forall k :: 1 <= k < |s| ==> s[k] == s[1..][k - 1];
      if Printable(s[0]) then [s[0]] + rest else rest
  }

  lemma SanitizeIdempotent(s: string)
    ensures SanitizePrintable(SanitizePrintable(s)) == SanitizePrintable(s)
  {
  }

  // ---------------------------------------------------------------- credential shapes

  predicate Alnum(c: char) {
    ('0' <= c <= '9') || ('A' <= c <= 'Z') || ('a' <= c <= 'z')
  }

  /** `[0-9A-Za-z\-_=]`. */
  predicate AkChar(c: char) {
    Alnum(c) || c == '-' || c == '_' || c == '='
  }

  /** `[A-Za-z0-9._+\-\/=]`. */
  predicate SkChar(c: char) {
    Alnum(c) || c == '.' || c == '_' || c == '+' || c == '-' || c == '/' || c == '='
  }

  /** `[0-9a-f]` under the `i` flag. */
  predicate HexChar(c: char) {
    ('0' <= c <= '9') || ('a' <= c <= 'f') || ('A' <= c <= 'F')
  }

  /** The number of `AkChar`s in a row from `i`. */
  function AkRun(s: string, i: nat): (n: nat)
    requires i <= |s|
    ensures i + n <= |s|
    ensures forall k :: i <= k < i + n ==> AkChar(s[k])
    ensures i + n < |s| ==> !AkChar(s[i + n])
    decreases |s| - i
  {
    if i == |s| || !AkChar(s[i]) then 0 else 1 + AkRun(s, i + 1)
  }

  /** The regex can start matching at `i`: `AKL`, one letter or digit, then at least ten key
      characters. */
  predicate AklStartsAt(s: string, i: nat) {
    && i + 14 <= |s| && s[i..i + 3] == "AKL" && Alnum(s[i + 3])
    && forall k :: i + 4 <= k < i + 14 ==> AkChar(s[k])
  }

  /** `/(AKL[T0-9A-Za-z][0-9A-Za-z\-_=]{10,64})/` tried at position `i`: the greedy match, the
      text at `i` up to the first non-key character or the 68-character cap. */
  function AklAt(s: string, i: nat): (m: Option<string>)
    ensures m.Some? <==> AklStartsAt(s, i)
    ensures m.Some? ==> 14 <= |m.value| <= 68 && m.value[..3] == "AKL"
    ensures m.Some? ==> forall k :: 0 <= k < |m.value| ==> AkChar(m.value[k])
    ensures m.Some? ==> i + |m.value| <= |s| && m.value == s[i..i + |m.value|]
    ensures m.Some? ==> |m.value| == 68 || i + |m.value| == |s| || !AkChar(s[i + |m.value|])
  {
    AklStartsRun(s, i);
    if i + 4 <= |s| && s[i..i + 3] == "AKL" && Alnum(s[i + 3]) && AkRun(s, i + 4) >= 10 then
      var n := if AkRun(s, i + 4) < 64 then AkRun(s, i + 4) else 64;
      var m := s[i..i + 4 + n];
      assert forall k :: 0 <= k < |m| ==> m[k] == s[i + k];
      Some(m)
    else None
  }

  /** A match can start at `i` exactly when at least ten key characters follow the prefix. */
  lemma AklStartsRun(s: string, i: nat)
    ensures AklStartsAt(s, i) <==>
      (i + 4 <= |s| && s[i..i + 3] == "AKL" && Alnum(s[i + 3]) && AkRun(s, i + 4) >= 10)
  {
    if i + 4 <= |s| {
      var n := AkRun(s, i + 4);
      if n < 10 && i + 14 <= |s| {
        assert !AkChar(s[i + 4 + n]);
      }
      if i + 14 <= |s| {
        assert s[i..i + 3] == s[i..i + 14][..3];
      }
    }
  }

  /** The leftmost match at or after `i`. */
  function AklFrom(s: string, i: nat): (m: Option<string>)
    requires i <= |s|
    ensures m.Some? ==> exists j :: i <= j <= |s| && AklAt(s, j) == m
                                   && forall k :: i <= k < j ==> AklAt(s, k).None?
    ensures m.None? ==> forall j :: i <= j <= |s| ==> AklAt(s, j).None?
    ensures forall j :: i <= j <= |s| && AklAt(s, j).Some? ==> m.Some?
    decreases |s| - i
  {
    if AklAt(s, i).Some? then AklAt(s, i)
    else if i == |s| then None
    else
      var m := AklFrom(s, i + 1);
      assert forall j :: i <= j <= |s| && AklAt(s, j).Some? ==> i + 1 <= j;
      if m.Some? then
        var j :| i + 1 <= j <= |s| && AklAt(s, j) == m && forall k :: i + 1 <= k < j ==> AklAt(s, k).None?;
        assert forall k :: i <= k < j ==> AklAt(s, k).None?;
        m
      else m
  }

  function AklMatch(s: string): Option<string> {
    AklFrom(s, 0)
  }

  /** `/^[A-Za-z0-9\-_=]{12,128}$/`. */
  predicate AkTokenShape(t: string) {
    12 <= |t| <= 128 && forall k :: 0 <= k < |t| ==> AkChar(t[k])
  }

  /** `/^[0-9a-f]{32,64}$/i` or `/^[A-Za-z0-9._+\-\/=]{20,128}$/`. */
  predicate SkShape(t: string) {
    || (32 <= |t| <= 64 && forall k :: 0 <= k < |t| ==> HexChar(t[k]))
    || (20 <= |t| <= 128 && forall k :: 0 <= k < |t| ==> SkChar(t[k]))
  }

  const AkKeys: seq<string> := ["ak", "accessKeyId", "access_key_id", "accessKey", "AK"]
  const SkKeys: seq<string> := ["sk", "secret", "secretKey", "secretAccessKey", "SECRET_ACCESS_KEY"]

  function Reads(obj: Json, keys: seq<string>): (vs: seq<Option<Json>>)
    ensures |vs| == |keys|
    ensures forall i :: 0 <= i < |keys| ==> vs[i] == Field(obj, keys[i])
  {
    if |keys| == 0 then [] else [Field(obj, keys[0])] + Reads(obj, keys[1..])
  }

  /** `obj.k1 || obj.k2 || ...` on the parsed text, kept when it is a non-blank string. */
  function JsonField(parse: string -> Option<Json>, t: string, keys: seq<string>): (r: Option<string>)
    ensures r.Some? ==> r.value != [] && r.value == Trim(r.value)
  {
    var obj := parse(t);
    if obj.None? then None
    else
      var cand := FirstTruthy(Reads(obj.value, keys));
      if cand.Some? && cand.value.JStr? && NotBlank(cand.value.s) then
        TrimTwice(cand.value.s);
        Some(Trim(cand.value.s))
      else None
  }

  lemma TrimTwice(s: string)
    ensures Trim(Trim(s)) == Trim(s)
  {
    var t := Trim(s);
    if t != [] {
      assert SkipWs(t, 0) == 0;
      assert SkipWsBack(t, |t|) == |t|;
      assert t[0..|t|] == t;
    }
  }

  function TrimOpt(m: Option<string>): Option<string> {
    if m.Some? then Some(Trim(m.value)) else None
  }

  // ---------------------------------------------------------------- extraction chains

  /** The first hit of an ordered list of trials. */
  function FirstSome(xs: seq<Option<string>>): (r: Option<string>)
    ensures r.Some? <==> exists i :: 0 <= i < |xs| && xs[i].Some?
    ensures r.Some? ==> exists i :: 0 <= i < |xs| && xs[i] == r && forall j :: 0 <= j < i ==> xs[j].None?
  {
    if |xs| == 0 then None
    else if xs[0].Some? then xs[0]
    else
      var r := FirstSome(xs[1..]);
      assert forall i :: 1 <= i < |xs| ==> xs[i] == xs[1..][i - 1];
      r
  }

  lemma {:induction false} FirstSomeAppend(xs: seq<Option<string>>, ys: seq<Option<string>>)
    ensures FirstSome(xs + ys) == if FirstSome(xs).Some? then FirstSome(xs) else FirstSome(ys)
  {
    if |xs| > 0 {
      assert (xs + ys)[1..] == xs[1..] + ys;
      FirstSomeAppend(xs[1..], ys);
    } else {
      assert xs + ys == ys;
    }
  }

  lemma FirstSome3(a: Option<string>, b: Option<string>, c: Option<string>)
    ensures FirstSome([a, b, c]) == if a.Some? then a else if b.Some? then b else c
  {
    assert [a, b, c][1..] == [b, c];
    assert [b, c][1..] == [c];
    assert [c][1..] == [];
    assert FirstSome([c]) == c;
    assert FirstSome([b, c]) == if b.Some? then b else c;
  }

  lemma FirstSome4(a: Option<string>, b: Option<string>, c: Option<string>, d: Option<string>)
    ensures FirstSome([a, b, c, d]) == if a.Some? then a else if b.Some? then b else if c.Some? then c else d
  {
    assert [a, b, c, d][1..] == [b, c, d];
    FirstSome3(b, c, d);
  }

  /** The access-key trials on the raw (sanitised) text: `AKL` token, `ak=` fragment, JSON field. */
  function AkRawTrials(p: Prims, m: Matchers, raw: string): seq<Option<string>> {
    [TrimOpt(AklMatch(raw)), TrimOpt(m.akKv(raw)), JsonField(p.parse, raw, AkKeys)]
  }

  /** The access-key trials on the decoded text: JSON field, `ak=` fragment, `AKL` token, bare token. */
  function AkDecodedTrials(p: Prims, m: Matchers, t: string): seq<Option<string>> {
    [JsonField(p.parse, t, AkKeys), TrimOpt(m.akKv(t)), TrimOpt(AklMatch(t)), if AkTokenShape(t) then Some(t) else None]
  }

  /** The secret-key trials, the same three on the raw and then on the decoded text. */
  function SkTextTrials(p: Prims, m: Matchers, t: string): seq<Option<string>> {
    [JsonField(p.parse, t, SkKeys), TrimOpt(m.skKv(t)), if SkShape(t) then Some(t) else None]
  }

  /** The decoded form of a source: up to two base64 decodes, then printable characters only. */
  function Decoded(p: Prims, original: string): string {
    SanitizePrintable(Decodes(p.base64, original, 2))
  }

  /** Every trial for one access-key source, in the order the adapter makes them. */
  function AkTrials(p: Prims, m: Matchers, src: string): seq<Option<string>> {
    var original := Trim(src);
    if original == [] then []
    else AkRawTrials(p, m, SanitizePrintable(original)) + AkDecodedTrials(p, m, Decoded(p, original))
  }

  /** Every trial for one secret-key source, in the order the adapter makes them. */
  function SkTrials(p: Prims, m: Matchers, src: string): seq<Option<string>> {
    var original := Trim(src);
    if original == [] then []
    else SkTextTrials(p, m, SanitizePrintable(original)) + SkTextTrials(p, m, Decoded(p, original))
  }

  /** `extractAk`'s loop body for one source, written as the source's chain of early returns. */
  function AkFromSource(p: Prims, m: Matchers, src: string): Option<string> {
    var original := Trim(src);
    if original == [] then None
    else
      var raw := SanitizePrintable(original);
      if AklMatch(raw).Some? then TrimOpt(AklMatch(raw))
      else if m.akKv(raw).Some? then TrimOpt(m.akKv(raw))
      else if JsonField(p.parse, raw, AkKeys).Some? then JsonField(p.parse, raw, AkKeys)
      else
        var t := Decoded(p, original);
        if JsonField(p.parse, t, AkKeys).Some? then JsonField(p.parse, t, AkKeys)
        else if m.akKv(t).Some? then TrimOpt(m.akKv(t))
        else if AklMatch(t).Some? then TrimOpt(AklMatch(t))
        else if AkTokenShape(t) then Some(t)
        else None
  }

  /** `extractSk`'s loop body for one source. */
  function SkFromSource(p: Prims, m: Matchers, src: string): Option<string> {
    var original := Trim(src);
    if original == [] then None
    else
      var raw := SanitizePrintable(original);
      if JsonField(p.parse, raw, SkKeys).Some? then JsonField(p.parse, raw, SkKeys)
      else if m.skKv(raw).Some? then TrimOpt(m.skKv(raw))
      else if SkShape(raw) then Some(raw)
      else
        var t := Decoded(p, original);
        if JsonField(p.parse, t, SkKeys).Some? then JsonField(p.parse, t, SkKeys)
        else if m.skKv(t).Some? then TrimOpt(m.skKv(t))
        else if SkShape(t) then Some(t)
        else None
  }

  /** `extractAk(rawAk, rawApiKey)`: the first source that yields a key wins; `''` otherwise. */
  function ExtractAk(p: Prims, m: Matchers, rawAk: string, rawApiKey: string): string {
    var a := AkFromSource(p, m, rawAk);
    if a.Some? then a.value else AkFromSource(p, m, rawApiKey).GetOr([])
  }

  function ExtractSk(p: Prims, m: Matchers, rawSk: string, rawApiKey: string): string {
    var a := SkFromSource(p, m, rawSk);
    if a.Some? then a.value else SkFromSource(p, m, rawApiKey).GetOr([])
  }

  /** The chain of early returns is "first hit wins" over the ordered trials. */
  lemma AkFromSourceFirstHit(p: Prims, m: Matchers, src: string)
    ensures AkFromSource(p, m, src) == FirstSome(AkTrials(p, m, src))
  {
    var original := Trim(src);
    if original != [] {
      var raw := SanitizePrintable(original);
      var t := Decoded(p, original);
      FirstSome3(TrimOpt(AklMatch(raw)), TrimOpt(m.akKv(raw)), JsonField(p.parse, raw, AkKeys));
      FirstSome4(JsonField(p.parse, t, AkKeys), TrimOpt(m.akKv(t)), TrimOpt(AklMatch(t)), if AkTokenShape(t) then Some(t) else None);
      FirstSomeAppend(AkRawTrials(p, m, raw), AkDecodedTrials(p, m, t));
    }
  }

  lemma SkFromSourceFirstHit(p: Prims, m: Matchers, src: string)
    ensures SkFromSource(p, m, src) == FirstSome(SkTrials(p, m, src))
  {
    var original := Trim(src);
    if original != [] {
      var raw := SanitizePrintable(original);
      var t := Decoded(p, original);
      FirstSome3(JsonField(p.parse, raw, SkKeys), TrimOpt(m.skKv(raw)), if SkShape(raw) then Some(raw) else None);
      FirstSome3(JsonField(p.parse, t, SkKeys), TrimOpt(m.skKv(t)), if SkShape(t) then Some(t) else None);
      FirstSomeAppend(SkTextTrials(p, m, raw), SkTextTrials(p, m, t));
    }
  }

  /** `extractAk` is the first hit over the key source's trials, then the API key's; a blank
      source contributes no trial, and nothing found gives `''`. */
  lemma ExtractAkOrder(p: Prims, m: Matchers, rawAk: string, rawApiKey: string)
    ensures ExtractAk(p, m, rawAk, rawApiKey)
         == FirstSome(AkTrials(p, m, rawAk) + AkTrials(p, m, rawApiKey)).GetOr([])
    ensures !NotBlank(rawAk) ==> ExtractAk(p, m, rawAk, rawApiKey) == AkFromSource(p, m, rawApiKey).GetOr([])
  {
    AkFromSourceFirstHit(p, m, rawAk);
    AkFromSourceFirstHit(p, m, rawApiKey);
    FirstSomeAppend(AkTrials(p, m, rawAk), AkTrials(p, m, rawApiKey));
  }

  lemma ExtractSkOrder(p: Prims, m: Matchers, rawSk: string, rawApiKey: string)
    ensures ExtractSk(p, m, rawSk, rawApiKey)
         == FirstSome(SkTrials(p, m, rawSk) + SkTrials(p, m, rawApiKey)).GetOr([])
    ensures !NotBlank(rawSk) ==> ExtractSk(p, m, rawSk, rawApiKey) == SkFromSource(p, m, rawApiKey).GetOr([])
  {
    SkFromSourceFirstHit(p, m, rawSk);
    SkFromSourceFirstHit(p, m, rawApiKey);
    FirstSomeAppend(SkTrials(p, m, rawSk), SkTrials(p, m, rawApiKey));
  }

  /** A raw access key that starts with a well-formed `AKL` token is returned as that token
      (up to 68 characters), without any decoding. */
  lemma RawAklWins(p: Prims, m: Matchers, rawAk: string, rawApiKey: string)
    requires rawAk == Trim(rawAk) && AllPrintable(rawAk) && AklAt(rawAk, 0).Some?
    ensures ExtractAk(p, m, rawAk, rawApiKey) == Trim(AklAt(rawAk, 0).value)
  {
    assert AklAt(rawAk, 0).value != [];
    assert rawAk != [];
  }

  /** The pipeline's `looseExtract` for a secret hidden in an API key: decode, then the JSON
      field, the short `sk=` fragment, then the bare shape. */
  function LooseExtract(p: Prims, m: Matchers, raw: string): (r: string)
    ensures r != [] ==> r == Decodes(p.base64, raw, 2) || JsonField(p.parse, Decodes(p.base64, raw, 2), SkKeys) == Some(r)
                         || TrimOpt(m.skShortKv(Decodes(p.base64, raw, 2))) == Some(r)
    ensures var t := Decodes(p.base64, raw, 2);
      && (JsonField(p.parse, t, SkKeys).Some? ==> r == JsonField(p.parse, t, SkKeys).value)
      && (JsonField(p.parse, t, SkKeys).None? && m.skShortKv(t).Some? ==> r == Trim(m.skShortKv(t).value))
      && (JsonField(p.parse, t, SkKeys).None? && m.skShortKv(t).None? && SkShape(t) ==> r == t)
      && (JsonField(p.parse, t, SkKeys).None? && m.skShortKv(t).None? && !SkShape(t) ==> r == [])
  {
    var t := Decodes(p.base64, raw, 2);
    var j := JsonField(p.parse, t, SkKeys);
    if j.Some? then j.value
    else if m.skShortKv(t).Some? then Trim(m.skShortKv(t).value)
    else if SkShape(t) then t
    else []
  }

  // ---------------------------------------------------------------- request body and size

  datatype Body = Body(prompt: string, width: int, height: int)

  /** `z.number().int().min(64).max(2048).optional().default(1024)`. */
  function SizeField(j: Json, k: string): Option<int> {
    var v := Field(j, k);
    if v.None? then Some(1024)
    else if v.value.JNum? && 64 <= v.value.n <= 2048 then Some(v.value.n)
    else None
  }

  /** A size field as the schema accepts it: absent, or an integer in 64..2048. */
  predicate SizeOk(j: Json, k: string) {
    Field(j, k).None? || (Field(j, k).value.JNum? && 64 <= Field(j, k).value.n <= 2048)
  }

  /** The size a valid body asks for: the one sent, or 1024 when it is absent. */
  function SizeOf(j: Json, k: string): int {
    if Field(j, k).Some? && Field(j, k).value.JNum? then Field(j, k).value.n else 1024
  }

  /** `BodySchema.safeParse`: an object with a non-empty string prompt and sizes that are
      absent or in 64..2048; an absent size defaults to 1024 and a sent one is kept. */
  function ValidateBody(j: Json): (b: Option<Body>)
    ensures b.Some? <==> j.JObj? && Field(j, "prompt").Some? && Field(j, "prompt").value.JStr?
                         && |Field(j, "prompt").value.s| >= 1 && SizeOk(j, "width") && SizeOk(j, "height")
    ensures b.Some? ==> b.value == Body(Field(j, "prompt").value.s, SizeOf(j, "width"), SizeOf(j, "height"))
    ensures b.Some? ==> |b.value.prompt| >= 1
    ensures b.Some? ==> 64 <= b.value.width <= 2048 && 64 <= b.value.height <= 2048
  {
    var pr := Field(j, "prompt");
    if j.JObj? && pr.Some? && pr.value.JStr? && |pr.value.s| >= 1
       && SizeField(j, "width").Some? && SizeField(j, "height").Some?
    then Some(Body(pr.value.s, SizeField(j, "width").value, SizeField(j, "height").value))
    else None
  }

  const SafeSizes: seq<int> := [1024, 1280, 1536, 2048]

  /** `Math.max(64, Math.min(2048, Math.round((v || 1024) / 64) * 64))`; for every integer
      `Math.round(v / 64)` is `floor((v + 32) / 64)`, which is Dafny's `(v + 32) / 64`. */
  function Clamped(v: int): (n: int)
    ensures 64 <= n <= 2048 && n % 64 == 0
    ensures v == 0 ==> n == 1024
    ensures v != 0 && v < 96 ==> n == 64
    ensures v >= 2016 ==> n == 2048
    ensures 64 <= v <= 2048 ==> n - 32 <= v < n + 32
  {
    var w := if v == 0 then 1024 else v;
    var r := (w + 32) / 64 * 64;
    if r > 2048 then 2048 else if r < 64 then 64 else r
  }

  // ---------------------------------------------------------------- signing

  /** The UTC clock reading: `getUTCMonth()` counts from 0. */
  datatype UtcTime = UtcTime(year: nat, month0: nat, day: nat, hour: nat, minute: nat, second: nat)

  predicate ValidTime(t: UtcTime) {
    1000 <= t.year <= 9999 && t.month0 < 12 && 1 <= t.day <= 31 && t.hour < 24 && t.minute < 60 && t.second < 60
  }

  /** `String(n).padStart(2, '0')`. */
  function Pad2(n: nat): (r: string)
    ensures n < 100 ==> |r| == 2
    ensures forall k :: 0 <= k < |r| ==> '0' <= r[k] <= '9'
    ensures n < 100 ==> r == [Digit(n / 10), Digit(n % 10)]
    ensures n >= 100 ==> r == NatToString(n)
  {
    if n < 10 then "0" + NatToString(n)
    else
      assert n < 100 ==> NatToString(n) == NatToString(n / 10) + [Digit(n % 10)] && n / 10 < 10;
      NatToString(n)
  }

  lemma FourDigits(n: nat)
    requires 1000 <= n <= 9999
    ensures |NatToString(n)| == 4
  {
    var a := n / 10;
    assert 100 <= a <= 999;
    var b := a / 10;
    assert 10 <= b <= 99;
    var c := b / 10;
    assert 1 <= c <= 9;
    OneMoreDigit(n);
    OneMoreDigit(a);
    OneMoreDigit(b);
  }

  lemma OneMoreDigit(n: nat)
    requires n >= 10
    ensures |NatToString(n)| == |NatToString(n / 10)| + 1
  {
  }

  /** `${yyyy}${mm}${dd}`. */
  function DateStamp(t: UtcTime): string {
    NatToString(t.year) + Pad2(t.month0 + 1) + Pad2(t.day)
  }

  /** `${date}T${HH}${MM}${SS}Z`. */
  function XDate(t: UtcTime): string {
    DateStamp(t) + "T" + Pad2(t.hour) + Pad2(t.minute) + Pad2(t.second) + "Z"
  }

  predicate Digits(s: string) {
    forall k :: 0 <= k < |s| ==> '0' <= s[k] <= '9'
  }

  /** X-Date has the form yyyymmddTHHMMSSZ. */
  lemma XDateShape(t: UtcTime)
    requires ValidTime(t)
    ensures var x := XDate(t);
      && |x| == 16 && x[..8] == DateStamp(t) && x[8] == 'T' && x[15] == 'Z'
      && Digits(x[..8]) && Digits(x[9..15])
  {
    DateStampShape(t);
    ClockShape(t);
    StampShape(DateStamp(t), Pad2(t.hour) + Pad2(t.minute) + Pad2(t.second));
  }

  lemma DateStampShape(t: UtcTime)
    requires ValidTime(t)
    ensures |DateStamp(t)| == 8 && Digits(DateStamp(t))
  {
    FourDigits(t.year);
    var y, mo, dd := NatToString(t.year), Pad2(t.month0 + 1), Pad2(t.day);
    DigitsAppend(y, mo);
    DigitsAppend(y + mo, dd);
  }

  lemma ClockShape(t: UtcTime)
    requires ValidTime(t)
    ensures var hms := Pad2(t.hour) + Pad2(t.minute) + Pad2(t.second);
      |hms| == 6 && Digits(hms)
  {
    DigitsAppend(Pad2(t.hour), Pad2(t.minute));
    DigitsAppend(Pad2(t.hour) + Pad2(t.minute), Pad2(t.second));
  }

  lemma StampShape(d: string, hms: string)
    requires |d| == 8 && Digits(d) && |hms| == 6 && Digits(hms)
    ensures var x := d + "T" + hms + "Z";
      |x| == 16 && x[..8] == d && x[8] == 'T' && x[15] == 'Z' && Digits(x[..8]) && Digits(x[9..15])
  {
    var x := d + "T" + hms + "Z";
    assert x[..8] == d;
    assert x[9..15] == hms;
  }

  lemma DigitsAppend(a: string, b: string)
    requires Digits(a) && Digits(b)
    ensures Digits(a + b)
  {
    forall k | 0 <= k < |a + b| ensures '0' <= (a + b)[k] <= '9' {
      if k >= |a| { assert (a + b)[k] == b[k - |a|]; }
    }
  }

  const Host := "visual.volcengineapi.com"
  const Region := "cn-north-1"
  const Service := "cv"
  const SignedHeaders := "content-type;host;x-content-sha256;x-date"

  datatype Action = SubmitTask | GetResult

  function ActionName(a: Action): string {
    match a
    case SubmitTask => "CVSync2AsyncSubmitTask"
    case GetResult => "CVSync2AsyncGetResult"
  }

  function CanonicalQuery(a: Action): string {
    "Action=" + ActionName(a) + "&Version=2022-08-31"
  }

  function HeaderLines(hash: string, xDate: string): seq<string> {
    ["content-type:application/json", "host:" + Host, "x-content-sha256:" + hash, "x-date:" + xDate, ""]
  }

  /** The four signed headers, each line ended by a newline. */
  function CanonicalHeaders(hash: string, xDate: string): string {
    Join(HeaderLines(hash, xDate), "\n")
  }

  function CanonicalRequest(a: Action, hash: string, xDate: string): string {
    Join(["POST", "/", CanonicalQuery(a)] + [CanonicalHeaders(hash, xDate)] + [SignedHeaders, hash], "\n")
  }

  /** `${date}/${region}/${service}/request`. */
  function Scope(date: string): string {
    date + "/" + Region + "/" + Service + "/request"
  }

  function StringToSign(xDate: string, scope: string, requestHash: string): string {
    Join(["HMAC-SHA256", xDate, scope, requestHash], "\n")
  }

  /** kDate, kRegion, kService, kSigning: the key is derived by four chained HMACs. */
  function SigningKey(p: Prims, sk: string, date: string): seq<byte> {
    var kDate := p.hmac(p.utf8(sk), p.utf8(date));
    var kRegion := p.hmac(kDate, p.utf8(Region));
    var kService := p.hmac(kRegion, p.utf8(Service));
    p.hmac(kService, p.utf8("request"))
  }

  datatype Signed = Signed(endpoint: string, headers: Record.Rec<string>, body: string)

  /** `HMAC-SHA256 Credential=<ak>/<scope>, SignedHeaders=<signed headers>, Signature=<signature>`. */
  function AuthValue(ak: string, scope: string, signature: string): string {
    "HMAC-SHA256 Credential=" + ak + "/" + scope + ", SignedHeaders=" + SignedHeaders + ", Signature=" + signature
  }

  /** The hex HMAC, under the derived signing key for the day, of the string to sign over the
      hash of the canonical request. */
  function Signature(p: Prims, sk: string, t: UtcTime, a: Action, body: string): string {
    var canonical := CanonicalRequest(a, p.sha256Hex(body), XDate(t));
    var toSign := StringToSign(XDate(t), Scope(DateStamp(t)), p.sha256Hex(canonical));
    p.hex(p.hmac(SigningKey(p, sk, DateStamp(t)), p.utf8(toSign)))
  }

  /** `signAndBuild(action, bodyJson)`: the endpoint for the action, and headers carrying the
      body hash, the time, the signed authorization and the optional session token. */
  function SignAndBuild(p: Prims, ak: string, sk: string, t: UtcTime, token: string, a: Action, body: string): (r: Signed)
    ensures r.endpoint == "https://" + Host + "/?" + CanonicalQuery(a)
    ensures Record.Get(r.headers, "X-Content-Sha256") == Some(p.sha256Hex(body))
    ensures Record.Get(r.headers, "X-Date") == Some(XDate(t))
    ensures Record.Get(r.headers, "Authorization") == Some(AuthValue(ak, Scope(DateStamp(t)), Signature(p, sk, t, a, body)))
    ensures Record.Has(r.headers, "X-Security-Token") <==> token != []
    ensures token != [] ==> Record.Get(r.headers, "X-Security-Token") == Some(token)
    ensures r.body == body
    ensures Record.Get(r.headers, "Content-Type") == Some("application/json")
    ensures Record.Keys(r.headers) == SignedHeaderNames + (if token != [] then ["X-Security-Token"] else [])
  {
    var hash := p.sha256Hex(body);
    var xDate := XDate(t);
    var auth := AuthValue(ak, Scope(DateStamp(t)), Signature(p, sk, t, a, body));
    Signed("https://" + Host + "/?" + CanonicalQuery(a), Headers(xDate, hash, auth, token), body)
  }

  /** The headers every signed request carries, in order. */
  const SignedHeaderNames: seq<string> := ["Content-Type", "X-Date", "X-Content-Sha256", "Authorization"]

  /** The request headers: exactly the four fixed ones, then the session token only when one
      is configured. */
  function Headers(xDate: string, hash: string, auth: string, token: string): (h: Record.Rec<string>)
    ensures Record.Get(h, "X-Content-Sha256") == Some(hash)
    ensures Record.Get(h, "X-Date") == Some(xDate)
    ensures Record.Get(h, "Authorization") == Some(auth)
    ensures Record.Has(h, "X-Security-Token") <==> token != []
    ensures token != [] ==> Record.Get(h, "X-Security-Token") == Some(token)
    ensures Record.Get(h, "Content-Type") == Some("application/json")
    ensures Record.Keys(h) == SignedHeaderNames + (if token != [] then ["X-Security-Token"] else [])
  {
    var base: Record.Rec<string> := [("Content-Type", "application/json"), ("X-Date", xDate),
                                     ("X-Content-Sha256", hash), ("Authorization", auth)];
    assert Record.Keys(base) == SignedHeaderNames;
    Record.GetAt(base, 0, "Content-Type");
    Record.GetAt(base, 1, "X-Date");
    Record.GetAt(base, 2, "X-Content-Sha256");
    Record.GetAt(base, 3, "Authorization");
    assert Record.Find(base, "X-Security-Token") == 4;
    if token != [] then Record.Put(base, "X-Security-Token", token) else base
  }

  /** Joining two non-empty lists puts one separator between their joins. */
  lemma {:induction false} JoinTwo(xs: seq<string>, ys: seq<string>, sep: string)
    requires |xs| > 0 && |ys| > 0
    ensures Join(xs + ys, sep) == Join(xs, sep) + sep + Join(ys, sep)
  {
    if |xs| > 1 {
      assert (xs + ys)[1..] == xs[1..] + ys;
      JoinTwo(xs[1..], ys, sep);
    } else {
      assert (xs + ys)[1..] == ys;
    }
  }

  /** Joining a list whose middle part was joined already is joining the flat list. */
  lemma JoinNest(front: seq<string>, mid: seq<string>, back: seq<string>, sep: string)
    requires |front| > 0 && |mid| > 0 && |back| > 0
    ensures Join(front + [Join(mid, sep)] + back, sep) == Join(front + mid + back, sep)
  {
    JoinTwo(front + mid, back, sep);
    JoinTwo(front, mid, sep);
    JoinTwo(front + [Join(mid, sep)], back, sep);
    JoinTwo(front, [Join(mid, sep)], sep);
  }

  lemma HeaderLinesNoNewline(hash: string, xDate: string)
    requires NoNewline(hash) && NoNewline(xDate)
    ensures forall i :: 0 <= i < 5 ==> NoNewline(HeaderLines(hash, xDate)[i])
  {
    assert NoNewline("content-type:application/json");
    assert NoNewline(Host);
    NoNewlineAppend("host:", Host);
    NoNewlineAppend("x-content-sha256:", hash);
    NoNewlineAppend("x-date:", xDate);
  }

  lemma QueryNoNewline(a: Action)
    ensures NoNewline(CanonicalQuery(a))
  {
    assert NoNewline("Action=");
    assert NoNewline(ActionName(a));
    assert NoNewline("&Version=2022-08-31");
    NoNewlineAppend("Action=", ActionName(a));
    NoNewlineAppend("Action=" + ActionName(a), "&Version=2022-08-31");
  }

  lemma NoNewlineLines(xs: seq<string>, ys: seq<string>)
    requires forall i :: 0 <= i < |xs| ==> NoNewline(xs[i])
    requires forall i :: 0 <= i < |ys| ==> NoNewline(ys[i])
    ensures forall i :: 0 <= i < |xs + ys| ==> NoNewline((xs + ys)[i])
  {
    forall i | 0 <= i < |xs + ys| ensures NoNewline((xs + ys)[i]) {
      if i >= |xs| { assert (xs + ys)[i] == ys[i - |xs|]; }
    }
  }

  /** Newline-free parts around a newline-joined block read back as the parts and the block's lines. */
  lemma SplitJoinNest(front: seq<string>, mid: seq<string>, back: seq<string>)
    requires |front| > 0 && |mid| > 0 && |back| > 0
    requires forall i :: 0 <= i < |front| ==> NoNewline(front[i])
    requires forall i :: 0 <= i < |mid| ==> NoNewline(mid[i])
    requires forall i :: 0 <= i < |back| ==> NoNewline(back[i])
    ensures SplitLines(Join(front + [Join(mid, "\n")] + back, "\n")) == front + mid + back
  {
    var lines := front + mid + back;
    NoNewlineLines(front, mid);
    NoNewlineLines(front + mid, back);
    JoinNest(front, mid, back, "\n");
    SplitJoinLines(lines);
  }

  /** The canonical request is six parts joined by newlines; the header block brings four
      newline-terminated lines of its own, so it reads back as ten lines. */
  lemma CanonicalRequestLines(a: Action, hash: string, xDate: string)
    requires NoNewline(hash) && NoNewline(xDate)
    ensures SplitLines(CanonicalRequest(a, hash, xDate)) ==
      ["POST", "/", CanonicalQuery(a)] + HeaderLines(hash, xDate) + [SignedHeaders, hash]
  {
    var front, hs, back := ["POST", "/", CanonicalQuery(a)], HeaderLines(hash, xDate), [SignedHeaders, hash];
    HeaderLinesNoNewline(hash, xDate);
    QueryNoNewline(a);
    forall i | 0 <= i < |front| ensures NoNewline(front[i]) {
      if i == 0 { assert NoNewline("POST"); }
      else if i == 1 { assert NoNewline("/"); }
    }
    forall i | 0 <= i < |back| ensures NoNewline(back[i]) {
      if i == 0 { assert NoNewline(SignedHeaders); }
    }
    SplitJoinNest(front, hs, back);
  }

  /** The string to sign is four lines: algorithm, X-Date, scope and the request hash. */
  lemma StringToSignLines(xDate: string, date: string, requestHash: string)
    requires NoNewline(xDate) && NoNewline(date) && NoNewline(requestHash)
    ensures SplitLines(StringToSign(xDate, Scope(date), requestHash)) == ["HMAC-SHA256", xDate, Scope(date), requestHash]
  {
    var s := Scope(date);
    forall k | 0 <= k < |s| ensures s[k] != '\n' {
      if k < |date| { assert s[k] == date[k]; }
    }
    SplitJoinLines(["HMAC-SHA256", xDate, s, requestHash]);
  }

  // ---------------------------------------------------------------- submit and poll

  /** A reply to one POST: `Thrown` is a network failure; `body` is `res.json()`, `{}` when it
      does not parse. */
  datatype HttpReply = Thrown | Reply(status: int, body: Json)

  predicate Ok2xx(status: int) {
    200 <= status <= 299
  }

  /** `String(v)`. */
  function JsText(p: Prims, v: Json): string {
    if v.JStr? then v.s else p.toText(v)
  }

  /** ASCII lower-casing; the statuses compared against are ASCII words. */
  function Lower(s: string): (r: string)
    ensures |r| == |s|
  {
    if |s| == 0 then []
    else [if 'A' <= s[0] <= 'Z' then (s[0] as int + 32) as char else s[0]] + Lower(s[1..])
  }

  /** A value `pushMaybe` keeps: a non-empty string. */
  predicate NonEmptyStr(j: Json) {
    j.JStr? && j.s != []
  }

  /** `pushMaybe(v)`: a non-empty string, or the non-empty strings of an array. */
  function PushMaybe(v: Option<Json>): (r: seq<string>)
    ensures forall i :: 0 <= i < |r| ==> r[i] != []
    ensures forall u :: u in r <==> u != [] && v.Some? && (v.value == JStr(u) || (v.value.JArr? && JStr(u) in v.value.items))
    ensures r != [] ==> v.Some? && (v.value == JStr(r[0]) || (v.value.JArr? && FirstStringAt(v.value.items, r[0])))
  {
    if v.Some? && v.value.JStr? && v.value.s != [] then [v.value.s]
    else if v.Some? && v.value.JArr? then NonEmptyStrings(v.value.items)
    else []
  }

  /** `u` is the first non-empty string among `items`. */
  predicate FirstStringAt(items: seq<Json>, u: string) {
    exists i :: 0 <= i < |items| && items[i] == JStr(u) && u != []
              && forall j :: 0 <= j < i ==> !NonEmptyStr(items[j])
  }

  /** The non-empty strings of an array, in order. */
  function NonEmptyStrings(items: seq<Json>): (r: seq<string>)
    ensures forall i :: 0 <= i < |r| ==> r[i] != []
    ensures forall u :: u in r <==> u != [] && JStr(u) in items
    ensures r != [] ==> FirstStringAt(items, r[0])
  {
    if |items| == 0 then []
    else
      var rest := NonEmptyStrings(items[1..]);
      assert items == [items[0]] + items[1..];
      if NonEmptyStr(items[0]) then
        assert items[0] == JStr(items[0].s);
        [items[0].s] + rest
      else
        assert rest != [] ==> FirstStringAt(items, rest[0]) by {
          if rest != [] {
          var i :| 0 <= i < |items[1..]| && items[1..][i] == JStr(rest[0]) && rest[0] != []
                   && forall j :: 0 <= j < i ==> !NonEmptyStr(items[1..][j]);
          assert items[i + 1] == JStr(rest[0]);
          assert forall j :: 0 <= j < i + 1 ==> !NonEmptyStr(items[j]) by {
            forall j | 0 <= j < i + 1 ensures !NonEmptyStr(items[j]) {
              if j > 0 { assert items[j] == items[1..][j - 1]; }
            }
          }
          }
        }
        rest
  }

  function Read(jr: Json, path: seq<Step>): Option<Json> {
    Path(Some(jr), path)
  }

  /** The ten places a result URL may be found, in the order they are read. */
  const UrlPaths: seq<seq<Step>> := [
    [Key("data"), Key("image_urls")], [Key("Result"), Key("ImageUrls")], [Key("image_urls")],
    [Key("data"), Key("url")], [Key("data"), Key("image_url")], [Key("Result"), Key("Url")],
    [Key("Result"), Key("ImageUrl")], [Key("Data"), Key("Url")],
    [Key("data"), Key("images"), At(0), Key("url")], [Key("data"), Key("result"), Key("image_urls")]]

  /** `pushMaybe` applied to each value in turn: the first candidate comes from the first value
      that offers any, and every candidate is offered by some value. */
  function PushAll(vs: seq<Option<Json>>): (r: seq<string>)
    ensures forall i :: 0 <= i < |r| ==> r[i] != []
    ensures r != [] <==> exists i :: 0 <= i < |vs| && PushMaybe(vs[i]) != []
    ensures r != [] ==> exists i :: 0 <= i < |vs| && PushMaybe(vs[i]) != [] && r[0] == PushMaybe(vs[i])[0]
                                   && forall j :: 0 <= j < i ==> PushMaybe(vs[j]) == []
    ensures forall u :: u in r <==> exists i :: 0 <= i < |vs| && u in PushMaybe(vs[i])
  {
    if |vs| == 0 then []
    else
      var rest := PushAll(vs[1..]);
      PushAllStep(vs, rest);
      PushMaybe(vs[0]) + rest
  }

  /** The inductive step of `PushAll`: the first value's candidates go in front of the rest. */
  lemma PushAllStep(vs: seq<Option<Json>>, rest: seq<string>)
    requires |vs| > 0
    requires rest != [] <==> exists i :: 0 <= i < |vs[1..]| && PushMaybe(vs[1..][i]) != []
    requires rest != [] ==> exists i :: 0 <= i < |vs[1..]| && PushMaybe(vs[1..][i]) != [] && rest[0] == PushMaybe(vs[1..][i])[0]
                                       && forall j :: 0 <= j < i ==> PushMaybe(vs[1..][j]) == []
    requires forall u :: u in rest <==> exists i :: 0 <= i < |vs[1..]| && u in PushMaybe(vs[1..][i])
    ensures var r := PushMaybe(vs[0]) + rest;
      && (r != [] <==> exists i :: 0 <= i < |vs| && PushMaybe(vs[i]) != [])
      && (r != [] ==> exists i :: 0 <= i < |vs| && PushMaybe(vs[i]) != [] && r[0] == PushMaybe(vs[i])[0]
                                  && forall j :: 0 <= j < i ==> PushMaybe(vs[j]) == [])
      && (forall u :: u in r <==> exists i :: 0 <= i < |vs| && u in PushMaybe(vs[i]))
  {
    assert forall i :: 1 <= i < |vs| ==> vs[i] == vs[1..][i - 1];
    PushAllFirst(vs, rest);
    PushAllMembers(vs, rest);
  }

  lemma PushAllFirst(vs: seq<Option<Json>>, rest: seq<string>)
    requires |vs| > 0
    requires forall i :: 1 <= i < |vs| ==> vs[i] == vs[1..][i - 1]
    requires rest != [] ==> exists i :: 0 <= i < |vs[1..]| && PushMaybe(vs[1..][i]) != [] && rest[0] == PushMaybe(vs[1..][i])[0]
                                       && forall j :: 0 <= j < i ==> PushMaybe(vs[1..][j]) == []
    ensures var r := PushMaybe(vs[0]) + rest;
      r != [] ==> exists i :: 0 <= i < |vs| && PushMaybe(vs[i]) != [] && r[0] == PushMaybe(vs[i])[0]
                             && forall j :: 0 <= j < i ==> PushMaybe(vs[j]) == []
  {
    var r := PushMaybe(vs[0]) + rest;
    if PushMaybe(vs[0]) != [] {
      assert r[0] == PushMaybe(vs[0])[0];
    } else if rest != [] {
      var i :| 0 <= i < |vs[1..]| && PushMaybe(vs[1..][i]) != [] && rest[0] == PushMaybe(vs[1..][i])[0]
               && forall j :: 0 <= j < i ==> PushMaybe(vs[1..][j]) == [];
      assert r == rest;
      assert PushMaybe(vs[i + 1]) != [] && r[0] == PushMaybe(vs[i + 1])[0];
      assert forall j :: 0 <= j < i + 1 ==> PushMaybe(vs[j]) == [];
    }
  }

  lemma PushAllMembers(vs: seq<Option<Json>>, rest: seq<string>)
    requires |vs| > 0
    requires forall i :: 1 <= i < |vs| ==> vs[i] == vs[1..][i - 1]
    requires forall u :: u in rest <==> exists i :: 0 <= i < |vs[1..]| && u in PushMaybe(vs[1..][i])
    ensures var r := PushMaybe(vs[0]) + rest;
      && (r != [] <==> exists i :: 0 <= i < |vs| && PushMaybe(vs[i]) != [])
      && (forall u :: u in r <==> exists i :: 0 <= i < |vs| && u in PushMaybe(vs[i]))
  {
    var r := PushMaybe(vs[0]) + rest;
    forall u ensures u in r <==> exists i :: 0 <= i < |vs| && u in PushMaybe(vs[i]) {
      if u in rest {
        var i :| 0 <= i < |vs[1..]| && u in PushMaybe(vs[1..][i]);
        assert u in PushMaybe(vs[i + 1]);
      }
      if exists i :: 0 <= i < |vs| && u in PushMaybe(vs[i]) {
        var i :| 0 <= i < |vs| && u in PushMaybe(vs[i]);
        if i > 0 { assert u in PushMaybe(vs[1..][i - 1]); }
      }
    }
    if r != [] {
      assert r[0] in r;
    }
    if exists i :: 0 <= i < |vs| && PushMaybe(vs[i]) != [] {
      var i :| 0 <= i < |vs| && PushMaybe(vs[i]) != [];
      assert PushMaybe(vs[i])[0] in PushMaybe(vs[i]);
    }
  }

  /** The candidates `pushMaybe` takes from the `i`-th URL path. */
  function Offered(jr: Json, i: nat): seq<string>
    requires i < |UrlPaths|
  {
    PushMaybe(Read(jr, UrlPaths[i]))
  }

  /** Every non-empty URL string found, in reading order; the first comes from the first path
      that offers one. */
  function UrlCandidates(jr: Json): (r: seq<string>)
    ensures forall i :: 0 <= i < |r| ==> r[i] != []
    ensures r != [] <==> exists i :: 0 <= i < |UrlPaths| && Offered(jr, i) != []
    ensures r != [] ==> exists i :: 0 <= i < |UrlPaths| && Offered(jr, i) != [] && r[0] == Offered(jr, i)[0]
                                   && forall j :: 0 <= j < i ==> Offered(jr, j) == []
    ensures forall u :: u in r <==> exists i :: 0 <= i < |UrlPaths| && u in Offered(jr, i)
  {
    var vs := seq(|UrlPaths|, i requires 0 <= i < |UrlPaths| => Read(jr, UrlPaths[i]));
    assert forall i :: 0 <= i < |UrlPaths| ==> PushMaybe(vs[i]) == Offered(jr, i);
    PushAll(vs)
  }

  /** `v` is an array whose first item is the string `s`. */
  predicate LeadsWith(v: Option<Json>, s: string) {
    v.Some? && v.value.JArr? && |v.value.items| > 0 && v.value.items[0] == JStr(s)
  }

  predicate TruthyRead(v: Option<Json>) {
    v.Some? && Truthy(v.value)
  }

  const B64Prefix := "data:image/jpeg;base64,"

  /** `jr?.data?.binary_data_base64` and `jr?.BinaryDataBase64`. */
  function DataB64(jr: Json): Option<Json> {
    Read(jr, [Key("data"), Key("binary_data_base64")])
  }

  function TopB64(jr: Json): Option<Json> {
    Read(jr, [Key("BinaryDataBase64")])
  }

  /** The base64 fallback: the first item of `data.binary_data_base64 || BinaryDataBase64`.
      A truthy `data.binary_data_base64` is used even when it is not a usable array. */
  function Base64Image(jr: Json): (r: Option<string>)
    ensures r.Some? ==> StartsWith(r.value, B64Prefix) && |r.value| > |B64Prefix|
    ensures r.Some? ==>
      exists s :: s != [] && r.value == B64Prefix + s &&
        (LeadsWith(DataB64(jr), s) || (!TruthyRead(DataB64(jr)) && LeadsWith(TopB64(jr), s)))
    ensures forall s :: s != [] && LeadsWith(DataB64(jr), s) ==> r == Some(B64Prefix + s)
    ensures forall s :: s != [] && !TruthyRead(DataB64(jr)) && LeadsWith(TopB64(jr), s) ==> r == Some(B64Prefix + s)
  {
    var b := Or(DataB64(jr), TopB64(jr));
    if b.Some? && b.value.JArr? && |b.value.items| > 0 && b.value.items[0].JStr? && b.value.items[0].s != [] then
      assert LeadsWith(b, b.value.items[0].s);
      Some(B64Prefix + b.value.items[0].s)
    else None
  }

  const TerminalStatuses: seq<string> := ["done", "success", "succeeded", "finished", "not_found", "expired"]

  /** `(data.status || Status || '').toString().toLowerCase()`. */
  function StatusText(p: Prims, jr: Json): string {
    var v := FirstTruthy([Read(jr, [Key("data"), Key("status")]), Read(jr, [Key("Status")])]);
    if v.Some? then Lower(JsText(p, v.value)) else []
  }

  /** What one GetResult reply decides. */
  datatype Verdict = Crash | Retry | Fail(status: int) | Url(url: string) | Stop | Pending

  predicate Continues(v: Verdict) {
    v.Retry? || v.Pending?
  }

  /** A verdict whose URL, if it names one, is not empty. */
  type UrlVerdict = v: Verdict | v.Url? ==> v.url != [] witness Pending

  /** What one GetResult reply decides: a thrown fetch crashes the handler, 429 and 5xx are
      retried, any other non-2xx fails, and a 2xx reply gives its image, a terminal stop or a wait. */
  function Classify(p: Prims, r: HttpReply): (v: UrlVerdict)
    ensures v == Crash <==> r.Thrown?
    ensures v == Retry <==> r.Reply? && (r.status == 429 || r.status >= 500)
    ensures v.Fail? <==> r.Reply? && !Ok2xx(r.status) && r.status != 429 && r.status < 500
    ensures v.Fail? ==> v.status == r.status
    ensures v.Url? <==> r.Reply? && Ok2xx(r.status) && ImageOf(r.body).Some?
    ensures v.Url? ==> Some(v.url) == ImageOf(r.body)
    ensures v == Stop <==> r.Reply? && Ok2xx(r.status) && ImageOf(r.body).None? && Terminal(p, r.body)
  {
    match r
    case Thrown => Crash
    case Reply(status, jr) =>
      if !Ok2xx(status) then
        if status == 429 || status >= 500 then Retry else Fail(status)
      else if ImageOf(jr).Some? then Url(ImageOf(jr).value)
      else if Terminal(p, jr) then Stop
      else Pending
  }

  /** The image a successful reply carries: the first candidate of the first URL path that
      offers one, else the base64 image. */
  function ImageOf(jr: Json): (r: Option<string>)
    ensures r.Some? ==> r.value != []
    ensures (exists i :: 0 <= i < |UrlPaths| && Offered(jr, i) != []) ==>
      exists i :: 0 <= i < |UrlPaths| && Offered(jr, i) != [] && r == Some(Offered(jr, i)[0])
                  && forall j :: 0 <= j < i ==> Offered(jr, j) == []
    ensures (forall i :: 0 <= i < |UrlPaths| ==> Offered(jr, i) == []) ==> r == Base64Image(jr)
  {
    if |UrlCandidates(jr)| > 0 then Some(UrlCandidates(jr)[0]) else Base64Image(jr)
  }

  /** The task reports a status after which no image will come. */
  predicate Terminal(p: Prims, jr: Json) {
    StatusText(p, jr) in TerminalStatuses
  }

  datatype PollEnd = Found(url: string) | Upstream(status: int) | NoUrl | Crashed

  const MaxAttempts := 20

  /** The end of polling for a reply that does not ask to wait. */
  function EndOf(v: Verdict): PollEnd {
    match v
    case Crash => Crashed
    case Fail(s) => Upstream(s)
    case Url(u) => Found(u)
    case _ => NoUrl
  }

  /** Attempts `i`, `i + 1`, ... up to 20; `verdicts(j)` is what attempt `j`'s reply decides.
      Also returns how many GetResult requests were sent. */
  function PollFrom(verdicts: nat -> UrlVerdict, i: nat): (r: (PollEnd, nat))
    requires i <= MaxAttempts
    ensures r.1 <= MaxAttempts - i
    ensures i < MaxAttempts ==> r.1 >= 1
    ensures r.0.Found? ==> exists j :: i <= j < MaxAttempts && verdicts(j) == Url(r.0.url)
    ensures r.0.Found? ==> r.0.url != []
    decreases MaxAttempts - i
  {
    if i == MaxAttempts then (NoUrl, 0)
    else if Continues(verdicts(i)) then
      var rest := PollFrom(verdicts, i + 1);
      (rest.0, rest.1 + 1)
    else (EndOf(verdicts(i)), 1)
  }

  /** Polling ends at the first attempt that does not ask to wait or retry, having sent one
      request per attempt up to it; when every attempt waits, it ends with no URL after 20. */
  lemma {:induction false} PollStopsAtFirst(verdicts: nat -> UrlVerdict, i: nat, j: nat)
    requires i <= j <= MaxAttempts
    requires forall k :: i <= k < j ==> Continues(verdicts(k))
    requires j == MaxAttempts || !Continues(verdicts(j))
    ensures PollFrom(verdicts, i) ==
      if j == MaxAttempts then (NoUrl, MaxAttempts - i) else (EndOf(verdicts(j)), j - i + 1)
    decreases j - i
  {
    if i < j {
      PollStopsAtFirst(verdicts, i + 1, j);
    }
  }

  /** Polling finds `u` exactly when some attempt yields `u` and every earlier attempt only
      asked to wait or retry. */
  lemma PollFinds(verdicts: nat -> UrlVerdict, i: nat, u: string)
    requires i <= MaxAttempts
    ensures PollFrom(verdicts, i).0 == Found(u) <==>
      exists j :: i <= j < MaxAttempts && verdicts(j) == Url(u)
        && forall k :: i <= k < j ==> Continues(verdicts(k))
  {
    if PollFrom(verdicts, i).0 == Found(u) {
      var j := FoundAt(verdicts, i, u);
    }
    if exists j :: i <= j < MaxAttempts && verdicts(j) == Url(u)
        && forall k :: i <= k < j ==> Continues(verdicts(k)) {
      var j :| i <= j < MaxAttempts && verdicts(j) == Url(u)
        && forall k :: i <= k < j ==> Continues(verdicts(k));
      PollStopsAtFirst(verdicts, i, j);
    }
  }

  /** The attempt at which polling found `u`: every attempt before it waited or retried. */
  lemma {:induction false} FoundAt(verdicts: nat -> UrlVerdict, i: nat, u: string) returns (j: nat)
    requires i <= MaxAttempts
    requires PollFrom(verdicts, i).0 == Found(u)
    ensures i <= j < MaxAttempts && verdicts(j) == Url(u)
    ensures forall k :: i <= k < j ==> Continues(verdicts(k))
    decreases MaxAttempts - i
  {
    if Continues(verdicts(i)) {
      j := FoundAt(verdicts, i + 1, u);
    } else {
      j := i;
    }
  }

  // ---------------------------------------------------------------- the handler

  /** The handler's JSON reply: `status` is the HTTP status, `url` the image on success. */
  datatype Response = Response(status: int, url: Option<string>, error: string)

  /** A reply together with every signed request the handler sent. */
  datatype Exchange = Exchange(response: Response, sent: seq<Signed>)

  /** `(env[a] || env[b] || ... || '')`. */
  function EnvFirst(env: string -> string, names: seq<string>): (r: string)
    ensures r == [] <==> forall i :: 0 <= i < |names| ==> env(names[i]) == []
    ensures r != [] ==> exists i :: 0 <= i < |names| && r == env(names[i]) && forall j :: 0 <= j < i ==> env(names[j]) == []
  {
    if |names| == 0 then []
    else if env(names[0]) != [] then env(names[0])
    else
      var r := EnvFirst(env, names[1..]);
      assert forall i :: 1 <= i < |names| ==> names[i] == names[1..][i - 1];
      assert r != [] ==> exists i :: 0 <= i < |names| && r == env(names[i]) && forall j :: 0 <= j < i ==> env(names[j]) == [] by {
        if r != [] {
          var i :| 0 <= i < |names[1..]| && r == env(names[1..][i]) && forall j :: 0 <= j < i ==> env(names[1..][j]) == [];
          assert r == env(names[i + 1]);
        }
      }
      r
  }

  /** The configured Jimeng field, trimmed; missing counts as `''`. */
  function CfgField(cfg: Config.AppConfig, f: Config.ProviderConfig -> Option<string>): string {
    var j := Record.Get(cfg.imageProviders, "jimeng");
    if j.Some? then Trim(f(j.value).GetOr([])) else []
  }

  /** The access and secret keys the handler signs with: extraction first, then the
      environment; `''` when neither supplies one. */
  function Credentials(p: Prims, m: Matchers, cfg: Config.AppConfig, env: string -> string): (string, string) {
    var apiKey := CfgField(cfg, (c: Config.ProviderConfig) => c.apiKey);
    var ak := Trim(ExtractAk(p, m, CfgField(cfg, (c: Config.ProviderConfig) => c.ak), apiKey));
    var sk := Trim(ExtractSk(p, m, CfgField(cfg, (c: Config.ProviderConfig) => c.sk), apiKey));
    ( if ak != [] then ak else Trim(EnvFirst(env, ["VOLC_ACCESS_KEY_ID", "VOLCENGINE_ACCESS_KEY_ID"])),
      if sk != [] then sk else Trim(EnvFirst(env, ["VOLC_SECRET_ACCESS_KEY", "VOLCENGINE_SECRET_ACCESS_KEY"])) )
  }

  /** `submitJson.data.task_id || submitJson.Data.TaskId || submitJson.task_id`. */
  function TaskId(jr: Json): Option<Json> {
    FirstTruthy([Read(jr, [Key("data"), Key("task_id")]), Read(jr, [Key("Data"), Key("TaskId")]), Read(jr, [Key("task_id")])])
  }

  function SubmitBody(p: Prims, reqKey: string, b: Body, width: int, height: int): string {
    p.stringify(JObj([("req_key", JStr(reqKey)), ("prompt", JStr(b.prompt)), ("width", JNum(width)),
                      ("height", JNum(height)), ("return_url", JBool(true))]))
  }

  function GetBody(p: Prims, reqKey: string, taskId: string): string {
    p.stringify(JObj([("req_key", JStr(reqKey)), ("task_id", JStr(taskId)),
                      ("req_json", JStr(p.stringify(JObj([("return_url", JBool(true))]))))]))
  }

  function Repeat(s: Signed, n: nat): (r: seq<Signed>)
    ensures |r| == n
    ensures forall k :: 0 <= k < n ==> r[k] == s
  {
    if n == 0 then [] else [s] + Repeat(s, n - 1)
  }

  /** The reply once the task was submitted and polled: `sent` is the submit followed by one
      GetResult request per attempt. */
  function AfterPoll(submit: Signed, get: Signed, polled: (PollEnd, nat)): (x: Exchange)
    ensures x.response.status in {200, 500, 502}
    ensures |x.sent| == 1 + polled.1 && x.sent[0] == submit
    ensures x.response.status == 200 <==> polled.0.Found?
    ensures polled.0.Found? ==> x.response.url == Some(polled.0.url)
    ensures polled.0.Upstream? || polled.0.NoUrl? ==> x.response.status == 502
    ensures polled.0.Crashed? ==> x.response.status == 500
    ensures forall k :: 1 <= k < |x.sent| ==> x.sent[k] == get
  {
    var sent := [submit] + Repeat(get, polled.1);
    match polled.0
    case Found(u) => Exchange(Response(200, Some(u), ""), sent)
    case Upstream(s) => Exchange(Response(502, None, "upstream error (get)"), sent)
    case NoUrl => Exchange(Response(502, None, "no url returned"), sent)
    case Crashed => Exchange(Response(500, None, "fetch failed"), sent)
  }

  /** Polling with the signed GetResult request; `net(get, j + 1)` answers attempt `j`. */
  function Poll(p: Prims, submit: Signed, get: Signed, net: (Signed, nat) -> HttpReply): (x: Exchange)
    ensures x.response.status in {200, 500, 502}
    ensures 1 <= |x.sent| <= 1 + MaxAttempts
    ensures x.response.status == 200 ==> x.response.url.Some? && x.response.url.value != [] && |x.sent| >= 2
  {
    var polled := PollFrom(Verdicts(p, get, net), 0);
    AfterPoll(submit, get, polled)
  }

  /** What the reply to attempt `j` decides; `net(get, j + 1)` answers attempt `j`. */
  function Attempt(p: Prims, get: Signed, net: (Signed, nat) -> HttpReply, j: nat): UrlVerdict {
    Classify(p, net(get, j + 1))
  }

  function Verdicts(p: Prims, get: Signed, net: (Signed, nat) -> HttpReply): nat -> UrlVerdict {
    (j: nat) => Attempt(p, get, net, j)
  }

  /** Polling ends at the first attempt `j` whose reply neither waits nor is retried, having sent
      the submit and `j + 1` GetResult requests: a URL gives 200 with that URL, a thrown fetch
      500, and an upstream failure or a terminal status without an image 502. */
  lemma PollEndsAt(p: Prims, submit: Signed, get: Signed, net: (Signed, nat) -> HttpReply, j: nat)
    requires j < MaxAttempts
    requires forall k :: 0 <= k < j ==> Continues(Attempt(p, get, net, k))
    requires !Continues(Attempt(p, get, net, j))
    ensures var x := Poll(p, submit, get, net);
            var v := Attempt(p, get, net, j);
      && |x.sent| == j + 2 && x.sent[0] == submit
      && x.response.status == (if v.Url? then 200 else if v.Crash? then 500 else 502)
      && (v.Url? ==> x.response.url == Some(v.url))
  {
    var vs := Verdicts(p, get, net);
    assert forall k :: 0 <= k <= j ==> vs(k) == Attempt(p, get, net, k);
    PollStopsAtFirst(vs, 0, j);
  }

  /** Twenty attempts that all wait or are retried end in 502 after 21 requests. */
  lemma PollExhausted(p: Prims, submit: Signed, get: Signed, net: (Signed, nat) -> HttpReply)
    requires forall k :: 0 <= k < MaxAttempts ==> Continues(Attempt(p, get, net, k))
    ensures Poll(p, submit, get, net).response.status == 502
    ensures |Poll(p, submit, get, net).sent| == 1 + MaxAttempts
  {
    var vs := Verdicts(p, get, net);
    assert forall k :: 0 <= k < MaxAttempts ==> vs(k) == Attempt(p, get, net, k);
    PollStopsAtFirst(vs, 0, MaxAttempts);
  }

  /** The signed GetResult request for a task. */
  function GetRequest(p: Prims, ak: string, sk: string, now: UtcTime, token: string, reqKey: string, taskId: Json): Signed {
    SignAndBuild(p, ak, sk, now, token, GetResult, GetBody(p, reqKey, JsText(p, taskId)))
  }

  /** Submitting the task and polling for its result, once credentials are known. Only the
      submit is sent when it throws (500), is not 2xx or names no task (502); otherwise the task
      is polled with a GetResult request for the task it names. */
  function Submit(p: Prims, ak: string, sk: string, now: UtcTime, token: string, reqKey: string,
                  submitBody: string, net: (Signed, nat) -> HttpReply): (x: Exchange)
    ensures x.response.status in {200, 500, 502}
    ensures 1 <= |x.sent| <= 1 + MaxAttempts
    ensures x.response.status == 200 ==> x.response.url.Some? && x.response.url.value != [] && |x.sent| >= 2
    ensures x.sent[0] == SignAndBuild(p, ak, sk, now, token, SubmitTask, submitBody)
    ensures net(x.sent[0], 0).Thrown? ==> x.response.status == 500 && |x.sent| == 1
    ensures net(x.sent[0], 0).Reply? && (!Ok2xx(net(x.sent[0], 0).status) || TaskId(net(x.sent[0], 0).body).None?)
            ==> x.response.status == 502 && |x.sent| == 1
    ensures net(x.sent[0], 0).Reply? && Ok2xx(net(x.sent[0], 0).status) && TaskId(net(x.sent[0], 0).body).Some?
            ==> x == Poll(p, x.sent[0], GetRequest(p, ak, sk, now, token, reqKey, TaskId(net(x.sent[0], 0).body).value), net)
  {
    var submit := SignAndBuild(p, ak, sk, now, token, SubmitTask, submitBody);
    var reply := net(submit, 0);
    if reply.Thrown? then Exchange(Response(500, None, "fetch failed"), [submit])
    else if !Ok2xx(reply.status) then Exchange(Response(502, None, "upstream error (submit)"), [submit])
    else if TaskId(reply.body).None? then Exchange(Response(502, None, "no task_id from submit"), [submit])
    else
      var get := GetRequest(p, ak, sk, now, token, reqKey, TaskId(reply.body).value);
      Poll(p, submit, get, net)
  }

  /** `POST /api/image/jimeng`. `net(s, n)` answers the `n`-th request sent (0 is the submit).
      A request is sent only for a valid body with credentials, and the first one sent is the
      submit built from them. */
  function Post(p: Prims, m: Matchers, body: Json, cfg: Config.AppConfig, env: string -> string,
                now: UtcTime, net: (Signed, nat) -> HttpReply): (x: Exchange)
    ensures x.response.status == 400 <==>
      ValidateBody(body).None? || Credentials(p, m, cfg, env).0 == [] || Credentials(p, m, cfg, env).1 == []
    ensures x.response.status == 400 ==> x.sent == []
    ensures x.response.status != 400 ==>
      var c := Credentials(p, m, cfg, env);
      x == Launch(p, ValidateBody(body).value, c.0, c.1, env, now, net)
    ensures |x.sent| <= 1 + MaxAttempts
    ensures x.response.status == 200 ==> x.response.url.Some? && x.response.url.value != [] && |x.sent| >= 2
    ensures x.response.status in {200, 400, 500, 502}
  {
    var b := ValidateBody(body);
    if b.None? then Exchange(Response(400, None, "invalid body"), [])
    else
      var creds := Credentials(p, m, cfg, env);
      if creds.0 == [] || creds.1 == [] then Exchange(Response(400, None, "missing credentials (ak/sk)"), [])
      else Launch(p, b.value, creds.0, creds.1, env, now, net)
  }

  /** `(VOLC_JIMENG_REQ_KEY || 'jimeng_t2i_v40').trim()`. */
  function ReqKey(env: string -> string): string {
    Trim(if env("VOLC_JIMENG_REQ_KEY") != [] then env("VOLC_JIMENG_REQ_KEY") else "jimeng_t2i_v40")
  }

  /** The session token, `''` when none of the three variables is set. */
  function SessionToken(env: string -> string): string {
    EnvFirst(env, ["VOLC_SESSION_TOKEN", "VOLC_SECURITY_TOKEN", "X_SECURITY_TOKEN"])
  }

  /** The signed submit request: the request key, the prompt and both sizes snapped to a safe size. */
  function SubmitRequest(p: Prims, b: Body, ak: string, sk: string, env: string -> string, now: UtcTime): Signed {
    SignAndBuild(p, ak, sk, now, SessionToken(env), SubmitTask,
                 SubmitBody(p, ReqKey(env), b, PickSize(b.width), PickSize(b.height)))
  }

  /** A valid body with credentials: the request key and session token come from the
      environment, the sizes are snapped, and the task is submitted and polled. */
  function Launch(p: Prims, b: Body, ak: string, sk: string, env: string -> string, now: UtcTime,
                  net: (Signed, nat) -> HttpReply): (x: Exchange)
    ensures x.response.status in {200, 500, 502}
    ensures 1 <= |x.sent| <= 1 + MaxAttempts
    ensures x.response.status == 200 ==> x.response.url.Some? && x.response.url.value != [] && |x.sent| >= 2
    ensures x.sent[0] == SubmitRequest(p, b, ak, sk, env, now)
    ensures x == Submit(p, ak, sk, now, SessionToken(env), ReqKey(env),
                        SubmitBody(p, ReqKey(env), b, PickSize(b.width), PickSize(b.height)), net)
  {
    Submit(p, ak, sk, now, SessionToken(env), ReqKey(env),
           SubmitBody(p, ReqKey(env), b, PickSize(b.width), PickSize(b.height)), net)
  }

  /** The handler's outcome once the task is accepted: it ends at the first GetResult attempt
      `j` that neither waits nor is retried, with `j + 2` requests sent, and answers 200 with
      that attempt's image, 500 for a thrown fetch, or 502. */
  lemma PostEndsAt(p: Prims, m: Matchers, body: Json, cfg: Config.AppConfig, env: string -> string,
                   now: UtcTime, net: (Signed, nat) -> HttpReply, b: Body, ak: string, sk: string, taskId: Json, j: nat)
    requires ValidateBody(body) == Some(b) && Credentials(p, m, cfg, env) == (ak, sk) && ak != [] && sk != []
    requires net(SubmitRequest(p, b, ak, sk, env, now), 0).Reply?
    requires Ok2xx(net(SubmitRequest(p, b, ak, sk, env, now), 0).status)
    requires TaskId(net(SubmitRequest(p, b, ak, sk, env, now), 0).body) == Some(taskId)
    requires j < MaxAttempts
    requires var get := GetRequest(p, ak, sk, now, SessionToken(env), ReqKey(env), taskId);
      && (forall k :: 0 <= k < j ==> Continues(Attempt(p, get, net, k)))
      && !Continues(Attempt(p, get, net, j))
    ensures var x := Post(p, m, body, cfg, env, now, net);
            var v := Attempt(p, GetRequest(p, ak, sk, now, SessionToken(env), ReqKey(env), taskId), net, j);
      && |x.sent| == j + 2
      && x.response.status == (if v.Url? then 200 else if v.Crash? then 500 else 502)
      && (v.Url? ==> x.response.url == Some(v.url))
  {
    var get := GetRequest(p, ak, sk, now, SessionToken(env), ReqKey(env), taskId);
    PollEndsAt(p, SubmitRequest(p, b, ak, sk, env, now), get, net, j);
  }

  /** A submit that is not 2xx, or whose reply names no task, ends the handler with 502 after
      that one request. */
  lemma PostSubmitRejected(p: Prims, m: Matchers, body: Json, cfg: Config.AppConfig, env: string -> string,
                           now: UtcTime, net: (Signed, nat) -> HttpReply, b: Body, ak: string, sk: string)
    requires ValidateBody(body) == Some(b) && Credentials(p, m, cfg, env) == (ak, sk) && ak != [] && sk != []
    requires var reply := net(SubmitRequest(p, b, ak, sk, env, now), 0);
      reply.Reply? && (!Ok2xx(reply.status) || TaskId(reply.body).None?)
    ensures Post(p, m, body, cfg, env, now, net).response.status == 502
    ensures Post(p, m, body, cfg, env, now, net).sent == [SubmitRequest(p, b, ak, sk, env, now)]
  {
    var x := Launch(p, b, ak, sk, env, now, net);
    assert Post(p, m, body, cfg, env, now, net) == x;
    assert x.sent[0] == SubmitRequest(p, b, ak, sk, env, now);
    assert |x.sent| == 1 && x.response.status == 502;
    assert x.sent == [x.sent[0]];
  }

  /** The size actually requested: a safe size, the least one not below the clamped value. */
  function PickSize(v: int): (s: int)
    ensures s in SafeSizes && Clamped(v) <= s
    ensures forall t :: t in SafeSizes && Clamped(v) <= t ==> s <= t
  {
    var n := Clamped(v);
    if n <= 1024 then 1024 else if n <= 1280 then 1280 else if n <= 1536 then 1536 else 2048
  }
}

=== FILE: json.dfy ===
/** Parsed JSON values as the TypeScript code handles them (`any` after `JSON.parse`).
    Numbers are integers here; objects keep their entries in order. */
module Json {
  import opened Wrappers
  import Record

  datatype Json =
    | JNull
    | JBool(b: bool)
    | JNum(n: int)
    | JStr(s: string)
    | JArr(items: seq<Json>)
    | JObj(fields: seq<(string, Json)>)

  /** `JSON.parse`, which is not modelled: `None` stands for a thrown SyntaxError. */
  type Parser = string -> Option<Json>

  /** JavaScript truthiness, `!!v`. */
  predicate Truthy(j: Json) {
    match j
    case JNull => false
    case JBool(b) => b
    case JNum(n) => n != 0
    case JStr(s) => s != []
    case _ => true
  }

  /** An optional-chained read `v?.[k]`: only objects have fields. */
  function Field(j: Json, k: string): Option<Json> {
    if j.JObj? then Record.Get(j.fields, k) else None
  }

  /** An optional-chained read `v?.[i]`: only arrays have elements. */
  function Index(j: Json, i: nat): Option<Json> {
    if j.JArr? && i < |j.items| then Some(j.items[i]) else None
  }

  datatype Step = Key(k: string) | At(i: nat)

  /** `v?.a?.b?.[0]...`, reading one step at a time; a missing step gives `undefined`. */
  function Path(j: Option<Json>, steps: seq<Step>): Option<Json>
    decreases |steps|
  {
    if |steps| == 0 || j.None? then j
    else
      var next := match steps[0]
        case Key(k) => Field(j.value, k)
        case At(i) => Index(j.value, i);
      Path(next, steps[1..])
  }

  /** `undefined` or `null`, the values `??` skips. */
  predicate Nullish(v: Option<Json>) {
    v.None? || v.value.JNull?
  }

  /** `a || b` on optional values: `a` when it is truthy, otherwise `b`. */
  function Or(a: Option<Json>, b: Option<Json>): Option<Json> {
    if a.Some? && Truthy(a.value) then a else b
  }

  /** The first truthy value among the given reads (`a || b || c`), if any is truthy. */
  function FirstTruthy(vs: seq<Option<Json>>): (r: Option<Json>)
    ensures r.Some? ==> Truthy(r.value) && r.value in OptValues(vs)
    ensures r.None? ==> forall i :: 0 <= i < |vs| ==> vs[i].None? || !Truthy(vs[i].value)
    ensures r.Some? ==> exists i :: 0 <= i < |vs| && vs[i] == r
                                   && forall j :: 0 <= j < i ==> vs[j].None? || !Truthy(vs[j].value)
  {
    if |vs| == 0 then None
    else if vs[0].Some? && Truthy(vs[0].value) then vs[0]
    else
      assert forall i :: 1 <= i < |vs| ==> vs[i] == vs[1..][i - 1];
      FirstTruthy(vs[1..])
  }

  function OptValues(vs: seq<Option<Json>>): set<Json> {
    set i | 0 <= i < |vs| && vs[i].Some? :: vs[i].value
  }

  /** The object `{ placeholder: true }` that the demo fallback returns. */
  const Placeholder: Json := JObj([("placeholder", JBool(true))])
}

=== FILE: pipeline.dfy ===
/** The orchestrator `runPipeline` of lib/pipeline.ts: per-stage backend selection, the
    outline, writing and image stages with their defaults, the first-success fallback chains,
    the final assembly and the fixed node sequence with its abort checks.

    Everything the run asks of the outside world comes from a `Backend` value: the replies of
    the text backends, the streamed final-merge attempts, the image backend's URLs, the
    revisions of the snapshot commits, fresh ids and the abort signal. Within one run a
    question is identified by its stage and, for the writing stage, the section index, so a
    reply is a function of the backend's name and that question. */
module Pipeline {
  import opened Wrappers
  import opened Text
  import opened Json
  import opened Record
  import opened Config
  import opened Doc
  import Providers
  import Assembler
  import Jimeng

  // ---------------------------------------------------------------- the outside world

  /** One question put to a backend: its stage and, for `write-sections`, the section index. */
  datatype Ask = Ask(stage: string, part: nat)

  /** A streamed final-merge attempt: the tokens handed to `onToken`, then the call's result. */
  datatype Streamed = Streamed(tokens: seq<string>, result: Providers.Result)

  /** `ask(p, q)`: `getClient(p).chat(...)`, a thrown call being an `Err`.
      `draw(prompt)`: the image backend's URL, `None` for `undefined`.
      `commit(i)`: the revision of the `i`-th snapshot, `None` when writing or committing failed.
      `uuid(i)`: the `i`-th fresh id. `aborted(i)`: the abort signal as `checkAbort` after node `i` sees it.
      `norm` and `encode` stand for the title normalisation and `encodeURIComponent`. */
  datatype Backend = Backend(
    ask: (string, Ask) -> Providers.Result,
    stream: string -> Streamed,
    draw: string -> Option<string>,
    commit: nat -> Option<string>,
    uuid: nat -> string,
    aborted: nat -> bool,
    norm: string -> string,
    encode: string -> string)

  /** What the image stage reads besides the configuration: the primitives and `sk=` matcher its
      `looseExtract` runs on (`Jimeng.LooseExtract`), and whether the environment holds an access
      key and a secret key. */
  datatype Credentials = Credentials(p: Jimeng.Prims, m: Jimeng.Matchers, envAk: bool, envSk: bool)

  // ---------------------------------------------------------------- run state

  datatype Status = Running | Done

  /** Why the image stage drew or did not draw with the image backend (`imgGenReason`). */
  datatype ImageReason = NotSelected | MissingCredentials | FromSettings | FromEnvironment

  /** The `data` each node carries. The stage's prompt text, which every node also copies, is
      not kept. */
  datatype NodeData =
    | IntentData(intent: Intent, files: seq<UploadedFile>, providers: seq<string>)
    | OutlinesData(outlines: seq<Outline>, providers: seq<string>)
    | OutlineData(outline: Outline, providers: seq<string>)
    | DraftsData(drafts: seq<DraftSection>, providers: seq<string>)
    | PromptsData(images: seq<ImagePrompt>)
    | ImagesData(generated: seq<GeneratedImage>, backend: string, reason: ImageReason)
    | DocData(markdown: string, providers: seq<string>)
    | ReviewData(review: Json, providers: seq<string>)
    | FactData(fact: Json, providers: seq<string>)
    | FinalData(markdown: string, providers: seq<string>)
    | GitData(commits: seq<string>)
    | NoData

  /** `RunNode`; its `id` and `type` are the same string. */
  datatype RunNode = RunNode(kind: string, status: Status, data: NodeData)

  datatype RunState = RunState(
    id: string,
    nodes: seq<RunNode>,
    outline: Option<Outline>,
    draftSections: Option<seq<DraftSection>>,
    final: Option<string>)

  /** A run either returns its state or rejects with `aborted`, its last emitted state being
      the one shown. */
  datatype Outcome = Finished(run: RunState) | Aborted(run: RunState)

  const NodeKinds: seq<string> := [
    "intent", "outline-multi", "outline-merge", "write-sections", "image-prompts",
    "image-generation", "merge-assembly", "expert-review", "fact-check", "final-merge", "git", "tts"]

  /** Whether `checkAbort` runs after node `i`: after every stage except fact-check (node 8),
      and not after the git and tts nodes. */
  predicate Checked(i: nat) {
    i <= 9 && i != 8
  }

  // ---------------------------------------------------------------- backend selection

  predicate Enabled(m: Rec<ProviderConfig>, p: string) {
    Get(m, p).Some? && IsEnabled(Get(m, p).value)
  }

  /** `ps.filter(p => m[p]?.enabled)`. */
  function EnabledOnly(m: Rec<ProviderConfig>, ps: seq<string>): (r: seq<string>)
    ensures |r| <= |ps|
    ensures forall p :: p in r <==> p in ps && Enabled(m, p)
  {
    if |ps| == 0 then []
    else (if Enabled(m, ps[0]) then [ps[0]] else []) + EnabledOnly(m, ps[1..])
  }

  /** Filtering keeps the configured order: it distributes over concatenation. */
  lemma {:induction false} EnabledOnlyAppend(m: Rec<ProviderConfig>, a: seq<string>, b: seq<string>)
    ensures EnabledOnly(m, a + b) == EnabledOnly(m, a) + EnabledOnly(m, b)
  {
    if |a| == 0 {
      assert a + b == b;
    } else {
      assert (a + b)[1..] == a[1..] + b;
      EnabledOnlyAppend(m, a[1..], b);
    }
  }

  /** A list whose backends are all enabled passes unchanged. */
  lemma {:induction false} EnabledOnlyAll(m: Rec<ProviderConfig>, ps: seq<string>)
    requires forall i :: 0 <= i < |ps| ==> Enabled(m, ps[i])
    ensures EnabledOnly(m, ps) == ps
  {
    if |ps| > 0 {
      EnabledOnlyAll(m, ps[1..]);
    }
  }

  /** `stages[stage] || []`. */
  function StageList(stages: Rec<seq<string>>, stage: string): seq<string> {
    var c := Get(stages, stage);
    if c.Some? then c.value else []
  }

  /** `Object.keys(m).filter(k => m[k]?.enabled)`. */
  function EnabledKeys(m: Rec<ProviderConfig>): (r: seq<string>)
    ensures forall p :: p in r <==> Enabled(m, p)
  {
    var r := EnabledOnly(m, Keys(m));
    assert forall p :: Enabled(m, p) ==> p in Keys(m) by {
      forall p | Enabled(m, p) ensures p in Keys(m) {
        assert Keys(m)[Find(m, p)] == p;
      }
    }
    r
  }

  /** Lines 116-119: the stage's configured text backends that are enabled. An unmapped stage
      selects nothing. */
  function Selected(cfg: AppConfig, stage: string): (r: seq<string>)
    ensures forall p :: p in r <==> p in StageList(cfg.stageProviders, stage) && Enabled(cfg.providers, p)
    ensures !Has(cfg.stageProviders, stage) ==> r == []
    ensures r == EnabledOnly(cfg.providers, StageList(cfg.stageProviders, stage))
    ensures (forall p :: p in StageList(cfg.stageProviders, stage) ==> Enabled(cfg.providers, p)) ==>
      r == StageList(cfg.stageProviders, stage)
  {
    var list := StageList(cfg.stageProviders, stage);
    assert (forall p :: p in list ==> Enabled(cfg.providers, p)) ==> EnabledOnly(cfg.providers, list) == list by {
      if forall p :: p in list ==> Enabled(cfg.providers, p) {
        EnabledOnlyAll(cfg.providers, list);
      }
    }
    EnabledOnly(cfg.providers, StageList(cfg.stageProviders, stage))
  }

  /** Lines 807-817, the module-level `selected`, which the run does not call: the same filter,
      over the image maps for `image-generation`, falling back to every enabled backend of the
      map when the filter leaves nothing. */
  function SelectedGlobal(cfg: AppConfig, stage: string): (r: seq<string>)
    ensures var m := if stage == "image-generation" then cfg.imageProviders else cfg.providers;
      && (forall p :: p in r ==> Enabled(m, p))
      && (r == [] <==> forall p :: !Enabled(m, p))
    ensures stage != "image-generation" && Selected(cfg, stage) != [] ==> r == Selected(cfg, stage)
    ensures stage == "image-generation" && EnabledOnly(cfg.imageProviders, ImageConfigured(cfg)) != [] ==>
      r == EnabledOnly(cfg.imageProviders, ImageConfigured(cfg))
    ensures stage != "image-generation" && Selected(cfg, stage) == [] ==> r == EnabledKeys(cfg.providers)
    ensures stage == "image-generation" && EnabledOnly(cfg.imageProviders, ImageConfigured(cfg)) == [] ==>
      r == EnabledKeys(cfg.imageProviders)
  {
    var m := if stage == "image-generation" then cfg.imageProviders else cfg.providers;
    var stages := if stage == "image-generation" then
        (if cfg.imageStageProviders.Some? then cfg.imageStageProviders.value else [])
      else cfg.stageProviders;
    var enabled := EnabledOnly(m, StageList(stages, stage));
    if enabled != [] then
      assert enabled[0] in enabled;
      enabled
    else
      var all := EnabledKeys(m);
      assert all != [] ==> all[0] in all;
      all
  }

  /** `cfg.imageStageProviders?.['image-generation'] || []`. */
  function ImageConfigured(cfg: AppConfig): seq<string> {
    if cfg.imageStageProviders.Some? then StageList(cfg.imageStageProviders.value, "image-generation") else []
  }

  /** Lines 488-489: the image stage's list, the configured `image-generation` list as it is,
      or every enabled image backend when that list is missing or empty. */
  function ImageStageList(cfg: AppConfig): (r: seq<string>)
    ensures var c := ImageConfigured(cfg);
      && (c != [] ==> forall p :: p in c ==> p in r)
      && (c == [] ==> forall p :: p in r <==> Enabled(cfg.imageProviders, p))
    ensures ImageConfigured(cfg) != [] ==> r == ImageConfigured(cfg)
    ensures ImageConfigured(cfg) == [] ==> r == EnabledKeys(cfg.imageProviders)
  {
    var c := ImageConfigured(cfg);
    if c != [] then c else EnabledKeys(cfg.imageProviders)
  }

  /** The configured image list is not filtered by the enabled flag: a disabled backend that
      is listed is still used. */
  lemma DisabledImageBackendListed(cfg: AppConfig, p: string)
    requires cfg.imageStageProviders.Some?
    requires p in StageList(cfg.imageStageProviders.value, "image-generation")
    requires !Enabled(cfg.imageProviders, p)
    ensures p in ImageStageList(cfg)
  {
  }

  // ---------------------------------------------------------------- asking the backends

  /** `askJSON`: the reply's data when the call succeeded, `undefined` otherwise. */
  function AskJson(b: Backend, p: string, q: Ask): (r: Option<Json>)
    ensures r.Some? <==> b.ask(p, q).Ok?
    ensures r.Some? ==> r.value == b.ask(p, q).data
  {
    var res := b.ask(p, q);
    if res.Ok? then Some(res.data) else None
  }

  /** `askText`: the reply when the call succeeded with a string, `undefined` otherwise. */
  function AskText(b: Backend, p: string, q: Ask): (r: Option<string>)
    ensures r.Some? <==> b.ask(p, q).Ok? && b.ask(p, q).data.JStr?
    ensures r.Some? ==> b.ask(p, q).data == JStr(r.value)
  {
    var res := b.ask(p, q);
    if res.Ok? && res.data.JStr? then Some(res.data.s) else None
  }

  function JsonReplies(b: Backend, ps: seq<string>, q: Ask): (r: seq<Option<Json>>)
    ensures |r| == |ps|
    ensures forall i :: 0 <= i < |ps| ==> r[i] == AskJson(b, ps[i], q)
  {
    seq(|ps|, i requires 0 <= i < |ps| => AskJson(b, ps[i], q))
  }

  function TextReplies(b: Backend, ps: seq<string>, q: Ask): (r: seq<Option<string>>)
    ensures |r| == |ps|
    ensures forall i :: 0 <= i < |ps| ==> r[i] == AskText(b, ps[i], q)
  {
    seq(|ps|, i requires 0 <= i < |ps| => AskText(b, ps[i], q))
  }

  // ---------------------------------------------------------------- first success

  predicate Accepts<T>(x: Option<T>, ok: T -> bool) {
    x.Some? && ok(x.value)
  }

  /** The position of the first acceptable reply, trying the backends strictly in order. */
  function FirstIndex<T>(xs: seq<Option<T>>, ok: T -> bool): (r: Option<nat>)
    ensures r.Some? ==> r.value < |xs| && Accepts(xs[r.value], ok)
    ensures r.Some? ==> forall j :: 0 <= j < r.value ==> !Accepts(xs[j], ok)
    ensures r.None? <==> forall j :: 0 <= j < |xs| ==> !Accepts(xs[j], ok)
  {
    if |xs| == 0 then None
    else if Accepts(xs[0], ok) then Some(0)
    else
      var t := FirstIndex(xs[1..], ok);
      assert forall j :: 1 <= j < |xs| ==> xs[j] == xs[1..][j - 1];
      if t.Some? then Some(t.value + 1) else None
  }

  /** A fallback chain: the first acceptable reply in backend order, else the default
      (lines 568-574, 598-604, 626-632, 655-683). */
  function Chain<T>(xs: seq<Option<T>>, ok: T -> bool, default: T): (r: T)
    ensures (exists i :: 0 <= i < |xs| && Accepts(xs[i], ok)) ==>
      exists k :: 0 <= k < |xs| && xs[k] == Some(r) && ok(r) && forall j :: 0 <= j < k ==> !Accepts(xs[j], ok)
    ensures (forall i :: 0 <= i < |xs| ==> !Accepts(xs[i], ok)) ==> r == default
  {
    var k := FirstIndex(xs, ok);
    if k.Some? then xs[k.value].value else default
  }

  /** Replies after the first acceptable one are never consulted. */
  lemma {:induction false} ChainIgnoresLater<T>(xs: seq<Option<T>>, ys: seq<Option<T>>, ok: T -> bool, default: T)
    requires exists i :: 0 <= i < |xs| && Accepts(xs[i], ok)
    ensures Chain(xs + ys, ok, default) == Chain(xs, ok, default)
  {
    var k := FirstIndex(xs, ok);
    var k' := FirstIndex(xs + ys, ok);
    assert forall j :: 0 <= j < |xs| ==> (xs + ys)[j] == xs[j];
    assert k.Some?;
    assert k'.Some? && k'.value <= k.value;
  }

  // ---------------------------------------------------------------- outlines

  /** Lines 185-190: the replies that are outline-like, decoded, in backend order. */
  function Passing(replies: seq<Option<Json>>): (os: seq<Outline>)
    ensures |os| <= |replies|
    ensures os == [] <==> forall i :: 0 <= i < |replies| ==> !Accepts(replies[i], IsOutlineLike)
  {
    if |replies| == 0 then []
    else
      var rest := Passing(replies[1..]);
      assert forall i :: 1 <= i < |replies| ==> replies[i] == replies[1..][i - 1];
      if Accepts(replies[0], IsOutlineLike) then [DecodeOutline(replies[0].value).value] + rest else rest
  }

  /** Passing keeps backend order: it distributes over concatenation. */
  lemma {:induction false} PassingAppend(a: seq<Option<Json>>, b: seq<Option<Json>>)
    ensures Passing(a + b) == Passing(a) + Passing(b)
  {
    if |a| == 0 {
      assert a + b == b;
    } else {
      assert (a + b)[1..] == a[1..] + b;
      PassingAppend(a[1..], b);
    }
  }

  /** A single reply passes exactly when it is outline-like, and then as its decoding. */
  lemma PassingOne(x: Option<Json>)
    ensures Accepts(x, IsOutlineLike) ==> Passing([x]) == [DecodeOutline(x.value).value]
    ensures !Accepts(x, IsOutlineLike) ==> Passing([x]) == []
  {
    assert [x][1..] == [];
  }

  /** Lines 191-194: the outlines of stage 2, three fallback outlines when no reply passes.
      The `i`-th fallback outline takes its five ids from `uuid(1 + 5 * i)` on. */
  function OutlineMulti(replies: seq<Option<Json>>, intent: Intent, uuid: nat -> string): (os: seq<Outline>)
    ensures |os| > 0
    ensures Passing(replies) != [] ==> os == Passing(replies)
    ensures Passing(replies) == [] ==> |os| == 3 && forall i :: 0 <= i < 3 ==> os[i] == FallbackOutline(intent, uuid, 1 + 5 * i)
    ensures forall i :: 0 <= i < |os| ==> IsOutlineLike(EncodeOutline(os[i]))
  {
    var os := Passing(replies);
    var r := if os != [] then os else Fallbacks(intent, uuid);
    EncodedOutlinesLike(r);
    r
  }

  /** The three fallback outlines, the `i`-th with ids from `uuid(1 + 5 * i)` on. */
  function Fallbacks(intent: Intent, uuid: nat -> string): (fs: seq<Outline>)
    ensures |fs| == 3
    ensures forall i :: 0 <= i < 3 ==> fs[i] == FallbackOutline(intent, uuid, 1 + 5 * i)
  {
    [FallbackOutline(intent, uuid, 1), FallbackOutline(intent, uuid, 6), FallbackOutline(intent, uuid, 11)]
  }

  /** Every outline the model holds encodes to an outline-like value. */
  lemma EncodedOutlinesLike(os: seq<Outline>)
    ensures forall i :: 0 <= i < |os| ==> IsOutlineLike(EncodeOutline(os[i]))
  {
    forall i | 0 <= i < |os| ensures IsOutlineLike(EncodeOutline(os[i])) {
      OutlineRoundTrip(os[i]);
    }
  }

  /** When every reply fails the shape check, each outline is the fallback: the topic (or
      `未命名主题`) and parts `部分 1` to `部分 5` with bullets `要点A`, `要点B`. */
  lemma NoOutlineGivesFallbacks(replies: seq<Option<Json>>, intent: Intent, uuid: nat -> string)
    requires forall i :: 0 <= i < |replies| ==> !Accepts(replies[i], IsOutlineLike)
    ensures var os := OutlineMulti(replies, intent, uuid);
      && |os| == 3
      && forall i :: 0 <= i < 3 ==>
           && os[i].title == Some(if intent.topic != [] then intent.topic else "未命名主题")
           && |os[i].sections| == 5
           && forall j :: 0 <= j < 5 ==>
                os[i].sections[j].title == Some(PartTitle(j)) && os[i].sections[j].bullets == ["要点A", "要点B"]
  {
  }

  /** `outlines.flatMap(o => o.sections)`. */
  function Flatten(os: seq<Outline>): (ss: seq<Section>)
    ensures |os| > 0 ==> StartsWithSeq(ss, os[0].sections)
    ensures forall s :: s in ss <==> exists i :: 0 <= i < |os| && s in os[i].sections
  {
    if |os| == 0 then []
    else
      assert forall i :: 1 <= i < |os| ==> os[i] == os[1..][i - 1];
      os[0].sections + Flatten(os[1..])
  }

  /** Flattening is the in-order concatenation: each outline contributes its own sections, and
      flattening a joined list joins the flattenings. */
  lemma {:induction false} FlattenAppend(xs: seq<Outline>, ys: seq<Outline>)
    ensures Flatten([]) == []
    ensures forall o :: Flatten([o]) == o.sections
    ensures Flatten(xs + ys) == Flatten(xs) + Flatten(ys)
    decreases |xs|
  {
    forall o ensures Flatten([o]) == o.sections {
      assert [o][1..] == [];
    }
    if |xs| == 0 {
      assert xs + ys == ys;
    } else {
      assert (xs + ys)[1..] == xs[1..] + ys;
      FlattenAppend(xs[1..], ys);
    }
  }

  predicate StartsWithSeq<T(==)>(xs: seq<T>, p: seq<T>) {
    |p| <= |xs| && xs[..|p|] == p
  }

  /** `xs.slice(0, n)`. */
  function Take<T(==)>(xs: seq<T>, n: nat): (r: seq<T>)
    ensures |r| <= n && StartsWithSeq(xs, r)
    ensures |xs| >= n ==> |r| == n
    ensures |xs| <= n ==> r == xs
  {
    if |xs| <= n then xs else xs[..n]
  }

  /** Lines 206-235: the first merge reply that passes the shape check, in backend order;
      otherwise the first outline's title over the first five sections of all outlines. The
      last branch, a fresh fallback outline (ids from `uuid(16)` on), is reached only with no
      outlines at all. */
  function OutlineMerge(replies: seq<Option<Json>>, outlines: seq<Outline>, intent: Intent, uuid: nat -> string): (m: Outline)
    ensures (exists i :: 0 <= i < |replies| && Accepts(replies[i], IsOutlineLike)) ==>
      exists k :: 0 <= k < |replies| && replies[k].Some? && DecodeOutline(replies[k].value) == Some(m)
        && forall j :: 0 <= j < k ==> !Accepts(replies[j], IsOutlineLike)
    ensures (forall i :: 0 <= i < |replies| ==> !Accepts(replies[i], IsOutlineLike)) && |outlines| > 0 ==>
      && m.title == outlines[0].title
      && |m.sections| <= 5
      && StartsWithSeq(Flatten(outlines), m.sections)
      && (|Flatten(outlines)| >= 5 ==> |m.sections| == 5)
      && (|Flatten(outlines)| < 5 ==> m.sections == Flatten(outlines))
    ensures (forall i :: 0 <= i < |replies| ==> !Accepts(replies[i], IsOutlineLike)) && |outlines| == 0 ==>
      m == FallbackOutline(intent, uuid, 16)
    ensures IsOutlineLike(EncodeOutline(m))
  {
    var k := FirstIndex(replies, IsOutlineLike);
    var m := if k.Some? then DecodeOutline(replies[k.value].value).value
      else if |outlines| > 0 then Outline(outlines[0].title, Take(Flatten(outlines), 5))
      else FallbackOutline(intent, uuid, 16);
    OutlineRoundTrip(m);
    m
  }

  /** With no passing merge reply and a first outline of five or more sections, the merged
      outline is that first outline's title and first five sections. */
  lemma MergeKeepsFirstOutline(replies: seq<Option<Json>>, outlines: seq<Outline>, intent: Intent, uuid: nat -> string)
    requires forall i :: 0 <= i < |replies| ==> !Accepts(replies[i], IsOutlineLike)
    requires |outlines| > 0 && |outlines[0].sections| >= 5
    ensures OutlineMerge(replies, outlines, intent, uuid) == Outline(outlines[0].title, outlines[0].sections[..5])
  {
    var f := Flatten(outlines);
    assert f[..|outlines[0].sections|] == outlines[0].sections;
    assert f[..5] == outlines[0].sections[..5];
  }

  /** Lines 251-253: the sections to write, the merged ones or, when there are none, a fresh
      fallback outline's (ids from `uuid(21)` on). Never empty. */
  function BaseSections(merged: Outline, intent: Intent, uuid: nat -> string): (ss: seq<Section>)
    ensures |ss| > 0
    ensures merged.sections != [] ==> ss == merged.sections
    ensures merged.sections == [] ==> ss == FallbackOutline(intent, uuid, 21).sections
  {
    if |merged.sections| > 0 then merged.sections else FallbackOutline(intent, uuid, 21).sections
  }

  // ---------------------------------------------------------------- writing

  const PlaceholderBody := "\n\n这里是占位内容。"

  /** `# ${s.title}\n\n这里是占位内容。`: a heading with the section's title (`undefined` when
      it has none), then the placeholder sentence. */
  function DraftPlaceholder(s: Section): (md: string)
    ensures NotBlank(md)
    ensures StartsWith(md, "# ")
    ensures StartsWith(md, "# " + Show(s.title)) && md[|Show(s.title)| + 2..] == PlaceholderBody
  {
    var md := "# " + Show(s.title) + PlaceholderBody;
    assert md[0] == '#' && !IsWs('#');
    assert md[..2] == "# ";
    md
  }

  /** Lines 263-266: a non-blank reply, else the placeholder. */
  function Draft(s: Section, reply: Option<string>): (d: DraftSection)
    ensures d.sectionId == s.id
    ensures NotBlank(d.markdown)
    ensures Accepts(reply, NotBlank) ==> d.markdown == reply.value
    ensures !Accepts(reply, NotBlank) ==> d.markdown == DraftPlaceholder(s)
  {
    DraftSection(s.id, if reply.Some? && NotBlank(reply.value) then reply.value else DraftPlaceholder(s))
  }

  /** Lines 244-273: section `i` goes to backend `i mod n`; with no backends every draft is
      the placeholder. One draft per section, in order, with the section's id. */
  function WriteSections(b: Backend, ps: seq<string>, base: seq<Section>): (drafts: seq<DraftSection>)
    ensures |drafts| == |base|
    ensures forall i :: 0 <= i < |base| ==> drafts[i].sectionId == base[i].id && NotBlank(drafts[i].markdown)
    ensures |ps| > 0 ==> forall i :: 0 <= i < |base| ==>
      drafts[i] == Draft(base[i], AskText(b, ps[i % |ps|], Ask("write-sections", i)))
    ensures |ps| == 0 ==> forall i :: 0 <= i < |base| ==> drafts[i].markdown == DraftPlaceholder(base[i])
  {
    var written := if |ps| > 0 then
        seq(|base|, i requires 0 <= i < |base| => Draft(base[i], AskText(b, ps[i % |ps|], Ask("write-sections", i))))
      else [];
    if |written| == 0 then seq(|base|, i requires 0 <= i < |base| => DraftSection(base[i].id, DraftPlaceholder(base[i])))
    else written
  }

  // ---------------------------------------------------------------- image prompts

  /** `s.title || 部分 ${i+1}`. */
  function PromptTitle(s: Section, i: nat): (t: string)
    ensures t != []
    ensures s.title.Some? && s.title.value != [] ==> t == s.title.value
    ensures s.title.None? || s.title.value == [] ==> t == PartTitle(i)
  {
    if s.title.Some? && s.title.value != [] then s.title.value else PartTitle(i)
  }

  const PromptHead := "为主题“"
  const PromptMid := "”，章节“"
  const PromptStyle := "”生成一幅配图：主体清晰、场景贴合内容；风格："
  const PromptTail := "；构图合理（三分法/居中）；光线自然；避免文字水印、过度暴力或敏感元素；输出一行中文描述。"
  const DefaultStyle := "写实/插画皆可"

  /** Lines 289-294: one image prompt for section number `i` (0-based). The prompt names the
      topic and the section title. */
  function MakePrompt(intent: Intent, s: Section, i: nat): (p: ImagePrompt)
    ensures p.sectionId == s.id && p.title == PromptTitle(s, i)
    ensures Contains(p.prompt, p.title) && Contains(p.prompt, intent.topic)
  {
    var title := PromptTitle(s, i);
    var style := if intent.style != [] then intent.style else DefaultStyle;
    var a := PromptHead + intent.topic + PromptMid;
    var c := PromptStyle + style + PromptTail;
    var text := a + title + c;
    assert Contains(text, title) by { ContainsMiddle(a, title, c); }
    assert Contains(text, intent.topic) by {
      ContainsMiddle(PromptHead, intent.topic, PromptMid + title + c);
      assert PromptHead + intent.topic + (PromptMid + title + c) == text;
    }
    ImagePrompt(s.id, title, text)
  }

  /** One prompt per section, in order, keeping the section's id. */
  function MakePrompts(intent: Intent, secs: seq<Section>): (r: seq<ImagePrompt>)
    ensures |r| == |secs|
    ensures forall i :: 0 <= i < |secs| ==>
      && r[i].sectionId == secs[i].id
      && r[i].title == PromptTitle(secs[i], i)
      && r[i].title != []
      && Contains(r[i].prompt, r[i].title)
  {
    seq(|secs|, i requires 0 <= i < |secs| => MakePrompt(intent, secs[i], i))
  }

  // ---------------------------------------------------------------- image generation

  function OrEmpty(v: Option<string>): string {
    if v.Some? then v.value else []
  }

  function JimengEntry(cfg: AppConfig): ProviderConfig {
    var e := Get(cfg.imageProviders, "jimeng");
    if e.Some? then e.value else NoFields
  }

  /** The settings page supplies credentials: a stored access key, and a stored secret or one
      that `looseExtract` finds in the stored API key (all trimmed). */
  predicate SettingsCred(e: ProviderConfig, cred: Credentials) {
    && Trim(OrEmpty(e.ak)) != []
    && (|| Trim(OrEmpty(e.sk)) != []
        || (Trim(OrEmpty(e.apiKey)) != [] && Jimeng.LooseExtract(cred.p, cred.m, Trim(OrEmpty(e.apiKey))) != []))
  }

  /** Lines 490-519: whether the stage draws with the image backend, and why. The stored access
      key and secret (or the secret found in the API key) count, and so do environment keys. */
  function ImageBackend(cfg: AppConfig, cred: Credentials): (r: (bool, ImageReason))
    ensures r.0 <==> r.1 == FromSettings || r.1 == FromEnvironment
    ensures r.0 <==> "jimeng" in ImageStageList(cfg) && (SettingsCred(JimengEntry(cfg), cred) || (cred.envAk && cred.envSk))
    ensures r.1 == NotSelected <==> "jimeng" !in ImageStageList(cfg)
    ensures r.1 == FromSettings <==> "jimeng" in ImageStageList(cfg) && SettingsCred(JimengEntry(cfg), cred)
    ensures r.1 == FromEnvironment <==>
      "jimeng" in ImageStageList(cfg) && !SettingsCred(JimengEntry(cfg), cred) && cred.envAk && cred.envSk
    ensures r.1 == MissingCredentials <==>
      "jimeng" in ImageStageList(cfg) && !SettingsCred(JimengEntry(cfg), cred) && !(cred.envAk && cred.envSk)
    ensures "jimeng" in ImageStageList(cfg) && cred.envAk && cred.envSk ==> r.0
    ensures var e := JimengEntry(cfg);
      Trim(OrEmpty(e.ak)) == [] && !(cred.envAk && cred.envSk) ==> !r.0
  {
    var e := JimengEntry(cfg);
    var ak := Trim(OrEmpty(e.ak));
    var sk0 := Trim(OrEmpty(e.sk));
    var key := Trim(OrEmpty(e.apiKey));
    var loose := Jimeng.LooseExtract(cred.p, cred.m, key);
    var sk := if sk0 == [] && key != [] then loose else sk0;
    var fromSettings := ak != [] && (sk != [] || (key != [] && loose != []));
    var hasCred := fromSettings || (cred.envAk && cred.envSk);
    var listed := "jimeng" in ImageStageList(cfg);
    var reason := if !listed then NotSelected
      else if !hasCred then MissingCredentials
      else if fromSettings then FromSettings
      else FromEnvironment;
    (listed && hasCred, reason)
  }

  /** `url || toSvgDataUri(it.title)`: the backend's URL when it gave a non-empty one. */
  function ImageUrl(b: Backend, use: bool, p: ImagePrompt): (u: string)
    ensures u == Assembler.SvgDataUri(b.encode, p.title) || (use && b.draw(p.prompt) == Some(u) && u != [])
    ensures !use ==> u == Assembler.SvgDataUri(b.encode, p.title)
    ensures use && b.draw(p.prompt).Some? && b.draw(p.prompt).value != [] ==> u == b.draw(p.prompt).value
    ensures use && (b.draw(p.prompt).None? || b.draw(p.prompt).value == []) ==> u == Assembler.SvgDataUri(b.encode, p.title)
  {
    var d := b.draw(p.prompt);
    if use && d.Some? && d.value != [] then d.value else Assembler.SvgDataUri(b.encode, p.title)
  }

  /** Lines 513-530: one generated image per prompt, in order, carrying its id, title and
      prompt. Every URL is the backend's or the SVG placeholder. */
  function GenerateImages(b: Backend, use: bool, ps: seq<ImagePrompt>): (r: seq<GeneratedImage>)
    ensures |r| == |ps|
    ensures forall i :: 0 <= i < |ps| ==>
      r[i].sectionId == ps[i].sectionId && r[i].title == ps[i].title && r[i].prompt == ps[i].prompt
    ensures forall i :: 0 <= i < |ps| ==>
      StartsWith(r[i].url, "data:image/svg+xml;utf8,") || (use && b.draw(ps[i].prompt) == Some(r[i].url))
    ensures forall i :: 0 <= i < |ps| ==> r[i].url == ImageUrl(b, use, ps[i])
  {
    seq(|ps|, i requires 0 <= i < |ps| =>
      GeneratedImage(ps[i].sectionId, ps[i].title, ps[i].prompt, ImageUrl(b, use, ps[i])))
  }

  // ---------------------------------------------------------------- review, fact check

  function Markdowns(drafts: seq<DraftSection>): (r: seq<string>)
    ensures |r| == |drafts|
    ensures forall i :: 0 <= i < |drafts| ==> r[i] == drafts[i].markdown
  {
    seq(|drafts|, i requires 0 <= i < |drafts| => drafts[i].markdown)
  }

  /** `{ issues: [] }`. */
  const EmptyReview: Json := JObj([("issues", JArr([]))])

  /** `{ verified: false, notes: ['占位：联网核验未启用'] }`. */
  const UncheckedFacts: Json := JObj([("verified", JBool(false)), ("notes", JArr([JStr("占位：联网核验未启用")]))])

  /** The review and fact-check stages accept any truthy reply: an outline, an array or a bare
      number are all taken without a shape check. */
  lemma ReviewTakesAnyTruthy(replies: seq<Option<Json>>, n: int)
    requires n != 0
    requires |replies| > 0 && replies[0] == Some(JNum(n))
    ensures Chain(replies, Truthy, EmptyReview) == JNum(n)
  {
    assert Accepts(replies[0], Truthy);
    var k :| 0 <= k < |replies| && replies[k] == Some(Chain(replies, Truthy, EmptyReview))
      && forall j :: 0 <= j < k ==> !Accepts(replies[j], Truthy);
    assert k == 0;
  }

  // ---------------------------------------------------------------- final merge

  /** The text a streamed attempt yields: its string data when the call succeeded. */
  function StreamReply(s: Streamed): Option<string> {
    if s.result.Ok? && s.result.data.JStr? then Some(s.result.data.s) else None
  }

  /** Each attempt's text, in order. */
  function StreamReplies(attempts: seq<Streamed>): (r: seq<Option<string>>)
    ensures |r| == |attempts| && forall i :: 0 <= i < |attempts| ==> r[i] == StreamReply(attempts[i])
  {
    seq(|attempts|, i requires 0 <= i < |attempts| => StreamReply(attempts[i]))
  }

  /** Every token handed to `onToken`, attempt after attempt. */
  function AllTokens(attempts: seq<Streamed>): seq<string>
    decreases |attempts|
  {
    if |attempts| == 0 then []
    else AllTokens(attempts[..|attempts| - 1]) + attempts[|attempts| - 1].tokens
  }

  /** The values of `run.final` shown while streaming: the accumulator after each token. */
  function Shown(tokens: seq<string>): (r: seq<string>)
    ensures |r| == |tokens|
    ensures forall i :: 0 <= i < |tokens| ==> r[i] == Concat(tokens[..i + 1])
  {
    seq(|tokens|, i requires 0 <= i < |tokens| => Concat(tokens[..i + 1]))
  }

  /** The values of `run.final` shown while the first `n` attempts streamed. */
  function Updates(attempts: seq<Streamed>, n: nat): seq<string>
    requires n <= |attempts|
  {
    Shown(AllTokens(attempts[..n]))
  }

  /** Lines 648-685: the first attempt whose result is non-blank text, else `fallback`; and
      the accumulator values shown on the way, up to and including the accepted attempt. */
  function FinalMerge(attempts: seq<Streamed>, fallback: string): (r: (string, seq<string>))
    ensures r.0 == Chain(StreamReplies(attempts), NotBlank, fallback)
    ensures FirstIndex(StreamReplies(attempts), NotBlank).Some? ==>
      r.0 == StreamReplies(attempts)[FirstIndex(StreamReplies(attempts), NotBlank).value].value
    ensures r.1 == Updates(attempts, Tried(attempts))
    ensures (forall i :: 0 <= i < |attempts| ==> !Accepts(StreamReplies(attempts)[i], NotBlank)) ==>
      r.0 == fallback && r.1 == Updates(attempts, |attempts|)
  {
    var replies := StreamReplies(attempts);
    var k := FirstIndex(replies, NotBlank);
    var tried := Tried(attempts);
    assert 0 <= tried <= |attempts|;
    (if k.Some? then replies[k.value].value else fallback, Updates(attempts, tried))
  }

  /** How many attempts the final merge runs: up to the first non-blank one, or all. */
  function Tried(attempts: seq<Streamed>): (n: nat)
    ensures n <= |attempts|
    ensures var k := FirstIndex(StreamReplies(attempts), NotBlank);
      && (k.Some? ==> n == k.value + 1)
      && (k.None? ==> n == |attempts|)
  {
    var k := FirstIndex(StreamReplies(attempts), NotBlank);
    if k.Some? then k.value + 1 else |attempts|
  }

  lemma {:induction false} ConcatPrefix(xs: seq<string>, m: nat, n: nat)
    requires m <= n <= |xs|
    ensures StartsWith(Concat(xs[..n]), Concat(xs[..m]))
  {
    assert xs[..n] == xs[..m] + xs[m..n];
    ConcatAppend(xs[..m], xs[m..n]);
    assert (Concat(xs[..m]) + Concat(xs[m..n]))[..|Concat(xs[..m])|] == Concat(xs[..m]);
  }

  /** The accumulator is never reset: every value shown extends every earlier one. */
  lemma ShownGrows(tokens: seq<string>, i: nat, j: nat)
    requires i <= j < |tokens|
    ensures StartsWith(Shown(tokens)[j], Shown(tokens)[i])
  {
    ConcatPrefix(tokens, i + 1, j + 1);
  }

  /** The accumulator is shared across attempts: while attempt `k` streams, the value shown
      starts with all the text that the earlier, rejected attempts streamed. */
  lemma {:induction false} SharedAccumulator(attempts: seq<Streamed>, k: nat, i: nat)
    requires k < |attempts|
    requires |AllTokens(attempts[..k])| <= i < |AllTokens(attempts[..k + 1])|
    ensures StartsWith(Shown(AllTokens(attempts[..k + 1]))[i], Concat(AllTokens(attempts[..k])))
  {
    var upto := attempts[..k + 1];
    var all := AllTokens(upto);
    var prev := AllTokens(attempts[..k]);
    assert upto[..|upto| - 1] == attempts[..k];
    assert all == AllTokens(upto[..|upto| - 1]) + upto[|upto| - 1].tokens;
    assert all == prev + attempts[k].tokens;
    assert all[..|prev|] == prev;
    ConcatPrefix(all, |prev|, i + 1);
  }

  /** Lines 639-784: the final-merge stage, the chain over the streamed attempts followed by
      the assembler. The result has a title line, and the values shown while streaming only
      ever grow. */
  function FinalDocument(b: Backend, ps: seq<string>, doc: string, joined: string, merged: Outline,
                         drafts: seq<DraftSection>, prompts: seq<ImagePrompt>, images: seq<GeneratedImage>)
    : (r: (string, seq<string>))
    ensures Assembler.HasTitleLine(r.0)
    ensures forall i, j :: 0 <= i <= j < |r.1| ==> StartsWith(r.1[j], r.1[i])
  {
    var attempts := seq(|ps|, i requires 0 <= i < |ps| => b.stream(ps[i]));
    var fin := FinalMerge(attempts, (if doc != [] then doc else joined) + "\n\n（终稿占位）");
    assert forall i, j :: 0 <= i <= j < |fin.1| ==> StartsWith(fin.1[j], fin.1[i]) by {
      forall i, j | 0 <= i <= j < |fin.1| ensures StartsWith(fin.1[j], fin.1[i]) {
        ShownGrows(AllTokens(attempts[..Tried(attempts)]), i, j);
      }
    }
    (Assembler.Assemble(fin.0, merged.sections, drafts, prompts, images, b.norm, b.encode), fin.1)
  }

  // ---------------------------------------------------------------- git

  /** Line 797: the snapshot revisions that are truthy, in stage order. */
  function Revisions(commits: seq<Option<string>>): (r: seq<string>)
    ensures |r| <= |commits|
    ensures forall x :: x in r <==> x != [] && Some(x) in commits
  {
    if |commits| == 0 then []
    else
      var rest := Revisions(commits[1..]);
      assert forall x :: Some(x) in commits <==> Some(x) == commits[0] || Some(x) in commits[1..];
      if commits[0].Some? && commits[0].value != [] then [commits[0].value] + rest else rest
  }

  /** One stage contributes its revision exactly when it is a non-empty string. */
  lemma RevisionsOne(c: Option<string>)
    ensures Revisions([c]) == if c.Some? && c.value != [] then [c.value] else []
  {
    assert [c][1..] == [];
  }

  /** The revisions keep stage order: those of earlier stages come before those of later ones. */
  lemma {:induction false} RevisionsAppend(xs: seq<Option<string>>, ys: seq<Option<string>>)
    ensures Revisions(xs + ys) == Revisions(xs) + Revisions(ys)
    decreases |xs|
  {
    if |xs| == 0 {
      assert xs + ys == ys;
    } else {
      var zs := xs + ys;
      assert zs[0] == xs[0];
      assert zs[1..] == xs[1..] + ys;
      RevisionsAppend(xs[1..], ys);
    }
  }

  // ---------------------------------------------------------------- the run

  /** The nodes so far are the first of the twelve kinds, in order, all done. */
  predicate InOrder(nodes: seq<RunNode>) {
    |nodes| <= |NodeKinds| && forall i :: 0 <= i < |nodes| ==> nodes[i].kind == NodeKinds[i] && nodes[i].status == Done
  }

  /** Appends the next node, done. */
  function Push(run: RunState, kind: string, data: NodeData): (r: RunState)
    requires InOrder(run.nodes) && |run.nodes| < |NodeKinds| && kind == NodeKinds[|run.nodes|]
    ensures InOrder(r.nodes) && |r.nodes| == |run.nodes| + 1
    ensures r.nodes[..|run.nodes|] == run.nodes && r.nodes[|run.nodes|] == RunNode(kind, Done, data)
    ensures r.id == run.id && r.outline == run.outline && r.draftSections == run.draftSections && r.final == run.final
  {
    run.(nodes := run.nodes + [RunNode(kind, Done, data)])
  }

  /** No check before node `n` saw the signal. */
  predicate QuietBefore(aborted: nat -> bool, n: nat) {
    forall i :: 0 <= i < n && Checked(i) ==> !aborted(i)
  }

  /** What the ten stages produce, with the backends each text stage selected. */
  datatype Products = Products(
    pIntent: seq<string>,
    outlines: seq<Outline>, pMulti: seq<string>,
    merged: Outline, pMerge: seq<string>,
    drafts: seq<DraftSection>, pWrite: seq<string>,
    prompts: seq<ImagePrompt>,
    images: seq<GeneratedImage>, choice: (bool, ImageReason),
    doc: string, pAssembly: seq<string>,
    review: Json, pReview: seq<string>,
    facts: Json, pFact: seq<string>,
    final: string, pFinal: seq<string>,
    streamed: seq<string>)

  /** One item per section, in order, each carrying its section's id. */
  predicate DraftIds(ds: seq<DraftSection>, secs: seq<Section>) {
    |ds| == |secs| && forall i :: 0 <= i < |secs| ==> ds[i].sectionId == secs[i].id
  }

  predicate PromptIds(ps: seq<ImagePrompt>, secs: seq<Section>) {
    |ps| == |secs| && forall i :: 0 <= i < |secs| ==> ps[i].sectionId == secs[i].id
  }

  predicate ImageIds(gs: seq<GeneratedImage>, secs: seq<Section>) {
    |gs| == |secs| && forall i :: 0 <= i < |secs| ==> gs[i].sectionId == secs[i].id
  }

  /** Lines 152-279, stages 1 to 4: the outlines, the merged outline and one draft per
      section to write, carrying that section's id. */
  function Plan(cfg: AppConfig, intent: Intent, b: Backend)
    : (r: (seq<Outline>, Outline, seq<Section>, seq<DraftSection>))
    ensures IsOutlineLike(EncodeOutline(r.1))
    ensures r.2 == BaseSections(r.1, intent, b.uuid)
    ensures DraftIds(r.3, r.2)
  {
    var outlines := OutlineMulti(JsonReplies(b, Selected(cfg, "outline-multi"), Ask("outline-multi", 0)), intent, b.uuid);
    var merged := OutlineMerge(JsonReplies(b, Selected(cfg, "outline-merge"), Ask("outline-merge", 0)), outlines, intent, b.uuid);
    var base := BaseSections(merged, intent, b.uuid);
    (outlines, merged, base, WriteSections(b, Selected(cfg, "write-sections"), base))
  }

  /** Lines 282-554, the image stages: one prompt and one image per section, carrying its id. */
  function Illustrate(cfg: AppConfig, intent: Intent, b: Backend, cred: Credentials, secs: seq<Section>)
    : (r: (seq<ImagePrompt>, seq<GeneratedImage>, (bool, ImageReason)))
    ensures PromptIds(r.0, secs) && ImageIds(r.1, secs)
  {
    var prompts := MakePrompts(intent, secs);
    var choice := ImageBackend(cfg, cred);
    (prompts, GenerateImages(b, choice.0, prompts), choice)
  }

  /** Lines 152-794: the ten stages, each from the results of the ones before. The merged
      outline, the drafts, the image prompts and the generated images line up: one draft,
      one prompt and one image per section written. */
  function Stages(cfg: AppConfig, intent: Intent, b: Backend, cred: Credentials): (p: Products)
    ensures IsOutlineLike(EncodeOutline(p.merged))
    ensures var base := BaseSections(p.merged, intent, b.uuid);
      DraftIds(p.drafts, base) && PromptIds(p.prompts, base) && ImageIds(p.images, base)
    ensures Assembler.HasTitleLine(p.final)
    ensures forall i, j :: 0 <= i <= j < |p.streamed| ==> StartsWith(p.streamed[j], p.streamed[i])
  {
    var plan := Plan(cfg, intent, b);
    var merged, base, drafts := plan.1, plan.2, plan.3;
    // image stages, over the merged sections or else the written ones
    var secs := if |merged.sections| > 0 then merged.sections else base;
    assert secs == base;
    var pics := Illustrate(cfg, intent, b, cred, secs);
    var ed := Edit(cfg, b, merged, drafts, pics.0, pics.1);
    Products(Selected(cfg, "intent"), plan.0, Selected(cfg, "outline-multi"), merged, Selected(cfg, "outline-merge"),
             drafts, Selected(cfg, "write-sections"), pics.0, pics.1, pics.2,
             ed.0, Selected(cfg, "merge-assembly"), ed.1, Selected(cfg, "expert-review"),
             ed.2, Selected(cfg, "fact-check"), ed.3.0, Selected(cfg, "final-merge"), ed.3.1)
  }

  /** Lines 556-794, stages 5 to 8: the assembled document, the review, the fact check and
      the final document with the values streamed while it was written. */
  function Edit(cfg: AppConfig, b: Backend, merged: Outline, drafts: seq<DraftSection>,
                prompts: seq<ImagePrompt>, images: seq<GeneratedImage>)
    : (r: (string, Json, Json, (string, seq<string>)))
    ensures Assembler.HasTitleLine(r.3.0)
    ensures forall i, j :: 0 <= i <= j < |r.3.1| ==> StartsWith(r.3.1[j], r.3.1[i])
  {
    // 5) merge assembly
    var joined := Join(Markdowns(drafts), "\n\n");
    var doc := Chain(TextReplies(b, Selected(cfg, "merge-assembly"), Ask("merge-assembly", 0)), NotBlank, joined);
    // 6) expert review
    var review := Chain(JsonReplies(b, Selected(cfg, "expert-review"), Ask("expert-review", 0)), Truthy, EmptyReview);
    // 7) fact check
    var facts := Chain(JsonReplies(b, Selected(cfg, "fact-check"), Ask("fact-check", 0)), Truthy, UncheckedFacts);
    // 8) final merge and assembly
    (doc, review, facts, FinalDocument(b, Selected(cfg, "final-merge"), doc, joined, merged, drafts, prompts, images))
  }

  /** The data of stage node `i`. */
  function StageData(p: Products, intent: Intent, files: seq<UploadedFile>, i: nat): NodeData
    requires i < 10
  {
    if i == 0 then IntentData(intent, files, p.pIntent)
    else if i == 1 then OutlinesData(p.outlines, p.pMulti)
    else if i == 2 then OutlineData(p.merged, p.pMerge)
    else if i == 3 then DraftsData(p.drafts, p.pWrite)
    else if i == 4 then PromptsData(p.prompts)
    else if i == 5 then ImagesData(p.images, if p.choice.0 then "jimeng" else "placeholder", p.choice.1)
    else if i == 6 then DocData(p.doc, p.pAssembly)
    else if i == 7 then ReviewData(p.review, p.pReview)
    else if i == 8 then FactData(p.facts, p.pFact)
    else FinalData(p.final, p.pFinal)
  }

  /** Lines 64-806: the run, node by node, over what the stages produce. Nodes are appended
      in the fixed order and each ends done; the run stops with `aborted` at the first check
      that sees the signal, and there is no check after fact-check, git or tts. The run state
      gains the outline with node 3, the drafts with node 4 and the final document with node
      10. A finished run holds all twelve nodes and the git node lists the truthy snapshot
      revisions in stage order. */
  method RunNodes(p: Products, intent: Intent, files: seq<UploadedFile>, b: Backend)
    returns (out: Outcome, streamed: seq<string>)
    ensures InOrder(out.run.nodes) && out.run.id == b.uuid(0)
    ensures out.Finished? <==> QuietBefore(b.aborted, |NodeKinds|)
    ensures out.Aborted? ==>
      && |out.run.nodes| >= 1
      && Checked(|out.run.nodes| - 1)
      && b.aborted(|out.run.nodes| - 1)
      && QuietBefore(b.aborted, |out.run.nodes| - 1)
    ensures out.run.outline == (if |out.run.nodes| >= 3 then Some(p.merged) else None)
    ensures out.run.draftSections == (if |out.run.nodes| >= 4 then Some(p.drafts) else None)
    ensures out.run.final == (if |out.run.nodes| >= 10 then Some(p.final) else None)
    ensures streamed == (if |out.run.nodes| >= 10 then p.streamed else [])
    ensures out.Finished? ==>
      && |out.run.nodes| == |NodeKinds|
      && out.run.nodes[10].data == GitData(Revisions(seq(10, i requires 0 <= i < 10 => b.commit(i))))
  {
    streamed := [];
    var run := RunState(b.uuid(0), [], None, None, None);
    var i := 0;
    while i < 10
      invariant 0 <= i <= 10
      invariant InOrder(run.nodes) && |run.nodes| == i && run.id == b.uuid(0)
      invariant run.outline == (if i >= 3 then Some(p.merged) else None)
      invariant run.draftSections == (if i >= 4 then Some(p.drafts) else None)
      invariant run.final == (if i >= 10 then Some(p.final) else None)
      invariant streamed == (if i >= 10 then p.streamed else [])
      invariant QuietBefore(b.aborted, i)
    {
      if i == 2 {
        run := run.(outline := Some(p.merged));
      } else if i == 3 {
        run := run.(draftSections := Some(p.drafts));
      } else if i == 9 {
        run := run.(final := Some(p.final));
        streamed := p.streamed;
      }
      run := Push(run, NodeKinds[i], StageData(p, intent, files, i));
      if Checked(i) && b.aborted(i) {
        return Aborted(run), streamed;
      }
      i := i + 1;
    }
    run := Push(run, "git", GitData(Revisions(seq(10, i requires 0 <= i < 10 => b.commit(i)))));
    run := Push(run, "tts", NoData);
    out := Finished(run);
  }

  /** `runPipeline`: the stages, then the nodes. A finished run ends with a final document
      that has a title line, and what final-merge showed while streaming only ever grows. */
  method RunPipeline(cfg: AppConfig, intent: Intent, files: seq<UploadedFile>, b: Backend, cred: Credentials)
    returns (out: Outcome, streamed: seq<string>)
    ensures InOrder(out.run.nodes)
    ensures out.Finished? <==> QuietBefore(b.aborted, |NodeKinds|)
    ensures out.Finished? ==>
      && |out.run.nodes| == |NodeKinds|
      && out.run.final.Some? && Assembler.HasTitleLine(out.run.final.value)
      && out.run.outline.Some? && out.run.draftSections.Some?
      && |out.run.draftSections.value| == |BaseSections(out.run.outline.value, intent, b.uuid)|
    ensures forall i, j :: 0 <= i <= j < |streamed| ==> StartsWith(streamed[j], streamed[i])
  {
    var p := Stages(cfg, intent, b, cred);
    out, streamed := RunNodes(p, intent, files, b);
  }
}

=== FILE: prompts.dfy ===
/** The prompt store (lib/prompts.ts): nine system prompts, overridable key by key and
    resettable to the built-in texts. */
module Prompts {
  import opened Wrappers
  import opened Record

  /** `PROMPT_KEYS`, in the declared order. */
  const PromptKeys: seq<string> := [
    "intent", "outline-multi", "outline-merge", "write-sections", "merge-assembly",
    "expert-review", "fact-check", "final-merge", "image-prompts"]

  /** `PromptKey`: one of the nine names. */
  type PromptKey = k: string | k in PromptKeys witness "intent"

  /** `Prompts` (when every key is present) and `Partial<Prompts>`: entries keyed by prompt name. */
  ghost predicate OnlyPromptKeys(r: Rec<string>) {
    forall k :: Has(r, k) ==> k in PromptKeys
  }

  ghost predicate Complete(r: Rec<string>) {
    OnlyPromptKeys(r) && forall k :: k in PromptKeys ==> Has(r, k)
  }

  /** `defaultPrompts[key]`: the built-in text of each prompt. Their wording is carried along
      unchanged; nothing below depends on it. */
  function BuiltinText(key: PromptKey): string {
    if key == "intent" then
      "你是写作意图评估助手。请依据以下信息提炼结构化意图（JSON）：\n- 主题: {topic}\n- 受众: {audience}\n- 风格: {style}\n- 目标: {goals}\n- 约束: {constraints}\n- 参考: {references}\n要求：输出字段 intent: { topic, audience, style, goals[], constraints[], references[] }。"
    else if key == "outline-multi" then
      "你是写作大纲专家。请针对“{topic}”生成结构化大纲，考虑受众“{audience}”、风格“{style}”。输出JSON：{ title, sections: [{ id, title, bullets[], requiresEvidence? }] }。"
    else if key == "outline-merge" then
      "你是大纲合并器。输入多份大纲，去重合并，保持层次清晰与覆盖全面，输出JSON同前，最多 8 个章节。"
    else if key == "write-sections" then
      "你是章节写手。针对给定大纲章节，生成对应 Markdown 内容（中文），保持一致风格“{style}”，引用必要事实并标注占位引用。"
    else if key == "merge-assembly" then
      "你是编排与风格统一助手。将多个章节合并为完整 Markdown，统一术语、衔接段落，自动生成合理标题与目录（可选）。"
    else if key == "expert-review" then
      "你是领域专家评审，多轮提出问题与修改建议（JSON：issues[{locationId,severity,suggestion,rationale}]}），聚焦准确性、逻辑性、结构。"
    else if key == "fact-check" then
      "你是联网事实核验助手。针对关键陈述，使用检索进行逐条验证，返回证据（JSON：sources[{url,snippet,confidence}]}）。"
    else if key == "final-merge" then
      "目标：输出一篇结构严谨、可直接发布的中文 Markdown 终稿。\n必须遵循：\n1) 结构：\n   - 一级标题为成稿主标题（# 标题）\n   - 自动生成目录（使用 [TOC] 或显式“## 目录”+锚点列表）\n   - 正文使用分节编号（例如 “## 1. 概述”、“## 2. …”），小节用 “###”\n   - 结语（## 结语 或 ## 总结）\n   - 参考资料（## 参考资料，可保留占位）\n2) 表达：\n   - 禁止出现“要点A(续)”等含糊或重复标题；标题应具体、可读、不可重复\n   - 段落完整、逻辑顺畅，避免占位语句\n3) 图片占位：若提供了 imagePrompts/imageAssets，请在文内合适位置以 Markdown 图片语法或提示词小节进行引用。\n输入：{ doc, review, intent, imagePrompts?, imageAssets? }\n输出：仅返回 Markdown 文本。"
    else
      "你是图像提示词设计师。针对给定大纲章节，为每个章节生成 1 条中文图像提示词。要求：\n- 精准描述主体、场景、风格（如插画/写实/赛博/水墨）、光线与构图\n- 不含文字水印、不过度暴力或敏感内容\n- 句式简洁可被图像模型直接使用\n输出 JSON：{ images: [{ sectionId, title, prompt }] }。"
  }

  /** The built-in texts, in key order. */
  function DefaultTexts(): (r: seq<string>)
    ensures |r| == |PromptKeys|
  {
    seq(|PromptKeys|, i requires 0 <= i < |PromptKeys| => BuiltinText(PromptKeys[i]))
  }

  /** `defaultPrompts`. */
  const DefaultPrompts: Rec<string> := FromEntries(PromptKeys, DefaultTexts())

  /** `PROMPT_KEYS` names each prompt once, and the defaults hold exactly those keys, in that
      order, each with its built-in text. */
  lemma DefaultsComplete()
    ensures forall i, j :: 0 <= i < j < |PromptKeys| ==> PromptKeys[i] != PromptKeys[j]
    ensures Keys(DefaultPrompts) == PromptKeys
    ensures Complete(DefaultPrompts)
    ensures forall i :: 0 <= i < |PromptKeys| ==> Get(DefaultPrompts, PromptKeys[i]) == Some(DefaultTexts()[i])
  {
  }

  /** `_store`, as a value: it starts as a copy of the defaults. */
  const InitialStore: Rec<string> := DefaultPrompts

  /** `getPrompt(key)`: the stored text for the key; a complete store has one for every key. */
  function GetPrompt(store: Rec<string>, key: PromptKey): (r: Option<string>)
    ensures Complete(store) ==> r.Some?
    ensures r.Some? ==> exists i :: 0 <= i < |store| && store[i] == (key, r.value)
  {
    var r := Get(store, key);
    assert r.Some? ==> store[Find(store, key)] == (key, r.value);
    r
  }

  /** `setPrompts(next)`: the supplied keys replace their texts, in place; every other key
      keeps its text. A complete store stays complete and keeps its key order. */
  function SetPrompts(store: Rec<string>, next: Rec<string>): (r: Rec<string>)
    ensures forall k :: Get(r, k) == if Has(next, k) then Get(next, k) else Get(store, k)
    ensures |store| <= |r| && Keys(r)[..|store|] == Keys(store)
    ensures OnlyPromptKeys(store) && OnlyPromptKeys(next) ==> OnlyPromptKeys(r)
    ensures Complete(store) && OnlyPromptKeys(next) ==> Complete(r) && Keys(r) == Keys(store)
  {
    var r := Overlay(store, next);
    assert forall k :: Get(r, k) == if Has(next, k) then Get(next, k) else Get(store, k) by {
      forall k { GetOverlay(store, next, k); }
    }
    KeysOverlayPrefix(store, next);
    assert Complete(store) && OnlyPromptKeys(next) ==> Complete(r) && Keys(r) == Keys(store) by {
      if Complete(store) && OnlyPromptKeys(next) { OverlayKeysKept(store, next); }
    }
    r
  }

  /** `resetPrompts()`: the store is the defaults again, whatever was set before. */
  function ResetPrompts(store: Rec<string>): (r: Rec<string>)
    ensures Complete(r) && Keys(r) == PromptKeys
    ensures forall i :: 0 <= i < |PromptKeys| ==> Get(r, PromptKeys[i]) == Some(DefaultTexts()[i])
  {
    DefaultsComplete();
    DefaultPrompts
  }

  /** Overriding nothing changes nothing, and overriding twice is overriding once. */
  lemma SetPromptsLaws(store: Rec<string>, next: Rec<string>)
    ensures SetPrompts(store, []) == store
    ensures SetPrompts(SetPrompts(store, next), next) == SetPrompts(store, next)
  {
    OverlayTwice(store, next);
  }

}

=== FILE: providers.dfy ===
/** The chat backends of lib/llm/providers.ts: the OpenAI-compatible call with its
    line-buffered reader for `data:` lines of a server-sent-events stream (section 9.2 of the
    WHATWG HTML Standard, the subset the code reads), JSON mode, the Anthropic reshaping,
    `modelFor`, and the client wrappers that turn every failure into a placeholder. */
module Providers {
  import opened Wrappers
  import opened Text
  import opened Json
  import Record
  import Config

  datatype Role = System | User | Assistant

  datatype Message = Message(role: Role, content: string)

  /** `LLMRequest`; `json` and `stream` are `false` when absent. */
  datatype Request = Request(model: string, messages: seq<Message>, json: bool, stream: bool)

  /** `LLMResponse`. */
  datatype Result = Ok(data: Json) | Err(error: string)

  /** One `fetch`: the URL, the headers and the JSON body that is sent. */
  datatype HttpCall = HttpCall(url: string, headers: Record.Rec<string>, body: Json)

  /** What `fetch` gives back: `Failed` is a thrown error; `text` is the whole body as text;
      `chunks` are the decoded pieces a body reader delivers (`None`: no reader). */
  datatype HttpResponse =
    | Failed(reason: string)
    | Response(status: nat, text: string, chunks: Option<seq<string>>)

  /** The network, `JSON.parse` and `String(v)`, none of which is modelled. */
  datatype Env = Env(net: HttpCall -> HttpResponse, parse: Parser, show: Json -> string)

  function RoleName(r: Role): string {
    match r
    case System => "system"
    case User => "user"
    case Assistant => "assistant"
  }

  // ---------------------------------------------------------------- the stream reader

  /** `line.trim()`, and for a `data:` line its payload `line.slice(5).trim()`. */
  function Payload(line: string): Option<string> {
    var l := Trim(line);
    if StartsWith(l, "data:") then Some(Trim(l[5..])) else None
  }

  /** `j?.choices?.[0]?.delta?.content ?? j?.choices?.[0]?.message?.content ?? ''`. */
  function ChunkToken(j: Json): Json {
    var delta := Path(Some(j), [Key("choices"), At(0), Key("delta"), Key("content")]);
    var message := Path(Some(j), [Key("choices"), At(0), Key("message"), Key("content")]);
    if !Nullish(delta) then delta.value
    else if !Nullish(message) then message.value
    else JStr([])
  }

  /** The token one complete line contributes: a parsed `data:` payload other than `[DONE]`
      whose token is truthy. Unparsable payloads are swallowed. */
  function LineToken(parse: Parser, line: string): (t: Option<Json>)
    ensures t.Some? ==> Truthy(t.value)
    ensures t.Some? <==> var payload := Payload(line);
      && payload.Some? && payload.value != "[DONE]" && parse(payload.value).Some?
      && Truthy(ChunkToken(parse(payload.value).value))
    ensures t.Some? ==> t.value == ChunkToken(parse(Payload(line).value).value)
  {
    var payload := Payload(line);
    if payload.None? || payload.value == "[DONE]" then None
    else
      var j := parse(payload.value);
      if j.None? then None
      else if Truthy(ChunkToken(j.value)) then Some(ChunkToken(j.value))
      else None
  }

  function Emitted(t: Option<Json>): seq<Json> {
    if t.Some? then [t.value] else []
  }

  /** The tokens of a run of complete lines, in order. */
  function LineTokens(parse: Parser, lines: seq<string>): (ts: seq<Json>)
    ensures forall i :: 0 <= i < |ts| ==> Truthy(ts[i])
    ensures |ts| <= |lines|
  {
    if |lines| == 0 then []
    else LineTokens(parse, lines[..|lines| - 1]) + Emitted(LineToken(parse, lines[|lines| - 1]))
  }

  /** The lines the reader completes: every piece of `split('\n')` but the last. */
  function CompleteLines(s: string): seq<string> {
    var ls := SplitLines(s);
    ls[..|ls| - 1]
  }

  /** The tokens of a whole stream body. */
  function StreamTokens(parse: Parser, body: string): seq<Json> {
    LineTokens(parse, CompleteLines(body))
  }

  /** `full += token`: a token that is not a string is appended as `String(token)`. */
  function TokenText(show: Json -> string, t: Json): string {
    if t.JStr? then t.s else show(t)
  }

  function Texts(show: Json -> string, ts: seq<Json>): (r: seq<string>)
    ensures |r| == |ts|
    ensures forall i :: 0 <= i < |ts| ==> r[i] == TokenText(show, ts[i])
  {
    seq(|ts|, i requires 0 <= i < |ts| => TokenText(show, ts[i]))
  }

  /** Handling one more complete line extends the tokens and the text by what it carries. */
  lemma EmitLine(parse: Parser, show: Json -> string, lines: seq<string>, line: string)
    ensures LineTokens(parse, lines + [line]) == LineTokens(parse, lines) + Emitted(LineToken(parse, line))
    ensures var t := LineToken(parse, line);
      Concat(Texts(show, LineTokens(parse, lines + [line])))
        == Concat(Texts(show, LineTokens(parse, lines))) + (if t.Some? then TokenText(show, t.value) else [])
  {
    var t := LineToken(parse, line);
    var ts, es := LineTokens(parse, lines), Emitted(t);
    assert (lines + [line])[..|lines|] == lines;
    assert LineTokens(parse, lines + [line]) == ts + es;
    TextsAppend(show, ts, es);
    ConcatAppend(Texts(show, ts), Texts(show, es));
    ConcatEmitted(show, t);
  }

  lemma TextsAppend(show: Json -> string, a: seq<Json>, b: seq<Json>)
    ensures Texts(show, a + b) == Texts(show, a) + Texts(show, b)
  {
  }

  lemma ConcatEmitted(show: Json -> string, t: Option<Json>)
    ensures Concat(Texts(show, Emitted(t))) == if t.Some? then TokenText(show, t.value) else []
  {
    if t.Some? {
      assert Texts(show, Emitted(t)) == [TokenText(show, t.value)];
      assert Concat([TokenText(show, t.value)]) == TokenText(show, t.value) + Concat([]);
    } else {
      assert Texts(show, Emitted(t)) == [];
    }
  }

  /** Appending a chunk to the text read so far re-splits only the unfinished last line. */
  lemma AppendChunk(before: string, chunk: string, lines: seq<string>, buf: string)
    requires SplitLines(before) == lines + [buf]
    ensures SplitLines(before + chunk) == lines + SplitLines(buf + chunk)
  {
    SplitAppend(before, chunk);
    assert SplitLines(before)[..|SplitLines(before)| - 1] == lines;
  }

  /** The inner loop: cut every complete line off the buffer and handle it. */
  method Drain(parse: Parser, show: Json -> string, buf0: string, ghost lines0: seq<string>,
               tokens0: seq<Json>, full0: string)
    returns (buf: string, ghost lines: seq<string>, tokens: seq<Json>, full: string)
    requires tokens0 == LineTokens(parse, lines0) && full0 == Concat(Texts(show, tokens0))
    ensures NoNewline(buf)
    ensures lines0 + SplitLines(buf0) == lines + [buf]
    ensures tokens == LineTokens(parse, lines) && full == Concat(Texts(show, tokens))
  {
    buf, lines, tokens, full := buf0, lines0, tokens0, full0;
    var nl := IndexOfNewline(buf);
    while nl >= 0
      invariant -1 <= nl < |buf|
      invariant nl >= 0 ==> buf[nl] == '\n' && NoNewline(buf[..nl])
      invariant nl < 0 ==> NoNewline(buf)
      invariant lines0 + SplitLines(buf0) == lines + SplitLines(buf)
      invariant tokens == LineTokens(parse, lines) && full == Concat(Texts(show, tokens))
      decreases |buf|
    {
      var line := buf[..nl];
      SplitAtNewline(buf, nl);
      assert lines + SplitLines(buf) == (lines + [line]) + SplitLines(buf[nl + 1..]);
      buf := buf[nl + 1..];
      var t := LineToken(parse, line);
      EmitLine(parse, show, lines, line);
      lines := lines + [line];
      if t.Some? {
        tokens := tokens + [t.value];
        full := full + TokenText(show, t.value);
      }
      nl := IndexOfNewline(buf);
    }
    SplitNoNewline(buf);
  }

  /** The reader loop of `openaiCompatCall`: chunks are appended to a buffer, every complete
      line is cut off and handled, and whatever follows the last newline is dropped.
      `tokens` lists the `onToken` calls in order; `full` is the accumulated text. */
  method ReadStream(parse: Parser, show: Json -> string, chunks: seq<string>)
    returns (tokens: seq<Json>, full: string)
    ensures tokens == StreamTokens(parse, Concat(chunks))
    ensures full == Concat(Texts(show, tokens))
    ensures forall i :: 0 <= i < |tokens| ==> Truthy(tokens[i])
  {
    var buf: string := [];
    tokens, full := [], [];
    ghost var lines: seq<string> := [];
    var i := 0;
    while i < |chunks|
      invariant 0 <= i <= |chunks|
      invariant SplitLines(Concat(chunks[..i])) == lines + [buf]
      invariant tokens == LineTokens(parse, lines) && full == Concat(Texts(show, tokens))
    {
      NextChunk(chunks, i, lines, buf);
      buf, lines, tokens, full := Drain(parse, show, buf + chunks[i], lines, tokens, full);
      i := i + 1;
    }
    assert chunks[..i] == chunks;
    assert CompleteLines(Concat(chunks)) == lines;
  }

  /** Reading chunk `i` re-splits only the unfinished last line of what came before. */
  lemma NextChunk(chunks: seq<string>, i: nat, lines: seq<string>, buf: string)
    requires i < |chunks|
    requires SplitLines(Concat(chunks[..i])) == lines + [buf]
    ensures SplitLines(Concat(chunks[..i + 1])) == lines + SplitLines(buf + chunks[i])
  {
    assert chunks[..i + 1] == chunks[..i] + [chunks[i]];
    ConcatAppend(chunks[..i], [chunks[i]]);
    assert Concat([chunks[i]]) == chunks[i];
    AppendChunk(Concat(chunks[..i]), chunks[i], lines, buf);
  }

  /** Text after the last newline never reaches the parser. */
  lemma TrailingTextIgnored(parse: Parser, body: string, tail: string)
    requires NoNewline(tail)
    ensures StreamTokens(parse, body + tail) == StreamTokens(parse, body)
  {
    var sb := SplitLines(body);
    SplitAppend(body, tail);
    var last := Last(sb);
    assert NoNewline(last);
    NoNewlineAppend(last, tail);
    SplitNoNewline(last + tail);
  }

  /** How the body is cut into chunks does not matter: only their concatenation does. */
  lemma ChunkingIrrelevant(parse: Parser, a: seq<string>, b: seq<string>)
    requires Concat(a) == Concat(b)
    ensures StreamTokens(parse, Concat(a)) == StreamTokens(parse, Concat(b))
  {
  }

  /** A line that carries a token is exactly a `data:` line whose payload is not `[DONE]`,
      parses, and yields a truthy token. */
  lemma LineTokenCases(parse: Parser, line: string)
    ensures LineToken(parse, line).Some? <==>
      && StartsWith(Trim(line), "data:")
      && Trim(Trim(line)[5..]) != "[DONE]"
      && parse(Trim(Trim(line)[5..])).Some?
      && Truthy(ChunkToken(parse(Trim(Trim(line)[5..])).value))
  {
  }

  // ---------------------------------------------------------------- the OpenAI-compatible call

  /** `s.replace(/\/$/, '')`: one trailing slash is removed. */
  function StripSlash(s: string): (r: string)
    ensures s == r || s == r + "/"
    ensures |s| > 0 && s[|s| - 1] == '/' ==> |r| == |s| - 1
  {
    if |s| > 0 && s[|s| - 1] == '/' then s[..|s| - 1] else s
  }

  function MessageJson(m: Message): Json {
    JObj([("role", JStr(RoleName(m.role))), ("content", JStr(m.content))])
  }

  function MessagesJson(ms: seq<Message>): (r: seq<Json>)
    ensures |r| == |ms|
    ensures forall i :: 0 <= i < |ms| ==> r[i] == MessageJson(ms[i])
  {
    seq(|ms|, i requires 0 <= i < |ms| => MessageJson(ms[i]))
  }

  /** `response_format` is left out of the JSON text when it is `undefined`. */
  function JsonFormat(json: bool): seq<(string, Json)> {
    if json then [("response_format", JObj([("type", JStr("json_object"))]))] else []
  }

  function ChatBody(req: Request): Json {
    JObj([("model", JStr(req.model)), ("messages", JArr(MessagesJson(req.messages))),
          ("stream", JBool(req.stream))] + JsonFormat(req.json))
  }

  /** The reply text in JSON mode becomes the parsed value, or the parse failure. */
  function Decide(parse: Parser, text: string, json: bool, plain: Json): (r: Result)
    ensures json ==> (r.Ok? <==> parse(text).Some?)
    ensures json && r.Ok? ==> r.data == parse(text).value
    ensures json && r.Err? ==> r.error == "JSON parse failed"
    ensures !json ==> r == Ok(plain)
  {
    if !json then Ok(plain)
    else match parse(text)
      case Some(v) => Ok(v)
      case None => Err("JSON parse failed")
  }

  /** `data?.choices?.[0]?.message?.content ?? ''` of a non-streamed reply. */
  function ReplyContent(data: Json): Json {
    var c := Path(Some(data), [Key("choices"), At(0), Key("message"), Key("content")]);
    if Nullish(c) then JStr([]) else c.value
  }

  /** The result of a successful response: the stream reader's text, or the first choice. */
  function Completed(e: Env, req: Request, status: nat, text: string, chunks: Option<seq<string>>): (r: Result)
    ensures req.stream && chunks.Some? ==>
      var full := Concat(Texts(e.show, StreamTokens(e.parse, Concat(chunks.value))));
      r == Decide(e.parse, full, req.json, JStr(full))
    ensures req.stream && chunks.None? ==> r == Err("No response body")
    ensures req.stream && chunks.Some? && !req.json ==>
      r == Ok(JStr(Concat(Texts(e.show, StreamTokens(e.parse, Concat(chunks.value))))))
    ensures !req.stream && e.parse(text).None? ==> r.Err?
    ensures !req.stream && e.parse(text).Some? && !req.json ==> r == Ok(ReplyContent(e.parse(text).value))
    ensures !req.stream && e.parse(text).Some? && req.json ==>
      var content := TokenText(e.show, ReplyContent(e.parse(text).value));
      && (r.Ok? <==> e.parse(content).Some?)
      && (r.Ok? ==> r.data == e.parse(content).value)
      && (r.Err? ==> r.error == "JSON parse failed")
  {
    if req.stream then
      if chunks.None? then Err("No response body")
      else
        var full := Concat(Texts(e.show, StreamTokens(e.parse, Concat(chunks.value))));
        Decide(e.parse, full, req.json, JStr(full))
    else
      match e.parse(text)
      case None => Err("response body is not JSON")
      case Some(data) =>
        var content := ReplyContent(data);
        Decide(e.parse, TokenText(e.show, content), req.json, content)
  }

  /** What a call returned together with the request it sent (`None`: nothing was sent)
      and the tokens handed to `onToken`. */
  datatype Outcome = Outcome(result: Result, sent: Option<HttpCall>, tokens: seq<Json>)

  /** `openaiCompatCall(compat, req)`. */
  function CompatCall(e: Env, baseUrl: string, keyHeader: string, apiKey: Option<string>, req: Request): (o: Outcome)
    ensures (apiKey.None? || apiKey.value == []) <==> o.sent.None?
    ensures o.sent.None? ==> o.result == Err("Missing API key") && o.tokens == []
    ensures o.sent.Some? ==> o.sent.value.url == StripSlash(baseUrl) + "/chat/completions"
    ensures o.sent.Some? ==> Record.Get(o.sent.value.headers, keyHeader) == Some("Bearer " + apiKey.value)
    ensures o.sent.Some? ==> o.sent.value.body == ChatBody(req)
    ensures o.tokens != [] ==> req.stream
    ensures o.sent.Some? && e.net(o.sent.value).Failed? ==>
      o.result == Err(e.net(o.sent.value).reason) && o.tokens == []
    ensures o.sent.Some? && e.net(o.sent.value).Response? && !(200 <= e.net(o.sent.value).status <= 299) ==>
      var res := e.net(o.sent.value);
      o.result == Err("HTTP " + NatToString(res.status) + ": " + res.text) && o.tokens == []
    ensures o.sent.Some? && e.net(o.sent.value).Response? && 200 <= e.net(o.sent.value).status <= 299 ==>
      var res := e.net(o.sent.value);
      && o.result == Completed(e, req, res.status, res.text, res.chunks)
      && o.tokens == (if req.stream && res.chunks.Some? then StreamTokens(e.parse, Concat(res.chunks.value)) else [])
  {
    if apiKey.None? || apiKey.value == [] then Outcome(Err("Missing API key"), None, [])
    else
      var call := HttpCall(StripSlash(baseUrl) + "/chat/completions",
                           Record.Put([("Content-Type", "application/json")], keyHeader, "Bearer " + apiKey.value),
                           ChatBody(req));
      match e.net(call)
      case Failed(reason) => Outcome(Err(reason), Some(call), [])
      case Response(status, text, chunks) =>
        if !(200 <= status <= 299) then Outcome(Err("HTTP " + NatToString(status) + ": " + text), Some(call), [])
        else
          var tokens := if req.stream && chunks.Some? then StreamTokens(e.parse, Concat(chunks.value)) else [];
          Outcome(Completed(e, req, status, text, chunks), Some(call), tokens)
  }

  /** In JSON mode a call succeeds exactly when the text parses, and then carries the parsed
      value: the whole streamed text, or the first choice's content of a plain reply. */
  lemma JsonModeIff(e: Env, baseUrl: string, keyHeader: string, key: string, req: Request, status: nat,
                    text: string, chunks: Option<seq<string>>)
    requires key != [] && req.json && 200 <= status <= 299
    requires e.net(CompatCall(e, baseUrl, keyHeader, Some(key), req).sent.value) == Response(status, text, chunks)
    ensures var r := CompatCall(e, baseUrl, keyHeader, Some(key), req).result;
            var full := Concat(Texts(e.show, StreamTokens(e.parse, Concat(chunks.GetOr([])))));
      && (req.stream && chunks.Some? ==> (r.Ok? <==> e.parse(full).Some?))
      && (req.stream && chunks.Some? && r.Ok? ==> r.data == e.parse(full).value)
      && (!req.stream ==>
           (r.Ok? <==> e.parse(text).Some? && e.parse(TokenText(e.show, ReplyContent(e.parse(text).value))).Some?))
      && (!req.stream && r.Ok? ==> r.data == e.parse(TokenText(e.show, ReplyContent(e.parse(text).value))).value)
  {
  }

  // ---------------------------------------------------------------- Anthropic

  /** `req.messages.find((m) => m.role === 'system')?.content`. */
  function SystemPrompt(ms: seq<Message>): (r: Option<string>)
    ensures r.None? <==> forall i :: 0 <= i < |ms| ==> ms[i].role != System
    ensures r.Some? ==> exists i :: 0 <= i < |ms| && ms[i].role == System && ms[i].content == r.value
                                    && forall j :: 0 <= j < i ==> ms[j].role != System
  {
    if |ms| == 0 then None
    else if ms[0].role == System then Some(ms[0].content)
    else
      var r := SystemPrompt(ms[1..]);
      assert forall i :: 1 <= i < |ms| ==> ms[i] == ms[1..][i - 1];
      if r.Some? then
        var i :| 0 <= i < |ms[1..]| && ms[1..][i].role == System && ms[1..][i].content == r.value
                 && forall j :: 0 <= j < i ==> ms[1..][j].role != System;
        assert ms[i + 1].role == System && ms[i + 1].content == r.value;
        r
      else r
  }

  /** `req.messages.filter((m) => m.role !== 'system')`. */
  function NonSystem(ms: seq<Message>): (r: seq<Message>)
    ensures |r| <= |ms|
    ensures forall i :: 0 <= i < |r| ==> r[i].role != System
    ensures (forall i :: 0 <= i < |ms| ==> ms[i].role != System) ==> r == ms
  {
    if |ms| == 0 then []
    else (if ms[0].role == System then [] else [ms[0]]) + NonSystem(ms[1..])
  }

  /** Filtering keeps relative order: the filter of a concatenation is the concatenation. */
  lemma {:induction false} NonSystemAppend(xs: seq<Message>, ys: seq<Message>)
    ensures NonSystem(xs + ys) == NonSystem(xs) + NonSystem(ys)
  {
    if |xs| == 0 {
      assert xs + ys == ys;
    } else {
      assert (xs + ys)[1..] == xs[1..] + ys;
      NonSystemAppend(xs[1..], ys);
    }
  }

  /** A message becomes one text block. */
  function AnthropicMessage(m: Message): Json {
    JObj([("role", JStr(RoleName(m.role))),
          ("content", JArr([JObj([("type", JStr("text")), ("text", JStr(m.content))])]))])
  }

  function AnthropicMessages(ms: seq<Message>): (r: seq<Json>)
    ensures |r| == |ms|
    ensures forall i :: 0 <= i < |ms| ==> r[i] == AnthropicMessage(ms[i])
  {
    seq(|ms|, i requires 0 <= i < |ms| => AnthropicMessage(ms[i]))
  }

  /** The Anthropic request body's fields, in order: the model, the system prompt when there
      is one, the messages, 2048 output tokens, no streaming, and the JSON response format
      only in JSON mode. */
  function AnthropicFields(model: string, sys: Option<string>, msgs: Json, json: bool): (fs: seq<(string, Json)>)
    ensures Record.Get(fs, "model") == Some(JStr(model))
    ensures sys.Some? ==> Record.Get(fs, "system") == Some(JStr(sys.value))
    ensures sys.None? ==> !Record.Has(fs, "system")
    ensures Record.Get(fs, "messages") == Some(msgs)
    ensures Record.Get(fs, "max_tokens") == Some(JNum(2048)) && Record.Get(fs, "stream") == Some(JBool(false))
    ensures Record.Has(fs, "response_format") <==> json
  {
    var pre := [("model", JStr(model))] + (if sys.Some? then [("system", JStr(sys.value))] else []);
    var post := [("messages", msgs), ("max_tokens", JNum(2048)), ("stream", JBool(false))] + JsonFormat(json);
    var all := pre + post;
    Record.GetAt(all, 0, "model");
    assert sys.Some? ==> Record.Get(all, "system") == Some(JStr(sys.value)) by {
      if sys.Some? { Record.GetAt(all, 1, "system"); }
    }
    Record.GetAt(all, |pre|, "messages");
    Record.GetAt(all, |pre| + 1, "max_tokens");
    Record.GetAt(all, |pre| + 2, "stream");
    assert json ==> Record.Has(all, "response_format") by {
      if json { Record.GetAt(all, |pre| + 3, "response_format"); }
    }
    assert sys.None? ==> !Record.Has(all, "system") by {
      if sys.None? {
        forall i | 0 <= i < |all| ensures all[i].0 != "system" {
          if i >= |pre| { assert all[i] == post[i - |pre|]; }
        }
        Record.Absent(all, "system");
      }
    }
    assert !json ==> !Record.Has(all, "response_format") by {
      if !json {
        forall i | 0 <= i < |all| ensures all[i].0 != "response_format" {
          if i >= |pre| { assert all[i] == post[i - |pre|]; }
        }
        Record.Absent(all, "response_format");
      }
    }
    all
  }

  /** `JSON.stringify`'s input for the Anthropic call; `system` is dropped when it is
      `undefined`, as `response_format` is outside JSON mode. */
  function AnthropicBody(req: Request): (j: Json)
    ensures j.JObj? && Field(j, "messages") == Some(JArr(AnthropicMessages(NonSystem(req.messages))))
    ensures Field(j, "model") == Some(JStr(req.model))
    ensures SystemPrompt(req.messages).Some? ==> Field(j, "system") == Some(JStr(SystemPrompt(req.messages).value))
    ensures SystemPrompt(req.messages).None? ==> Field(j, "system").None?
    ensures Field(j, "max_tokens") == Some(JNum(2048)) && Field(j, "stream") == Some(JBool(false))
    ensures Field(j, "response_format").Some? <==> req.json
  {
    JObj(AnthropicFields(req.model, SystemPrompt(req.messages), JArr(AnthropicMessages(NonSystem(req.messages))), req.json))
  }

  /** `data?.content?.[0]?.text ?? ''`. */
  function AnthropicContent(data: Json): Json {
    var c := Path(Some(data), [Key("content"), At(0), Key("text")]);
    if Nullish(c) then JStr([]) else c.value
  }

  /** `anthropicCall(req)`: never streams; the key comes from the configuration. */
  function AnthropicCall(e: Env, apiKey: Option<string>, req: Request): (o: Outcome)
    ensures (apiKey.None? || apiKey.value == []) <==> o.sent.None?
    ensures o.sent.None? ==> o.result == Err("Missing API key")
    ensures o.sent.Some? ==> o.sent.value.url == "https://api.anthropic.com/v1/messages"
    ensures o.sent.Some? ==> o.sent.value.body == AnthropicBody(req)
    ensures o.sent.Some? ==> Record.Get(o.sent.value.headers, "x-api-key") == Some(apiKey.value)
    ensures o.tokens == []
    ensures o.sent.Some? && e.net(o.sent.value).Failed? ==> o.result == Err(e.net(o.sent.value).reason)
    ensures o.sent.Some? && e.net(o.sent.value).Response? && !(200 <= e.net(o.sent.value).status <= 299) ==>
      var res := e.net(o.sent.value);
      o.result == Err("HTTP " + NatToString(res.status) + ": " + res.text)
    ensures o.sent.Some? && e.net(o.sent.value).Response? && 200 <= e.net(o.sent.value).status <= 299 ==>
      var data := e.parse(e.net(o.sent.value).text);
      && (data.None? ==> o.result.Err?)
      && (data.Some? && !req.json ==> o.result == Ok(AnthropicContent(data.value)))
      && (data.Some? && req.json ==>
            var content := TokenText(e.show, AnthropicContent(data.value));
            (o.result.Ok? <==> e.parse(content).Some?) && (o.result.Ok? ==> o.result.data == e.parse(content).value))
  {
    if apiKey.None? || apiKey.value == [] then Outcome(Err("Missing API key"), None, [])
    else
      var headers: Record.Rec<string> := [("Content-Type", "application/json"), ("x-api-key", apiKey.value),
                                          ("anthropic-version", "2023-06-01")];
      Record.GetAt(headers, 1, "x-api-key");
      var call := HttpCall("https://api.anthropic.com/v1/messages", headers, AnthropicBody(req));
      match e.net(call)
      case Failed(reason) => Outcome(Err(reason), Some(call), [])
      case Response(status, text, _) =>
        if !(200 <= status <= 299) then Outcome(Err("HTTP " + NatToString(status) + ": " + text), Some(call), [])
        else match e.parse(text)
          case None => Outcome(Err("response body is not JSON"), Some(call), [])
          case Some(data) =>
            var content := AnthropicContent(data);
            Outcome(Decide(e.parse, TokenText(e.show, content), req.json, content), Some(call), [])
  }

  // ---------------------------------------------------------------- the clients

  /** The configured entry of a text backend. */
  function ProviderEntry(cfg: Config.AppConfig, name: string): Option<Config.ProviderConfig> {
    Record.Get(cfg.providers, name)
  }

  /** `modelFor(p, req)`: a non-empty configured model replaces the request's. */
  function ModelFor(cfg: Config.AppConfig, name: string, req: Request): (r: Request)
    ensures r.(model := req.model) == req
    ensures var pc := ProviderEntry(cfg, name);
      r.model == if pc.Some? && pc.value.model.Some? && pc.value.model.value != [] then pc.value.model.value else req.model
  {
    var pc := ProviderEntry(cfg, name);
    if pc.Some? && pc.value.model.Some? && pc.value.model.value != [] then req.(model := pc.value.model.value)
    else req
  }

  /** The base URL of each OpenAI-compatible backend. */
  function BaseUrl(name: string): string {
    if name == "kimi" then "https://api.moonshot.cn/v1"
    else if name == "qwen" then "https://dashscope.aliyuncs.com/compatible-mode/v1"
    else if name == "glm" then "https://open.bigmodel.cn/api/paas/v4"
    else if name == "deepseek" then "https://api.deepseek.com/v1"
    else "https://api.openai.com/v1"
  }

  /** `limiterFor`: the per-backend concurrency is the configured one clamped to 1..2. */
  function LimiterSize(concurrency: int): (n: int)
    ensures 1 <= n <= 2
    ensures 1 <= concurrency <= 2 ==> n == concurrency
    ensures concurrency > 2 ==> n == 2
    ensures concurrency < 1 ==> n == 1
  {
    if concurrency > 2 then 2 else if concurrency < 1 then 1 else concurrency
  }

  /** `getClient(name).chat(req)`: the backend's call, with any failure replaced by the
      `{ placeholder: true }` demo value. Gemini always answers with the placeholder. */
  function Chat(e: Env, cfg: Config.AppConfig, name: string, req: Request): (o: Outcome)
    requires name in Config.ModelProviders
    ensures o.result.Ok?
    ensures name == "gemini" ==> o == Outcome(Ok(Placeholder), None, [])
  {
    if name == "gemini" then Outcome(Ok(Placeholder), None, [])
    else
      var key := if ProviderEntry(cfg, name).Some? then ProviderEntry(cfg, name).value.apiKey else None;
      var inner := if name == "anthropic" then AnthropicCall(e, key, ModelFor(cfg, name, req))
                   else CompatCall(e, BaseUrl(name), "Authorization", key, ModelFor(cfg, name, req));
      Substitute(inner)
  }

  /** `if (!res.ok) return { ok: true, data: await fakeCall(req) }`. */
  function Substitute(inner: Outcome): (o: Outcome)
    ensures o.result.Ok?
    ensures inner.result.Ok? ==> o == inner
    ensures inner.result.Err? ==> o.result == Ok(Placeholder) && o.sent == inner.sent && o.tokens == inner.tokens
  {
    if inner.result.Ok? then inner else inner.(result := Ok(Placeholder))
  }

  /** A wrapped backend without an API key sends nothing and answers with the placeholder. */
  lemma ChatWithoutKey(e: Env, cfg: Config.AppConfig, name: string, req: Request)
    requires name in Config.ModelProviders
    requires ProviderEntry(cfg, name).None? || ProviderEntry(cfg, name).value.apiKey.None?
             || ProviderEntry(cfg, name).value.apiKey.value == []
    ensures Chat(e, cfg, name, req) == Outcome(Ok(Placeholder), None, [])
  {
  }
}

=== FILE: record.dfy ===
/** JavaScript objects with string keys: entries in insertion order, every key once.
    Object spread `{ ...a, ...b }` is `Overlay(a, b)`; assignment `o[k] = v` is `Put`. */
module Record {
  import opened Wrappers

  predicate UniqueKeys<V>(r: seq<(string, V)>) {
    forall i, j :: 0 <= i < j < |r| ==> r[i].0 != r[j].0
  }

  type Rec<V> = r: seq<(string, V)> | UniqueKeys(r) witness []

  /** `Object.keys(r)`. */
  function Keys<V>(r: seq<(string, V)>): (ks: seq<string>)
    ensures |ks| == |r|
    ensures forall i :: 0 <= i < |r| ==> ks[i] == r[i].0
  {
    if |r| == 0 then [] else [r[0].0] + Keys(r[1..])
  }

  /** The position of the first entry with key `k`, or `|r|` when there is none. */
  function Find<V>(r: seq<(string, V)>, k: string): (i: nat)
    ensures i <= |r|
    ensures i < |r| ==> r[i].0 == k
    ensures forall j :: 0 <= j < i ==> r[j].0 != k
  {
    if |r| == 0 then 0 else if r[0].0 == k then 0 else 1 + Find(r[1..], k)
  }

  predicate Has<V>(r: seq<(string, V)>, k: string) {
    Find(r, k) < |r|
  }

  /** `r[k]`, with `None` for a missing key. */
  function Get<V>(r: seq<(string, V)>, k: string): (v: Option<V>)
    ensures v.Some? <==> Has(r, k)
  {
    var i := Find(r, k);
    if i < |r| then Some(r[i].1) else None
  }

  /** With unique keys, the entry at position `i` is the one a lookup of its key finds. */
  lemma GetAt<V>(r: Rec<V>, i: nat, k: string)
    requires i < |r| && r[i].0 == k
    ensures Find(r, k) == i && Get(r, k) == Some(r[i].1)
  {
  }

  /** A key no entry carries is missing. */
  lemma Absent<V>(r: seq<(string, V)>, k: string)
    requires forall i :: 0 <= i < |r| ==> r[i].0 != k
    ensures !Has(r, k) && Get(r, k) == None
  {
  }

  /** Two entry lists with the same key at every position find every key at the same place. */
  lemma SameKeysSameFind<V, W>(r: seq<(string, V)>, s: seq<(string, W)>, k: string)
    requires |r| == |s| && forall i :: 0 <= i < |r| ==> r[i].0 == s[i].0
    ensures Find(r, k) == Find(s, k)
  {
    var a, b := Find(r, k), Find(s, k);
    assert a < |r| ==> s[a].0 == k;
    assert b < |s| ==> r[b].0 == k;
  }

  /** Appending entries does not move the keys already present. */
  lemma FindAppend<V>(r: seq<(string, V)>, tail: seq<(string, V)>, k: string)
    ensures Find(r + tail, k) == if Has(r, k) then Find(r, k) else |r| + Find(tail, k)
  {
    if |r| > 0 {
      assert (r + tail)[1..] == r[1..] + tail;
      FindAppend(r[1..], tail, k);
    } else {
      assert r + tail == tail;
    }
  }

  /** An object literal: each key paired with the value at the same position. */
  function FromEntries<V>(keys: seq<string>, vals: seq<V>): (r: Rec<V>)
    requires |keys| == |vals|
    requires forall i, j :: 0 <= i < j < |keys| ==> keys[i] != keys[j]
    ensures Keys(r) == keys
    ensures forall k :: Has(r, k) <==> k in keys
    ensures forall i :: 0 <= i < |keys| ==> Get(r, keys[i]) == Some(vals[i])
  {
    var r := seq(|keys|, i requires 0 <= i < |keys| => (keys[i], vals[i]));
    forall i | 0 <= i < |keys| ensures Get(r, keys[i]) == Some(vals[i]) {
      GetAt(r, i, keys[i]);
    }
    forall k | Has(r, k) ensures k in keys {
      assert r[Find(r, k)].0 == keys[Find(r, k)];
    }
    r
  }

  /** `r[k] = v`: an existing key keeps its position, a new key goes last. */
  function Put<V>(r: Rec<V>, k: string, v: V): (out: Rec<V>)
    ensures Get(out, k) == Some(v)
    ensures forall k' :: k' != k ==> Get(out, k') == Get(r, k')
    ensures Has(r, k) ==> Keys(out) == Keys(r)
    ensures !Has(r, k) ==> Keys(out) == Keys(r) + [k]
  {
    if Has(r, k) then
      ReplaceFacts(r, k, v);
      Replace(r, k, v)
    else
      AddFacts(r, k, v);
      r + [(k, v)]
  }

  /** The entries of `r` with the value under key `k` replaced. */
  function Replace<V>(r: seq<(string, V)>, k: string, v: V): (out: seq<(string, V)>)
    ensures |out| == |r| && forall i :: 0 <= i < |r| ==> out[i].0 == r[i].0
  {
    seq(|r|, i requires 0 <= i < |r| => if r[i].0 == k then (k, v) else r[i])
  }

  lemma ReplaceFacts<V>(r: Rec<V>, k: string, v: V)
    requires Has(r, k)
    ensures UniqueKeys(Replace(r, k, v))
    ensures Keys(Replace(r, k, v)) == Keys(r)
    ensures Get(Replace(r, k, v), k) == Some(v)
    ensures forall k' :: k' != k ==> Get(Replace(r, k, v), k') == Get(r, k')
  {
    var out := Replace(r, k, v);
    forall k' ensures Find(out, k') == Find(r, k') {
      SameKeysSameFind(out, r, k');
    }
  }

  lemma AddFacts<V>(r: Rec<V>, k: string, v: V)
    requires !Has(r, k)
    ensures UniqueKeys(r + [(k, v)])
    ensures Keys(r + [(k, v)]) == Keys(r) + [k]
    ensures Get(r + [(k, v)], k) == Some(v)
    ensures forall k' :: k' != k ==> Get(r + [(k, v)], k') == Get(r, k')
  {
    var out := r + [(k, v)];
    assert UniqueKeys(out) by {
      assert forall i :: 0 <= i < |r| ==> r[i].0 != k;
    }
    assert Keys(out) == Keys(r) + [k];
    assert Get(out, k) == Some(v) by {
      FindAppend(r, [(k, v)], k);
    }
    forall k' | k' != k ensures Get(out, k') == Get(r, k') {
      FindAppend(r, [(k, v)], k');
    }
  }

  /** `{ ...a, ...b }`: the entries of `b`, in order, assigned onto `a`. */
  function Overlay<V>(a: Rec<V>, b: Rec<V>): Rec<V>
    decreases |b|
  {
    if |b| == 0 then a else Overlay(Put(a, b[0].0, b[0].1), b[1..])
  }

  /** A spread reads the right operand first, then the left. */
  lemma {:induction false} GetOverlay<V>(a: Rec<V>, b: Rec<V>, k: string)
    ensures Get(Overlay(a, b), k) == if Has(b, k) then Get(b, k) else Get(a, k)
    decreases |b|
  {
    if |b| > 0 {
      var a' := Put(a, b[0].0, b[0].1);
      var b' := b[1..];
      GetOverlay(a', b', k);
      assert Overlay(a, b) == Overlay(a', b');
      TailLookup(b, k);
    }
  }

  /** Looking a key up past the first entry. */
  lemma TailLookup<V>(b: Rec<V>, k: string)
    requires |b| > 0
    ensures b[0].0 != k ==> Get(b, k) == Get(b[1..], k)
    ensures b[0].0 == k ==> Get(b, k) == Some(b[0].1) && !Has(b[1..], k)
  {
    if b[0].0 != k {
      assert Find(b, k) == 1 + Find(b[1..], k);
    } else {
      assert forall j :: 0 <= j < |b| - 1 ==> b[1..][j].0 != k;
    }
  }

  /** An assignment keeps the keys already present where they were. */
  lemma PutPrefix<V>(a: Rec<V>, k: string, v: V)
    ensures |a| <= |Put(a, k, v)|
    ensures forall i :: 0 <= i < |a| ==> Put(a, k, v)[i].0 == a[i].0
  {
    var out := Put(a, k, v);
    assert Keys(out)[..|a|] == Keys(a);
  }

  lemma {:induction false} OverlayPrefix<V>(a: Rec<V>, b: Rec<V>)
    ensures |a| <= |Overlay(a, b)|
    ensures forall i :: 0 <= i < |a| ==> Overlay(a, b)[i].0 == a[i].0
    decreases |b|
  {
    if |b| > 0 {
      var a' := Put(a, b[0].0, b[0].1);
      PutPrefix(a, b[0].0, b[0].1);
      OverlayPrefix(a', b[1..]);
    }
  }

  /** A spread keeps the left operand's keys first, in their order. */
  lemma KeysOverlayPrefix<V>(a: Rec<V>, b: Rec<V>)
    ensures |Keys(a)| <= |Keys(Overlay(a, b))|
    ensures Keys(Overlay(a, b))[..|a|] == Keys(a)
  {
    OverlayPrefix(a, b);
  }

  /** A spread has exactly the keys of both operands. */
  lemma {:induction false} HasOverlay<V>(a: Rec<V>, b: Rec<V>, k: string)
    ensures Has(Overlay(a, b), k) <==> Has(a, k) || Has(b, k)
  {
    GetOverlay(a, b, k);
  }

  /** Assigning a key the value it already holds changes nothing. */
  lemma PutSame<V>(r: Rec<V>, k: string, v: V)
    requires Get(r, k) == Some(v)
    ensures Put(r, k, v) == r
  {
    var out := Put(r, k, v);
    var i := Find(r, k);
    assert forall j :: 0 <= j < |r| && r[j].0 == k ==> j == i;
  }

  /** Spreading entries that `r` already holds changes nothing. */
  lemma {:induction false} OverlayAbsorbs<V>(r: Rec<V>, b: Rec<V>)
    requires forall k :: Has(b, k) ==> Get(r, k) == Get(b, k)
    ensures Overlay(r, b) == r
    decreases |b|
  {
    if |b| > 0 {
      assert Has(b, b[0].0);
      PutSame(r, b[0].0, b[0].1);
      var b' := b[1..];
      forall k | Has(b', k) ensures Get(r, k) == Get(b', k) {
        var j := Find(b', k);
        assert b[1 + j].0 == k;
        assert Find(b, k) == 1 + j;
      }
      OverlayAbsorbs(r, b');
    }
  }

  /** Spreading the same entries twice is spreading them once. */
  lemma OverlayTwice<V>(a: Rec<V>, b: Rec<V>)
    ensures Overlay(Overlay(a, b), b) == Overlay(a, b)
  {
    forall k | Has(b, k) ensures Get(Overlay(a, b), k) == Get(b, k) {
      GetOverlay(a, b, k);
    }
    OverlayAbsorbs(Overlay(a, b), b);
  }

  /** Spreading only keys that `a` already has keeps `a`'s keys and their order. */
  lemma {:induction false} OverlayKeysKept<V>(a: Rec<V>, b: Rec<V>)
    requires forall k :: Has(b, k) ==> Has(a, k)
    ensures Keys(Overlay(a, b)) == Keys(a)
    ensures forall k :: Has(Overlay(a, b), k) <==> Has(a, k)
    decreases |b|
  {
    if |b| > 0 {
      assert Has(b, b[0].0);
      var a' := Put(a, b[0].0, b[0].1);
      forall k | Has(b[1..], k) ensures Has(a', k) {
        assert b[1 + Find(b[1..], k)].0 == k;
        assert Has(b, k) && Has(a, k);
        if k != b[0].0 { assert Get(a', k) == Get(a, k); }
      }
      forall k ensures Has(a', k) <==> Has(a, k) {
        assert Get(a', k).Some? <==> Get(a, k).Some?;
      }
      OverlayKeysKept(a', b[1..]);
    }
  }

  /** `Object.fromEntries(Object.entries(r).map(([k, v]) => [k, f(k, v)]))`. */
  function MapEntries<V, W>(r: Rec<V>, f: (string, V) -> W): (out: Rec<W>)
    ensures Keys(out) == Keys(r)
    ensures forall k :: Has(out, k) <==> Has(r, k)
    ensures forall k :: Has(r, k) ==> Get(out, k) == Some(f(k, Get(r, k).value))
  {
    var out := seq(|r|, i requires 0 <= i < |r| => (r[i].0, f(r[i].0, r[i].1)));
    assert forall k :: Find(out, k) == Find(r, k) by {
      forall k ensures Find(out, k) == Find(r, k) {
        SameKeysSameFind(out, r, k);
      }
    }
    out
  }
}

=== FILE: text.dfy ===
/** Strings as JavaScript sees them: the `\s` class, `trim`, `startsWith`,
    `includes`, `split('\n')` and `join`. Characters are Unicode scalar values, where
    JavaScript counts UTF-16 code units. */
module Text {

  /** JavaScript's `\s` class; `String.prototype.trim` strips exactly this set. */
  predicate IsWs(c: char) {
    || c == ' ' || c == '\t' || c == '\n' || c == '\r' || c == '\U{0B}' || c == '\U{0C}'
    || c == '\U{A0}' || c == '\U{1680}' || ('\U{2000}' <= c <= '\U{200A}')
    || c == '\U{2028}' || c == '\U{2029}' || c == '\U{202F}' || c == '\U{205F}'
    || c == '\U{3000}' || c == '\U{FEFF}'
  }

  predicate AllWs(s: string) {
    forall k :: 0 <= k < |s| ==> IsWs(s[k])
  }

  predicate NoNewline(s: string) {
    forall k :: 0 <= k < |s| ==> s[k] != '\n'
  }

  /** The first index at or after `p` that does not hold whitespace (`|s|` if none). */
  function SkipWs(s: string, p: nat): (q: nat)
    requires p <= |s|
    ensures p <= q <= |s|
    ensures forall k :: p <= k < q ==> IsWs(s[k])
    ensures q < |s| ==> !IsWs(s[q])
    decreases |s| - p
  {
    if p == |s| || !IsWs(s[p]) then p else SkipWs(s, p + 1)
  }

  /** One past the last index before `e` that does not hold whitespace (0 if none). */
  function SkipWsBack(s: string, e: nat): (b: nat)
    requires e <= |s|
    ensures b <= e
    ensures forall k :: b <= k < e ==> IsWs(s[k])
    ensures b > 0 ==> !IsWs(s[b - 1])
  {
    if e == 0 || !IsWs(s[e - 1]) then e else SkipWsBack(s, e - 1)
  }

  /** `s.trim()`. */
  function Trim(s: string): (r: string)
    ensures |r| <= |s|
    ensures r == [] || (!IsWs(r[0]) && !IsWs(r[|r| - 1]))
    ensures AllWs(s) <==> r == []
    ensures r != [] ==> var a := SkipWs(s, 0);
      a + |r| <= |s| && r == s[a..a + |r|] && AllWs(s[a + |r|..])
  {
    var q := SkipWs(s, 0);
    var e := SkipWsBack(s, |s|);
    if q < e then s[q..e] else []
  }

  /** `s.trim() !== ''`: the string holds some non-whitespace character. */
  predicate NotBlank(s: string) {
    Trim(s) != []
  }

  /** `s.startsWith(prefix)`. */
  predicate StartsWith(s: string, prefix: string) {
    |prefix| <= |s| && s[..|prefix|] == prefix
  }

  /** `hay.includes(needle)`. */
  predicate Contains(hay: string, needle: string)
    decreases |hay|
  {
    StartsWith(hay, needle) || (|hay| > 0 && Contains(hay[1..], needle))
  }

  lemma {:induction false} ContainsEmpty(hay: string)
    ensures Contains(hay, [])
  {
    assert StartsWith(hay, []);
  }

  /** A string contains whatever sits inside it. */
  lemma {:induction false} ContainsMiddle(a: string, b: string, c: string)
    ensures Contains(a + b + c, b)
    decreases |a|
  {
    if |a| == 0 {
      assert a + b + c == b + c;
      assert (b + c)[..|b|] == b;
    } else {
      ContainsMiddle(a[1..], b, c);
      assert (a + b + c)[1..] == a[1..] + b + c;
    }
  }

  /** What `b` contains, `a + b` contains too. */
  lemma {:induction false} ContainsAfter(a: string, b: string, n: string)
    requires Contains(b, n)
    ensures Contains(a + b, n)
    decreases |a|
  {
    if |a| > 0 {
      ContainsAfter(a[1..], b, n);
      assert (a + b)[1..] == a[1..] + b;
    } else {
      assert a + b == b;
    }
  }

  /** The concatenation of pieces contains each piece. */
  lemma {:induction false} ConcatContains(xs: seq<string>, i: nat)
    requires i < |xs|
    ensures Contains(Concat(xs), xs[i])
    decreases |xs|
  {
    if i == 0 {
      ContainsMiddle([], xs[0], Concat(xs[1..]));
      assert [] + xs[0] + Concat(xs[1..]) == Concat(xs);
    } else {
      ConcatContains(xs[1..], i - 1);
      ContainsAfter(xs[0], Concat(xs[1..]), xs[i]);
    }
  }

  lemma NoNewlineAppend(a: string, b: string)
    requires NoNewline(a) && NoNewline(b)
    ensures NoNewline(a + b)
  {
    forall k | 0 <= k < |a + b| ensures (a + b)[k] != '\n' {
      if k >= |a| { assert (a + b)[k] == b[k - |a|]; }
    }
  }

  /** `s.split('\n')`: the pieces between newlines, always at least one. */
  function SplitLines(s: string): (r: seq<string>)
    ensures |r| >= 1
    ensures forall i :: 0 <= i < |r| ==> NoNewline(r[i])
  {
    if |s| == 0 then [[]]
    else if s[0] == '\n' then [[]] + SplitLines(s[1..])
    else
      var t := SplitLines(s[1..]);
      [[s[0]] + t[0]] + t[1..]
  }

  function Last<T>(xs: seq<T>): T
    requires |xs| > 0
  {
    xs[|xs| - 1]
  }

  /** `xs.join(sep)`. */
  function Join(xs: seq<string>, sep: string): string {
    if |xs| == 0 then []
    else if |xs| == 1 then xs[0]
    else xs[0] + sep + Join(xs[1..], sep)
  }

  /** Concatenation of all pieces (`xs.join('')`). */
  function Concat(xs: seq<string>): string {
    if |xs| == 0 then [] else xs[0] + Concat(xs[1..])
  }

  lemma {:induction false} ConcatAppend(xs: seq<string>, ys: seq<string>)
    ensures Concat(xs + ys) == Concat(xs) + Concat(ys)
  {
    if |xs| == 0 {
      assert xs + ys == ys;
    } else {
      assert (xs + ys)[1..] == xs[1..] + ys;
      ConcatAppend(xs[1..], ys);
    }
  }

  /** Splitting is undone by joining with newlines. */
  lemma {:induction false} JoinSplitLines(s: string)
    ensures Join(SplitLines(s), "\n") == s
  {
    if |s| == 0 {
    } else if s[0] == '\n' {
      JoinSplitLines(s[1..]);
      assert s == "\n" + s[1..];
    } else {
      var t := SplitLines(s[1..]);
      JoinSplitLines(s[1..]);
      if |t| == 1 {
        assert s == [s[0]] + s[1..];
      } else {
        assert ([[s[0]] + t[0]] + t[1..])[1..] == t[1..];
        assert s == [s[0]] + s[1..];
      }
    }
  }

  /** A string without newlines is a single line. */
  lemma {:induction false} SplitNoNewline(s: string)
    requires NoNewline(s)
    ensures SplitLines(s) == [s]
  {
    if |s| > 0 {
      SplitNoNewline(s[1..]);
      assert [s[0]] + s[1..] == s;
    }
  }

  lemma AppendAssoc<T>(x: seq<T>, y: seq<T>, z: seq<T>)
    ensures x + (y + z) == x + y + z
  {
  }

  /** Splitting at a newline that sits between two strings splits each of them. */
  lemma {:induction false} SplitNewlineJoin(a: string, b: string)
    ensures SplitLines(a + "\n" + b) == SplitLines(a) + SplitLines(b)
    decreases |a|
  {
    if |a| == 0 {
      assert a + "\n" + b == "\n" + b;
      assert ("\n" + b)[1..] == b;
    } else {
      var s := a + "\n" + b;
      assert s[0] == a[0];
      assert s[1..] == a[1..] + "\n" + b;
      SplitNewlineJoin(a[1..], b);
      var s1 := SplitLines(a[1..]);
      var t := SplitLines(s[1..]);
      assert t == s1 + SplitLines(b);
      var sb := SplitLines(b);
      if a[0] == '\n' {
        assert SplitLines(s) == [[]] + (s1 + sb);
        assert SplitLines(a) == [[]] + s1;
        AppendAssoc([[]], s1, sb);
      } else {
        var h := [a[0]] + s1[0];
        assert t[0] == s1[0];
        assert t[1..] == s1[1..] + sb;
        assert SplitLines(s) == [h] + (s1[1..] + sb);
        assert SplitLines(a) == [h] + s1[1..];
        AppendAssoc([h], s1[1..], sb);
      }
    }
  }

  /** Splitting a concatenation: the last piece of `a` is glued to the front of `b`. */
  lemma {:induction false} SplitAppend(a: string, b: string)
    ensures var sa := SplitLines(a);
            SplitLines(a + b) == sa[..|sa| - 1] + SplitLines(Last(sa) + b)
  {
    if |a| == 0 {
      assert a + b == b;
    } else {
      SplitAppend(a[1..], b);
      if a[0] == '\n' {
        SplitAppendNewline(a, b);
      } else if |SplitLines(a[1..])| == 1 {
        SplitAppendOneLine(a, b);
      } else {
        SplitAppendLines(a, b);
      }
    }
  }

  /** The inductive step of `SplitAppend` when `a` starts with a newline. */
  lemma SplitAppendNewline(a: string, b: string)
    requires |a| > 0
    requires var s1 := SplitLines(a[1..]);
             SplitLines(a[1..] + b) == s1[..|s1| - 1] + SplitLines(Last(s1) + b)
    requires a[0] == '\n'
    ensures var sa := SplitLines(a);
            SplitLines(a + b) == sa[..|sa| - 1] + SplitLines(Last(sa) + b)
  {
    var sa := SplitLines(a);
    var s := a + b;
    assert s[0] == a[0];
    assert s[1..] == a[1..] + b;
    var s1 := SplitLines(a[1..]);
    var t := SplitLines(s[1..]);
    var m := SplitLines(Last(s1) + b);
    assert sa == [[]] + s1;
    assert Last(sa) == Last(s1);
    assert sa[..|sa| - 1] == [[]] + s1[..|s1| - 1];
    assert SplitLines(s) == [[]] + (s1[..|s1| - 1] + m);
    AppendAssoc([[]], s1[..|s1| - 1], m);
  }

  /** The inductive step of `SplitAppend` when `a` is one line. */
  lemma SplitAppendOneLine(a: string, b: string)
    requires |a| > 0
    requires var s1 := SplitLines(a[1..]);
             SplitLines(a[1..] + b) == s1[..|s1| - 1] + SplitLines(Last(s1) + b)
    requires a[0] != '\n' && |SplitLines(a[1..])| == 1
    ensures var sa := SplitLines(a);
            SplitLines(a + b) == sa[..|sa| - 1] + SplitLines(Last(sa) + b)
  {
    var sa := SplitLines(a);
    var s := a + b;
    assert s[0] == a[0];
    assert s[1..] == a[1..] + b;
    var s1 := SplitLines(a[1..]);
    var t := SplitLines(s[1..]);
    var m := SplitLines(Last(s1) + b);
    JoinSplitLines(a[1..]);
    assert Last(s1) == a[1..];
    assert sa == [[a[0]] + a[1..]];
    assert [a[0]] + a[1..] == a;
    assert t == m;
  }

  /** The inductive step of `SplitAppend` when the rest of `a` spans several lines. */
  lemma SplitAppendLines(a: string, b: string)
    requires |a| > 0
    requires var s1 := SplitLines(a[1..]);
             SplitLines(a[1..] + b) == s1[..|s1| - 1] + SplitLines(Last(s1) + b)
    requires a[0] != '\n' && |SplitLines(a[1..])| > 1
    ensures var sa := SplitLines(a);
            SplitLines(a + b) == sa[..|sa| - 1] + SplitLines(Last(sa) + b)
  {
    var sa := SplitLines(a);
    var s := a + b;
    assert s[0] == a[0];
    assert s[1..] == a[1..] + b;
    var s1 := SplitLines(a[1..]);
    var t := SplitLines(s[1..]);
    var m := SplitLines(Last(s1) + b);
    var h := [a[0]] + s1[0];
    assert sa == [h] + s1[1..];
    assert Last(sa) == Last(s1);
    assert t[0] == s1[0];
    assert t[1..] == s1[1..|s1| - 1] + m;
    assert sa[..|sa| - 1] == [h] + s1[1..|s1| - 1];
    assert SplitLines(s) == [h] + (s1[1..|s1| - 1] + m);
    AppendAssoc([h], s1[1..|s1| - 1], m);
  }

  /** Joining newline-free lines with newlines and splitting again gives the lines back. */
  lemma {:induction false} SplitJoinLines(xs: seq<string>)
    requires |xs| >= 1
    requires forall i :: 0 <= i < |xs| ==> NoNewline(xs[i])
    ensures SplitLines(Join(xs, "\n")) == xs
  {
    SplitNoNewline(xs[0]);
    if |xs| > 1 {
      SplitJoinLines(xs[1..]);
      SplitNewlineJoin(xs[0], Join(xs[1..], "\n"));
      assert xs == [xs[0]] + xs[1..];
    }
  }

  /** `s.indexOf('\n')`: the first newline's index, or -1 when there is none. */
  function IndexOfNewline(s: string): (i: int)
    ensures -1 <= i < |s|
    ensures i >= 0 ==> s[i] == '\n' && NoNewline(s[..i])
    ensures i < 0 ==> NoNewline(s)
  {
    if |s| == 0 then -1
    else if s[0] == '\n' then 0
    else
      var j := IndexOfNewline(s[1..]);
      if j < 0 then -1 else j + 1
  }

  /** The lines of `s` before its first newline at `i`, then the rest. */
  lemma {:induction false} SplitAtNewline(s: string, i: nat)
    requires i < |s| && s[i] == '\n' && NoNewline(s[..i])
    ensures SplitLines(s) == [s[..i]] + SplitLines(s[i + 1..])
  {
    SplitNoNewline(s[..i]);
    SplitNewlineJoin(s[..i], s[i + 1..]);
    assert s[..i] + "\n" + s[i + 1..] == s;
  }

  /** `String(n)` for a natural number: decimal digits, no leading zeros. */
  function NatToString(n: nat): (r: string)
    ensures |r| >= 1
    ensures forall k :: 0 <= k < |r| ==> '0' <= r[k] <= '9'
  {
    if n < 10 then [Digit(n)] else NatToString(n / 10) + [Digit(n % 10)]
  }

  function Digit(d: nat): (c: char)
    requires d < 10
    ensures '0' <= c <= '9'
  {
    ['0', '1', '2', '3', '4', '5', '6', '7', '8', '9'][d]
  }
}

=== FILE: wrappers.dfy ===
/** Optional values, the model of TypeScript's `T | undefined`. */
module Wrappers {

  datatype Option<+T> = None | Some(value: T) {

    /** The value, or `default` when absent (TypeScript's `x ?? default`). */
    function GetOr(default: T): T {
      match this
      case Some(v) => v
      case None => default
    }
  }
}
